=== FILE: README.md ===
# Chat-over-UDP protocol engine, modelled in Dafny

The system is a small chat application. Clients and a server exchange
segments over UDP, using a TCP-like protocol of its own. This project
models the protocol engine as pure functions over immutable state, and
proves properties of it:

- **Segment codec** (`Codec`, `Flags`, `Bytes`):
  - the 25-byte header plus username frame: `!HHIIBH`, a 10-byte
    NUL-padded username, then the payload;
  - the 16-bit checksum, exactly as written;
  - the setters, each of which recomputes the checksum;
  - the six factories and the decoder `from_bytes`;
  - the four-boolean flag set, its list and bitfield encodings, and its
    composite predicates.
- **Fragmentation and the sliding-window sender** (`Fragments`, `Window`):
  - `_split_message_to_segments` and reassembly by ascending sequence
    number;
  - `send_segment` and the receive path of `listen`;
  - the guard and the step of `close_connection`;
  - the window loop of `_send_message`, as step functions: send a burst,
    handle an ACK (the slide), retransmit at time `t`. It is driven by a
    `method` over a finite script of events.
- **Server** (`Server`): the `receive` dispatcher, handled in source
  priority order:
  - heartbeat delivery from a per-client cursor;
  - FIN, FIN-ACK, SYN, and the handshake ACK;
  - per-client fragment buffering with duplicate detection and
    reassembly;
  - the `!disconnect` / `!kill ` / `!change ` commands;
  - `remove_client`, and the removal rule of `monitor_heartbeats`.
- **Client** (`Client`):
  - the handshake numbering of `connect`;
  - one turn of the listener;
  - `receive`, which nothing calls: only `Node.listen` calls `receive`,
    and only the server runs `listen`. The client's listener reads the
    socket itself and handles FIN there (src/Client.py:103-116);
  - the segment a heartbeat sends.
- **Connection record** (`Connections`) and the bounded message history
  (`Messages`).

Modelling conventions:

- **Text.** Text (messages, usernames) is `seq<byte>`, and encoding and
  decoding are the identity, so character counts and byte counts
  coincide. This holds for ASCII text only, and it is a modelling choice,
  not a limit the program keeps: the server's own emoticon replacement
  (`EMOTICONS`, src/Server.py:18-32, applied at src/Server.py:289-292)
  writes non-ASCII emoji into the log it relays. See the
  `Fragments.Split` and `Window.SendMessage` lines under "## Left out".
- **Constants.** The constants of `lib/Constant.py` (not part of this
  model) are parameters:
  - `PAYLOAD_SIZE` is `P ≥ 1`;
  - `WINDOW_SIZE` is `W ≥ 1`;
  - `MESSAGES_LIMIT` is `limit`;
  - the four flag bits are `FlagBits`, a record of four distinct bit
    positions below 8, with `DEFAULT_FLAG = 0`.
- **Time.** Time is an integer count of microseconds supplied by the
  caller. The 2.5 s retransmit delay is `RETRANSMIT_AFTER = 2_500_000`
  and `HEARTBEAT_TIMEOUT` is `30_000_000`.
- **Randomness.** The random initial sequence numbers are inputs
  constrained to 1000..50000.
- **Outputs.** Segments to send and messages to deliver are returned as
  lists of actions.
- **Errors.** Python exceptions are explicit outcomes:
  - `Result.Err` for `struct.pack` / `unpack` failures;
  - `Outcome.Crash` for an exception that escapes the server's main loop,
    which only catches `socket.error`;
  - `Outcome.Halted` for the accepted `!kill`.

Behaviour of the code that the proofs make precise, and that a reader of
the code may not expect:

- **The decoder's "valid" flag is not always true.** `from_bytes` builds
  the segment, and so computes its checksum, with both ports 0. It then
  stores the received ports and checks again. The flag is therefore true
  exactly when `(srcPort + dstPort) % 65536 == 0` (`Codec.ValidityIsPortSum`).
  Every frame this program emits has both ports 0, so in practice it
  reads valid (`Codec.EmittedFramesValid`). The received checksum bytes
  are never consulted (`Codec.FromBytesIgnoresChecksum`), and corrupting
  any byte after the ports goes unnoticed (`Codec.CorruptionUndetected`).
- **The checksum drops carries.** Its carry fold tests `sum >> 0xffff`, so
  it never runs for any frame the program can build
  (`Codec.FoldNeverFires`). The result is the complement of the low 16 bits
  of the plain sum, not the ones'-complement Internet checksum of RFC 1071.
  `Codec.CarryDropped` gives a four-byte input on which the two differ.
- **Sequence numbers are off by one across the handshake.** The server
  takes the client's next number to be the handshake ACK's sequence number
  plus one. That is one past the number the client actually sends from
  (`Client.HandshakeNumbers`).
- **A stray ACK is announced as a join.** Any ACK without PSH from a
  connected client lands in the handshake branch. The client's ACK of a
  chat fragment is one. Such an ACK appends "`<name>` joined!" to the log
  again (`Server.StrayAckAnnouncesJoin`).
- **A heartbeat after a timeout crashes the server.** `monitor_heartbeats`
  removes only the connection. A heartbeat from that client afterwards
  indexes the missing connection while the log is non-empty, and the
  server's loop ends (`Server.HeartbeatAfterTimeoutCrashes`).
- **A command keeps the buffer.** After a command message the client's
  buffer is kept. The next message's fragment with the same sequence
  number is then taken for a duplicate and dropped
  (`Server.CommandKeepsBuffer`).

The server and sender models follow the code as written, including the
two defects listed under "## Findings": `Server.OnData` answers a
duplicate with `seq + 1`, and `Window.Round` / `Window.SendMessage` take
the sweep as a parameter, `asWritten`, which selects the source's sweep
or the corrected one. Each corrected definition carries its own proof of
the intended behaviour.

## Model

| member | source | states |
|---|---|---|
| Bytes.Strip | src/Server.py:233 | `str.strip()`: the result is a slice of the input with only whitespace removed from either end, and it neither starts nor ends with whitespace |
| Flags.FromList | src/lib/SegmentFlag.py:13-17 | the list constructor reads fin, syn, psh and ack from positions 0..3: its list form is the first four entries |
| Flags.ListRoundTrip | src/lib/SegmentFlag.py:13-17 | the list constructor maps positions 0..3 to fin, syn, psh, ack, ignores extra entries, and inverts the factories' list form |
| Flags.ValueBits | src/lib/SegmentFlag.py:22-29 | the bits of `get_flag_value` are exactly the bits of the flags that are set |
| Flags.Value | src/lib/SegmentFlag.py:22-29 | with four distinct single-bit constants, `get_flag_value` fits the one-byte `B` field and `SegmentFlag(get_flag_value())` has the same four booleans |
| Flags.FromIntMasks | src/lib/SegmentFlag.py:7-12 | the int constructor keeps exactly the four flag bits of its argument |
| Flags.DefaultIgnoresPsh | src/lib/SegmentFlag.py:31-32 | `is_default_flag` holds iff none of syn, ack, fin is set; it is true for PSH alone and does not depend on psh |
| Flags.DecodedComposites | src/lib/SegmentFlag.py:46-53 | after a bitfield round trip, `is_syn_ack_flag`, `is_fin_ack_flag` and `is_syn_fin_flag` are syn∧ack, fin∧ack and syn∧fin |
| Flags.FactoryFlags | src/lib/Segment.py:152-192 | the factories' flag lists give the intended SYN, ACK, SYN-ACK, FIN, FIN-ACK and PSH flags, and PSH or FIN+PSH for fragments |
| Codec.UsernameField | src/lib/Segment.py:105-107 | the username field is exactly 10 bytes: the name truncated to 10, NUL-padded |
| Codec.StripNul | src/lib/Segment.py:198 | `rstrip(b'\x00')` removes exactly the trailing NULs |
| Codec.UsernameRoundTrip | src/lib/Segment.py:105-107 | a name of at most 10 bytes with no NUL is recovered from its field |
| Codec.BytesNoChecksumIsFrame | src/lib/Segment.py:94-123 | the checksum input is the wire frame with its checksum field, bytes 13-14, cut out |
| Codec.GetBytes | src/lib/Segment.py:94-109 | `get_bytes` is 25 + len(data) bytes: ports, seq, ack, flag value and checksum at their `!HHIIBH` offsets, then the username field, then the payload |
| Codec.FoldNeverFires | src/lib/Segment.py:139-145 | for any frame up to 65536 bytes the carry fold loop does not run and the word sum stays below 2^32 |
| Codec.OnesComplementFold | src/lib/Segment.py:142-143 | the fold the loop is evidently meant to perform ends below 2^16 |
| Codec.AgreesWithoutCarry | src/lib/Segment.py:131-145 | when the word sum has no carry, the checksum as written equals the RFC 1071 Internet checksum |
| Codec.CarryDropped | src/lib/Segment.py:142-145 | on bytes FF FF 00 01 the checksum as written is 0xFFFF, and the RFC 1071 checksum is 0xFFFE |
| Codec.CalculateChecksum | src/lib/Segment.py:131-145 | for a payload of up to 65513 bytes the carry fold never runs: the checksum is 0xFFFF minus the low 16 bits of the plain word sum of the checksum-free frame |
| Codec.UpdateChecksum | src/lib/Segment.py:147-150 | after `update_checksum` the segment is valid, and only the checksum changed |
| Codec.Make | src/lib/Segment.py:8-21 | construction fails exactly when seq or ack does not fit 32 bits; otherwise ports are 0, the fields are as given and the checksum is valid |
| Codec.SetHeader | src/lib/Segment.py:36-39 | `set_header` succeeds iff every field fits its width, installs the header and leaves a valid checksum |
| Codec.SetData | src/lib/Segment.py:41-45 | `set_data` raises iff the payload exceeds 64 bytes, leaving the segment unchanged; otherwise only data and checksum change, and the checksum is valid |
| Codec.SetSeqNumber | src/lib/Segment.py:47-50 | only seq and checksum change, and the checksum is valid |
| Codec.SetAckNumber | src/lib/Segment.py:52-55 | only ack and checksum change, and the checksum is valid |
| Codec.SetFlag | src/lib/Segment.py:57-60 | only flag and checksum change, and the checksum is valid |
| Codec.FromBytes | src/lib/Segment.py:195-204 | decoding raises iff the datagram is shorter than the 15-byte header; otherwise the fields are unpacked, the checksum is recomputed with ports 0, and the flag is `valid_checksum()` |
| Codec.PortsInSum | src/lib/Segment.py:112-140 | the two ports contribute exactly their sum to the word sum |
| Codec.PortsDecideValidity | src/lib/Segment.py:126-145 | a segment whose checksum was computed with both ports 0 passes `valid_checksum` exactly when its ports sum to 0 mod 65536 |
| Codec.ValidityIsPortSum | src/lib/Segment.py:195-204 | the decoder's flag is true exactly when (srcPort + dstPort) % 65536 == 0 |
| Codec.FromBytesIgnoresChecksum | src/lib/Segment.py:196-201 | the received checksum bytes do not affect the decoded result |
| Codec.CorruptionUndetected | src/lib/Segment.py:195-204 | changing any byte after the ports does not change the decoder's flag |
| Codec.UnpackGetBytes | src/lib/Segment.py:94-109 | unpacking an encoded segment recovers every field, with the username as its stripped field |
| Codec.RoundTrip | src/lib/Segment.py:94-204 | `from_bytes(get_bytes(s))` reproduces ports, seq, ack, flag and payload, and the username when it is at most 10 bytes with no NUL |
| Codec.RoundTripValidity | src/lib/Segment.py:195-204 | the flag of a decoded encoding is true iff the ports sum to 0 mod 65536 |
| Codec.EmittedFramesValid | src/lib/Segment.py:195-204 | every segment the program constructs decodes as valid |
| Codec.FactoriesShape | src/lib/Segment.py:152-192 | each factory has an empty payload and its flag list; the defaults give seq 0 and ack 0 |
| Codec.Syn | src/lib/Segment.py:152-157 | fails iff seq or ack does not fit 32 bits; otherwise an empty SYN segment with the given name and numbers |
| Codec.Ack | src/lib/Segment.py:159-164 | fails iff seq or ack does not fit 32 bits; otherwise an empty ACK segment with the given name and numbers |
| Codec.SynAck | src/lib/Segment.py:166-171 | fails iff seq or ack does not fit 32 bits; otherwise an empty SYN-ACK segment with the given name and numbers |
| Codec.Fin | src/lib/Segment.py:173-178 | fails iff seq or ack does not fit 32 bits; otherwise an empty FIN segment with the given name and numbers |
| Codec.FinAck | src/lib/Segment.py:180-185 | fails iff seq or ack does not fit 32 bits; otherwise an empty FIN-ACK segment with the given name and numbers |
| Codec.Psh | src/lib/Segment.py:187-192 | fails iff seq or ack does not fit 32 bits; otherwise an empty PSH segment with the given name and numbers |
| Messages.BoundedAppend | src/Client.py:149-153 | appending to a `deque(maxlen=limit)` adds at the end, and evicts the oldest entry when full |
| Messages.AppendAllKeepsRecent | src/Client.py:35 | after any sequence of appends the deque holds the last `limit` messages |
| Connections.New | src/connection/Connection.py:6-23 | the constructor stores the given numbers and cursor (default 0), stamps both times, and starts not connected with an empty window and acknowledged set |
| Connections.IncreaseIndex | src/connection/Connection.py:25-29 | `increase_index` raises the cursor by exactly one and changes nothing else |
| Connections.IncreaseTimesAdds | src/connection/Connection.py:28-29 | n calls raise the cursor by n and change nothing else |
| Fragments.Plan | src/connection/Node.py:37-47 | every chunk has between 1 and P characters |
| Fragments.PlanConcat | src/connection/Node.py:37-48 | the chunks concatenate back to the message |
| Fragments.PlanFull | src/connection/Node.py:37-38 | every chunk but the last has exactly P characters |
| Fragments.PlanCount | src/connection/Node.py:37 | there are ceil(len(m)/P) chunks |
| Fragments.PlanSeqNumbers | src/connection/Node.py:42-47 | fragment i has sequence number seq + i·P |
| Fragments.PlanFlags | src/connection/Node.py:40-44 | the last fragment carries FIN+PSH, every other one PSH only |
| Fragments.PlanEnds | src/connection/Node.py:42-47 | no fragment's range reaches past seq + len(m) |
| Fragments.Build | src/connection/Node.py:42-46 | building the segments fails iff some number does not fit 32 bits; otherwise each segment carries its chunk's flag, number and payload, the username, the ack number and a valid checksum |
| Fragments.Split | src/connection/Node.py:34-49 | an empty message gives no segments and a failure is a pack error; every segment carries the username and the ack number, ports 0, 1..P payload bytes and a valid checksum |
| Fragments.SplitShape | src/connection/Node.py:34-49 | the split has ceil(len(m)/P) segments, numbered seq + i·P, with 1..P bytes (P for all but the last), the same username and ack, and FIN only on the last |
| Fragments.SplitSucceeds | src/connection/Node.py:42-44 | the split fails exactly when the message is non-empty and the ack or some segment's number does not fit 32 bits |
| Fragments.SplitEnds | src/connection/Node.py:42-47 | every segment ends at or before seq + len(m) |
| Fragments.SplitIncreasing | src/connection/Node.py:47 | sequence numbers strictly increase along the split |
| Fragments.SplitPayloads | src/connection/Node.py:37-48 | the payloads concatenate back to the message |
| Fragments.SplitReassemble | src/connection/Node.py:34-49 | buffering the split by sequence number and joining in sorted order gives back the message |
| Fragments.ReassembleAddLast | src/Server.py:199-201 | adding a segment above every buffered number appends its payload to the reassembly |
| Fragments.ReassembleInOrder | src/Server.py:186-201 | increasing arrivals above the buffer append their payloads in order |
| Fragments.ReassembleEmpty | src/Server.py:199-203 | the joined text is empty iff every buffered payload is empty |
| Fragments.PlanIncreasing | src/connection/Node.py:47 | chunk numbers strictly increase |
| Fragments.ArrivalOrderIrrelevant | src/Server.py:186-201 | any arrival order that contains every fragment, with resends overwriting, gives the same buffer |
| Fragments.SendSegment | src/connection/Node.py:69-75 | the frame sent has 25 + len(data) bytes and decodes to the segment's fields |
| Fragments.Frame | src/connection/Node.py:65 | `recvfrom(128)` keeps a prefix of the datagram of at most 128 bytes, and the whole datagram when it fits |
| Fragments.Admit | src/connection/Node.py:51-67 | `listen` raises iff the (at most 128-byte) datagram is shorter than a header; otherwise it passes on the decoded segment, with a valid flag, iff the frame's flag is valid, and drops it iff not |
| Fragments.AdmitSent | src/connection/Node.py:51-75 | a segment with ports 0 and at most 64 bytes of payload that is sent is admitted, with its fields |
| Fragments.CloseStart | src/connection/Node.py:155-162 | `close_connection` does nothing for an unknown peer, and otherwise sends an empty FIN |
| Fragments.CloseStep | src/connection/Node.py:163-177 | a step resends an empty FIN exactly on a timeout; it raises exactly on a datagram too short to decode, since only `socket.timeout` is caught; it drops the peer exactly on a valid FIN-ACK and otherwise leaves the table as it was |
| Window.StartInv | src/connection/Node.py:95-99 | the empty window satisfies the invariant |
| Window.Burst | src/connection/Node.py:103-113 | the burst sends segments[next..min(base+W, n)] in order, stamping each with the burst's time |
| Window.BurstInv | src/connection/Node.py:103-113 | the burst keeps 0 ≤ base ≤ next ≤ n, next − base ≤ W, and buffer keys = numbers of segments [base, next) |
| Window.Slide | src/connection/Node.py:125-135 | the slide never moves base back and keeps the remaining send times |
| Window.SlideSpec | src/connection/Node.py:125-135 | the slide keeps the invariant and passes exactly the longest prefix whose seq + len ≤ the ACK number |
| Window.OnEvent | src/connection/Node.py:116-138 | a timeout or an undecodable datagram changes nothing; an ACK adds its number to `ack_received` and only advances base |
| Window.AckAdvances | src/connection/Node.py:125-135 | an ACK number slides the window past the segment at base exactly when it reaches that segment's end |
| Window.Resends | src/connection/Node.py:142-146 | every segment resent is a segment of the window that is due: timer expired, and, as written, its number not among the ACK numbers |
| Window.Restamp | src/connection/Node.py:141-147 | every due segment's timer is set to the sweep time, every other timer is kept |
| Window.RetransmitAsWritten | src/connection/Node.py:141-147 | the sweep as written changes only send times, restamps exactly the due segments, and resends only due window segments |
| Window.Retransmit | src/connection/Node.py:141-147 | the corrected sweep changes only send times, restamps exactly the expired segments, and resends only expired window segments |
| Window.Sweep | src/connection/Node.py:141-147 | either sweep changes only send times, and resends only window segments that are due by its own test |
| Window.ResendsExactly | src/connection/Node.py:142-146 | every due segment of the window is resent |
| Window.RetransmitAsWrittenSpec | src/connection/Node.py:141-147 | the sweep as written keeps the invariant and resends a window segment iff its timer expired and its number is not an ACK number received; afterwards only such skipped segments remain expired |
| Window.RetransmitComplete | src/connection/Node.py:141-147 | the corrected sweep keeps the invariant, resends a window segment iff its timer expired, and leaves none expired |
| Window.StaleAckSuppressesResend | src/connection/Node.py:122-147 | after the first of two segments is acknowledged, the second is buffered and expired, but the sweep as written does not resend it; the corrected one does |
| Window.SplitStalls | src/connection/Node.py:37-147 | the same happens for every message of P+1..2P bytes |
| Window.RoundSpec | src/connection/Node.py:101-147 | with either sweep, a round keeps the invariant, never moves base back, only passes segments some received ACK covers, and only adds ACK numbers |
| Window.Round | src/connection/Node.py:101-147 | a round never moves base or next back and only adds ACK numbers; it sends only segments of the message, first the one at next when the window has room and segments remain |
| Window.SendMessage | src/connection/Node.py:78-151 | with either sweep (`asWritten` runs the source's), fails iff the peer is unknown or the split does not pack; leaves the connection's numbers as on entry; the window invariant holds; complete iff base reached the end; every passed segment is covered by an ACK; every segment sent is one of the split's, and the first is the first segment |
| Server.Init | src/Server.py:35-43 | a new server has empty tables and log, and the given kill password |
| Server.InitInv | src/Server.py:35-43 | every cursor ≤ the log length holds initially |
| Server.ClassifyProtocol | src/Server.py:60-154 | the client's SYN, handshake ACK, heartbeat, FIN and FIN-ACK, and every chat fragment, land in their intended branch of `receive` |
| Server.Classify | src/Server.py:60-154 | the branch taken, in source priority order, each as an iff: heartbeat iff PSH without payload; FIN request iff FIN without ACK or PSH; FIN-ACK iff FIN and ACK without PSH; SYN iff SYN and none of the earlier tests; handshake ACK iff ACK without PSH, SYN or FIN; data iff a payload, no SYN, and PSH or neither FIN nor ACK; otherwise nothing |
| Server.OnHeartbeat | src/Server.py:63-74 | a heartbeat crashes exactly when the log is non-empty and the sender is not connected, and never changes the log |
| Server.Deliveries | src/Server.py:68-70 | one delivery per log entry from the cursor to the end, in order |
| Server.HeartbeatDelivers | src/Server.py:63-74 | a connected client receives the entries from its cursor on, in order; the cursor ends at the log length and the heartbeat time is refreshed |
| Server.HeartbeatIdempotent | src/Server.py:63-74 | a second heartbeat delivers nothing new |
| Server.RemoveClientSpec | src/Server.py:347-362 | removal of an absent client changes nothing; otherwise it drops the client from every table, and logs "left the chat" only when a name was recorded |
| Server.RemoveClient | src/Server.py:347-362 | the connection is dropped; an absent client changes nothing; the log gains at most one entry |
| Server.OnFin | src/Server.py:76-85 | a FIN is always answered with an empty FIN-ACK to its sender, and the sender is then removed as `RemoveClient` does, so it is no longer connected |
| Server.OnSyn | src/Server.py:93-112 | a SYN records (server_seq, client_seq) and answers SYN-ACK with seq = server_seq and ack = client_seq + 1; it raises iff client_seq + 1 does not fit |
| Server.OnHandshakeAck | src/Server.py:115-147 | always records the name and logs "joined!"; a new client gets send_seq = server_seq + 1, recv_seq = seq + 1, the cursor at the joined entry, and an empty buffer, and its temporary entry is deleted; it crashes iff the client is in neither table |
| Server.HandleCommand | src/Server.py:225-287 | a command is recognised iff the text starts with `!disconnect`, `!kill ` or `!change `; it never crashes, adds at most one log entry, and only `!disconnect` touches buffers or connections |
| Server.ChangeNameSpec | src/Server.py:267-286 | `!change X` changes state iff strip(X) is non-empty and differs from the name, and then renames the client and logs one entry |
| Server.KillSpec | src/Server.py:232-265 | `!kill P` halts iff strip(P) is the password, notifying every connected client; otherwise it answers the sender only |
| Server.DuplicateAckAsWritten | src/Server.py:174-183 | the duplicate branch as written acknowledges seq + 1 |
| Server.DuplicateAck | src/Server.py:174-189 | the corrected duplicate reply packs iff seq + len(payload) fits 32 bits, and is then an empty ACK with that number, as the first ACK (line 189) |
| Server.DuplicateAckFallsShort | src/Server.py:174-183 | for a payload of 2 or more bytes, the ACK as written falls short of the segment's end |
| Server.DuplicateAckStalls | src/Server.py:174-183 | the ACK as written for a duplicate of the sender's base segment, of 2 or more bytes, leaves the sender's window where it was |
| Server.DuplicateAckCovers | src/Server.py:174-192 | the corrected ACK for a duplicate of the sender's base segment slides the sender's window past it, as the lost first ACK would have |
| Server.OnData | src/Server.py:157-222 | data from an unknown client changes nothing; otherwise the log only grows, by at most one entry, and the cursor invariant holds |
| Server.WithBuffer | src/Server.py:169-171 | a buffer (and expected_seq 0) is created on first use only |
| Server.Buffered | src/Server.py:185-222 | after buffering, the log only grows, by at most one, and the invariant holds |
| Server.Complete | src/Server.py:206-222 | a non-command message is appended to the log and the buffer dropped |
| Server.DataAcknowledged | src/Server.py:157-192 | a new segment from a connected client is acknowledged first with seq + len(payload); a duplicate only gets an ACK of seq + 1 and changes nothing; only that duplicate ACK can fail to pack |
| Server.DataCompletesMessage | src/Server.py:185-222 | a new FIN fragment whose joined text is not a command logs the joined buffer and drops the buffer |
| Server.CommandKeepsBuffer | src/Server.py:174-210 | after a `!change` message the buffer survives, so the next message's fragment with the same number is treated as a duplicate: answered with seq + 1, nothing logged or buffered |
| Server.DataRunBuffers | src/Server.py:185-192 | non-FIN fragments in increasing order are each buffered |
| Server.ServerLogsMessage | src/Server.py:157-222 | at a client with no buffer or an empty one, a chat message split by the sender and arriving in order is logged whole under the sender's name, and the buffer is dropped |
| Server.FragmentsForReceiver | src/connection/Node.py:34-49 | a split has FIN only on its last segment, carries the name, increases, and reassembles to the message |
| Server.ReceiveFragments | src/Server.py:157-222 | at a client with no buffer or an empty one, increasing fragments with FIN on the last only are logged as their reassembly |
| Server.Listen | src/connection/Node.py:51-67 | a datagram too short for a header ends the server loop; one whose flag is not valid is dropped; any other is handed, as decoded, to `receive` |
| Server.Receive | src/Server.py:60-154 | dispatches on `Classify`: each branch's outcome is its handler's (heartbeat, SYN, handshake ACK, data), a FIN request removes the client and answers FIN-ACK, a FIN-ACK removes the client silently, and a segment no branch takes changes nothing; every branch only appends to the log, by at most one entry, and keeps every cursor within it |
| Server.StrayAckAnnouncesJoin | src/Server.py:115-127 | an ACK without PSH from a connected client logs "joined!" again and leaves connections unchanged |
| Server.Monitor | src/Server.py:331-342 | the sweep only removes connections, and touches nothing else |
| Server.MonitorRemovesStale | src/Server.py:336-342 | a connection survives iff its heartbeat is at most 30 s old; the cursor invariant is kept |
| Server.HeartbeatAfterTimeoutCrashes | src/Server.py:63-68 | a heartbeat from a timed-out client crashes the server while the log is non-empty |
| Client.FirstSynAck | src/Client.py:56-69 | the wait loop stops at the first SYN-ACK heard and skips everything else |
| Client.Connect | src/Client.py:44-90 | SYN goes first with the initial number; the client waits iff no SYN-ACK was heard; it connects iff one was and its number + 1 fits, and then has sent SYN and ACK and holds a connection to the server |
| Client.ConnectSpec | src/Client.py:44-90 | SYN carries the initial number; the handshake completes iff a SYN-ACK arrives whose number + 1 fits; the ACK carries initial + 1 and server + 1, as does the stored connection |
| Client.HandshakeNumbers | src/Client.py:44-90 | the server sends from the number the client expects, but records the client's next number as one more than the client uses |
| Client.ListenStep | src/Client.py:105-172 | a datagram too short for a header is skipped |
| Client.OnSegment | src/Client.py:104-172 | ACK segments are skipped first; exit happens iff FIN arrives with no payload, after sending FIN-ACK; a payload is acknowledged with seq + len under the client's name (nothing sent when that does not pack) and, without FIN, only buffered; the history stays within its bound |
| Client.Complete | src/Client.py:138-169 | the joined message is appended to the bounded history and the buffer cleared; the server connection is dropped iff the sender is "Server" and the text starts with "Server shutting down" |
| Client.ListenRun | src/Client.py:104-172 | any run of segments keeps the history within its bound |
| Client.ListenRunBuffers | src/Client.py:119-135 | payload fragments are each buffered at their number and acknowledged in order, fragment i with seq + len |
| Client.ClientReceivesMessage | src/Client.py:119-169 | the server's split message arriving in order is acknowledged fragment by fragment, each with its end, and enters the history whole |
| Client.ListenFragments | src/Client.py:119-169 | increasing fragments with FIN on the last only are each acknowledged with their end and enter the history as their reassembly |
| Client.ListenRunThenLast | src/Client.py:119-169 | payload fragments followed by a FIN fragment are acknowledged in order, and the FIN fragment completes the message from everything buffered |
| Client.LastCompletes | src/Client.py:124-165 | the FIN fragment is buffered, acknowledged with its end, and completes the message |
| Client.ListenerAckAdvancesSender | src/Client.py:123-134 | the listener's ACK for the fragment at the sender's base slides the sender's window past it |
| Client.ShutdownNoticeStopsHeartbeat | src/Client.py:167-214 | the kill notice drops the server connection, after which the heartbeat stops |
| Client.Receive | src/Client.py:192-206 | (a method nothing calls) FIN without ACK is answered with FIN-ACK and the sender dropped; FIN-ACK drops it silently; anything else changes nothing |
| Client.CloseHandshake | src/Client.py:113-116 | the FIN that `close_connection` sends reaches the client's listener, which answers with a FIN-ACK and exits; the server classifies that reply as a FIN-ACK, and it ends the closer's wait by dropping its connection |
| Client.FinAckIdempotent | src/Client.py:202-206 | in the uncalled `receive`, a FIN-ACK is answered with nothing and receiving it again changes nothing more |
| Client.HeartbeatStep | src/Client.py:209-226 | a beat is an empty PSH with the connection's send and receive numbers; none once the connection is gone or the numbers do not pack |
| Client.HeartbeatReachesServer | src/Client.py:216-220 | a heartbeat lands in the server's heartbeat branch |

## Left out

- I/O is left out: sockets, `recvfrom`/`sendto`, timeouts, printing,
  `os.system`, and the display code of the listener. Segments to send are
  outputs, and received datagrams and timeouts are inputs.
- Threads are left out: the listener, heartbeat and monitor threads, and
  the race between the listener and `_send_message` on the one socket.
  Each thread's step is a separate function, and the callers interleave
  them.
- `os._exit` and `exit(0)` are the outcomes `Exit` and `Halted`.
- The `!kill` side effects are left out: `_send_message` to every client
  and `close_connection` per client. The halt records whom it would
  notify, and with what notice.
- `close_connection`'s retry loop is modelled one step at a time
  (`Fragments.CloseStep`), not as a loop, because it may retry forever.
  A step ends in `raised` on a datagram too short to decode: the
  `struct.error` escapes `close_connection`.
- Window.SendMessage: runs over a finite script of events. The source's
  loop never ends if the ACKs stop coming. A run whose script is
  exhausted reports `complete = false`.
- `Server.broadcast`, `get_client_status` and `list_clients` are left
  out: the first never sends anything, and the other two only print.
- `replace_emoticons` is the parameter `emote`, an arbitrary text
  function.
- `Segment.set_from_bytes`, `Segment.__str__`, `SegmentFlag.__str__`,
  `MessageInfo.__str__` and `Node.change_username` are left out: display
  code, and methods nothing in the core calls.
- The `chat_gui.py` and `main.py` front ends are left out, as are the
  `load_args` blocks.
- The client's `send_private_message`, `send_broadcast_message`,
  `send_command` and `pop_connection` are left out. The first three are
  `_send_message` calls, modelled by `Window.SendMessage`. The last is a
  map removal.
- Random initial sequence numbers are inputs in 1000..50000.
- Flags.FromList: requires a list of at least four entries. A shorter
  list raises IndexError in the source, and no caller passes one.
- Codec.SetFlag: requires a list of at least four entries, for the same
  reason.
- Float times from `time.time()` / `datetime.now()` are integer
  microseconds.
- Client.OnSegment assumes ASCII text. The source acknowledges
  `seq + len(payload.decode())`, which differs from the byte length for
  non-ASCII text.
- Server.OnData assumes ASCII text, for the same reason.
- Window.Slide assumes ASCII text, for the same reason.
- Fragments.Split: splits the encoded bytes into P-byte chunks and
  numbers them by bytes. The source splits the string into P-character
  chunks, encodes each, and advances the number by characters
  (src/connection/Node.py:37-47). The two agree on ASCII text only. An
  emoji entry from `replace_emoticons` (src/Server.py:18-32, 289-292)
  makes a chunk up to four times P bytes long, numbered as if it were P.
- Window.SendMessage: inherits the byte split above. For a log entry with
  emoji that the server relays on a heartbeat (src/Server.py:63-70), a
  chunk's datagram can exceed the 128 bytes the client reads
  (src/connection/Node.py:65); the receiver then sees a truncated payload
  or a failed checksum. The model's chunks are P bytes at most, and it
  does not model this overflow.
- Server.OnHeartbeat does not model an exception raised by
  `_send_message` while a delivery is under way. Each delivery is an
  output action, and the cursor advances for all of them.
- Server.OnHeartbeat does not model what the server reads during a
  delivery. Each delivery runs `_send_message`, whose ACK wait reads
  every datagram on the server's one socket (src/connection/Node.py:116-122).
  Another client's SYN or chat fragment arriving then is taken for an
  ACK, or dropped, instead of reaching `receive`.
- Window.Burst: stamps every segment of a burst with the one time `now`.
  The source reads `time.time()` once per segment
  (src/connection/Node.py:112), so later segments of a burst carry
  slightly later stamps. The model can therefore find a segment expired
  earlier than the source would, by at most the time the burst took.
- The `Crash` outcome of the server carries no state: the server's loop
  ends on an uncaught exception, so nothing after it is observable.
- The single-flag getters (`is_syn_flag` and the others) are the fields
  of the `Flag` datatype, so they have no members of their own.

## Findings

| source | as written | input that shows it | evidently intended | confidence | as-written member | corrected member |
|---|---|---|---|---|---|---|
| src/connection/Node.py:122, 141-147 | the sweep resends a buffered segment only if its sequence number is not in `ack_received`; that set holds ACK numbers | a message of P+1..2P bytes, two segments: the ACK for the first carries the second's sequence number, so the second is never resent when it expires (lost, the loop spins forever) | resend every buffered segment whose timer has expired; the slide already removed the acknowledged ones | high (not executed) | Window.RetransmitAsWritten, shown by Window.StaleAckSuppressesResend and Window.SplitStalls | Window.Retransmit, with Window.RetransmitComplete |
| src/Server.py:174-183 | a duplicate segment is re-acknowledged with `seq + 1` | with W = 1, a non-final fragment of 2 or more bytes whose first ACK was lost: its retransmission gets seq + 1, short of its end, so the sender never slides past it and every resend gets the same short ACK (with W ≥ 2 a later fragment's ACK can still cover it. A FIN fragment that completes a chat message drops the buffer, but one that completes a `!change` or a wrong-password `!kill` keeps it, so the next message's fragment with the same number is taken for a duplicate too: Server.CommandKeepsBuffer) | acknowledge `seq + len(payload)`, as the first ACK does (line 189) | high (not executed) | Server.DuplicateAckAsWritten, shown by Server.DuplicateAckFallsShort and Server.DuplicateAckStalls | Server.DuplicateAck, with Server.DuplicateAckCovers |

=== FILE: bytes.dfy ===
/** Byte-level vocabulary shared by the codec and the peer roles: bounded
    integer ranges of the wire format, big-endian packing as done by
    Python's struct module with the '!' byte order, and the few text
    operations (prefix test, whitespace strip) the peers use. Text is
    modelled as ASCII bytes, so UTF-8 encoding and decoding are the
    identity. */
module Bytes {

  type byte = x: int | 0 <= x < 0x100
  type u16 = x: int | 0 <= x < 0x1_0000
  type u32 = x: int | 0 <= x < 0x1_0000_0000

  /** Message text and usernames: ASCII bytes. */
  type Text = seq<byte>

  predicate IsU32(x: int) {
    0 <= x < 0x1_0000_0000
  }

  /** The ASCII bytes of a string literal. */
  function Str(s: string): (t: Text)
    requires forall i | 0 <= i < |s| :: s[i] as int < 0x80
    ensures |t| == |s|
    ensures forall i | 0 <= i < |s| :: t[i] == s[i] as int
  {
    seq(|s|, i requires 0 <= i < |s| => s[i] as int)
  }

  function Pow2(n: nat): (p: nat)
    ensures p >= 1
  {
    if n == 0 then 1 else 2 * Pow2(n - 1)
  }

  lemma {:induction false} Pow2Monotone(a: nat, b: nat)
    requires a <= b
    ensures Pow2(a) <= Pow2(b)
    decreases b - a
  {
    if a < b {
      Pow2Monotone(a, b - 1);
    }
  }

  lemma {:induction false} Pow2Add(a: nat, b: nat)
    ensures Pow2(a + b) == Pow2(a) * Pow2(b)
  {
    if b > 0 {
      Pow2Add(a, b - 1);
    }
  }

  lemma Pow2Of32()
    ensures Pow2(32) == 0x1_0000_0000
  {
    assert Pow2(8) == 0x100;
    Pow2Add(8, 8);
    Pow2Add(16, 16);
  }

  // ---------------------------------------------------------------------
  // Division by a positive step

  lemma MulBound(e: int, d: int)
    requires d >= 1
    ensures e >= 1 ==> e * d >= d
    ensures e <= -1 ==> e * d <= -d
  {
  }

  lemma MulShift(s: int, d: int, i: int)
    ensures (s + d) + (i - 1) * d == s + i * d
  {
  }

  lemma MulMonotone(i: int, j: int, d: int)
    requires d >= 1 && i < j
    ensures i * d < j * d
  {
  }

  /** Integer division is determined by any quotient/remainder pair. */
  lemma DivUnique(a: int, d: int, q: int, r: int)
    requires d >= 1 && a == q * d + r && 0 <= r < d
    ensures a / d == q
  {
    var q0 := a / d;
    var r0 := a % d;
    assert (q - q0) * d == r0 - r;
    MulBound(q - q0, d);
  }

  lemma DivStep(x: nat, d: nat)
    requires d >= 1
    ensures (x + d) / d == x / d + 1
  {
    var q := x / d;
    var r := x % d;
    assert x + d == (q + 1) * d + r;
    DivUnique(x + d, d, q + 1, r);
  }

  // ---------------------------------------------------------------------
  // Big-endian packing ('!H' and '!I')

  function U16BE(x: u16): (b: seq<byte>)
    ensures |b| == 2
  {
    [x / 0x100, x % 0x100]
  }

  function U32BE(x: u32): (b: seq<byte>)
    ensures |b| == 4
  {
    [x / 0x100_0000, (x / 0x1_0000) % 0x100, (x / 0x100) % 0x100, x % 0x100]
  }

  /** Unpacks a big-endian 16-bit field starting at offset i. */
  function ReadU16(b: seq<byte>, i: nat): (x: u16)
    requires i + 2 <= |b|
  {
    (b[i] as int) * 0x100 + b[i + 1] as int
  }

  /** Unpacks a big-endian 32-bit field starting at offset i. */
  function ReadU32(b: seq<byte>, i: nat): (x: u32)
    requires i + 4 <= |b|
  {
    (ReadU16(b, i) as int) * 0x1_0000 + ReadU16(b, i + 2) as int
  }

  /** Reading a packed 16-bit field back, wherever it sits in a frame. */
  lemma U16RoundTrip(b: seq<byte>, i: nat, x: u16)
    requires i + 2 <= |b| && b[i..i + 2] == U16BE(x)
    ensures ReadU16(b, i) == x
  {
    assert b[i] == U16BE(x)[0] && b[i + 1] == U16BE(x)[1];
  }

  /** Reading a packed 32-bit field back, wherever it sits in a frame. */
  lemma U32RoundTrip(b: seq<byte>, i: nat, x: u32)
    requires i + 4 <= |b| && b[i..i + 4] == U32BE(x)
    ensures ReadU32(b, i) == x
  {
    var w := U32BE(x);
    assert b[i] == w[0] && b[i + 1] == w[1] && b[i + 2] == w[2] && b[i + 3] == w[3];
    var hi := x / 0x1_0000;
    var lo := x % 0x1_0000;
    SplitDigits(x, hi, lo);
    assert ReadU16(b, i) == hi;
    assert ReadU16(b, i + 2) == lo;
  }

  /** The four bytes of a 32-bit value are the two bytes of each half. */
  lemma SplitDigits(x: u32, hi: int, lo: int)
    requires hi == x / 0x1_0000 && lo == x % 0x1_0000
    ensures x / 0x100_0000 == hi / 0x100 && (x / 0x1_0000) % 0x100 == hi % 0x100
    ensures (x / 0x100) % 0x100 == lo / 0x100 && x % 0x100 == lo % 0x100
  {
    var a, c := hi / 0x100, hi % 0x100;
    var d, e := lo / 0x100, lo % 0x100;
    assert x == hi * 0x1_0000 + lo;
    assert hi == a * 0x100 + c && lo == d * 0x100 + e;
    assert x == a * 0x100_0000 + (c * 0x1_0000 + lo);
    DivUnique(x, 0x100_0000, a, c * 0x1_0000 + lo);
    assert x == (hi * 0x100 + d) * 0x100 + e;
    DivUnique(x, 0x100, hi * 0x100 + d, e);
    assert hi * 0x100 + d == d + c * 0x100 + a * 0x1_0000;
    DivUnique(hi * 0x100 + d, 0x100, hi, d);
  }

  // ---------------------------------------------------------------------
  // Text helpers

  /** Python's str.startswith. */
  predicate StartsWith(s: Text, prefix: Text) {
    |prefix| <= |s| && s[..|prefix|] == prefix
  }

  /** The characters Python's str.isspace accepts in the ASCII range. */
  predicate IsSpace(c: byte) {
    (9 <= c <= 13) || (28 <= c <= 32)
  }

  function StripLeft(s: Text): (r: Text)
    ensures |r| <= |s| && r == s[|s| - |r|..]
    ensures forall i | 0 <= i < |s| - |r| :: IsSpace(s[i])
    ensures r == [] || !IsSpace(r[0])
  {
    if s != [] && IsSpace(s[0]) then StripLeft(s[1..]) else s
  }

  function StripRight(s: Text): (r: Text)
    ensures |r| <= |s| && r == s[..|r|]
    ensures forall i | |r| <= i < |s| :: IsSpace(s[i])
    ensures r == [] || !IsSpace(r[|r| - 1])
  {
    if s != [] && IsSpace(s[|s| - 1]) then StripRight(s[..|s| - 1]) else s
  }

  /** Python's str.strip() with no argument: the longest slice of s that
      neither starts nor ends with whitespace, obtained by removing only
      whitespace from both ends. */
  function Strip(s: Text): (r: Text)
    ensures exists i, j :: (0 <= i <= j <= |s| && r == s[i..j]
                             && (forall p | 0 <= p < i :: IsSpace(s[p]))
                             && (forall p | j <= p < |s| :: IsSpace(s[p])))
    ensures r == [] || (!IsSpace(r[0]) && !IsSpace(r[|r| - 1]))
  {
    var l := StripLeft(s);
    var r := StripRight(l);
    StripWitness(s, l, r);
    r
  }

  /** A right-stripped suffix of `s` is a slice of `s` followed only by
      whitespace. */
  lemma StripWitness(s: Text, l: Text, r: Text)
    requires |l| <= |s| && l == s[|s| - |l|..]
    requires |r| <= |l| && r == l[..|r|] && forall q | |r| <= q < |l| :: IsSpace(l[q])
    ensures var i := |s| - |l|;
            && r == s[i..i + |r|]
            && (forall p | i + |r| <= p < |s| :: IsSpace(s[p]))
  {
    var i := |s| - |l|;
    forall p | i + |r| <= p < |s|
      ensures IsSpace(s[p])
    {
      assert s[p] == l[p - i];
    }
  }
}

=== FILE: client.dfy ===
/** The chat client: the three-way handshake it opens with, the listener
    loop that reassembles chat messages from the server and keeps the
    bounded history, the FIN handling of receive, and the heartbeat it
    sends. The listener reads the socket itself, so unlike the server it
    ignores the checksum flag, and it swallows every exception. The
    history limit MESSAGES_LIMIT comes from a constants file that is not
    part of this model and is the parameter `limit`. */
module Client {
  import opened Bytes
  import opened Flags
  import opened Results
  import opened Codec
  import opened Connections
  import opened Messages
  import opened Fragments
  import Server
  import Window

  const SERVER_NAME: Text := Str("Server")
  const SHUTDOWN_PREFIX: Text := Str("Server shutting down")

  datatype ClientState = ClientState(
    username: Text,
    self: Addr,
    server: Addr,
    connections: map<Addr, Connection>,
    receiveBuffer: map<int, Segment>,
    messages: seq<MessageInfo>)     // a deque with maxlen `limit`

  /** The history never holds more than `limit` entries. */
  predicate Inv(st: ClientState, limit: nat) {
    |st.messages| <= limit
  }

  // ---------------------------------------------------------------------
  // Handshake

  /** The first SYN-ACK among what the wait loop hears, checksum not
      looked at; `None` stands for a timeout or a datagram the decoder
      rejects, both of which the loop skips. */
  function FirstSynAck(heard: seq<Option<Segment>>): (r: Option<Segment>)
    ensures r.None? <==> forall i | 0 <= i < |heard| :: heard[i].None? || !IsSynAck(heard[i].value.flag)
    ensures r.Some? ==> IsSynAck(r.value.flag) && Some(r.value) in heard
    decreases |heard|
  {
    if heard == [] then None
    else if heard[0].Some? && IsSynAck(heard[0].value.flag) then heard[0]
    else
      var r := FirstSynAck(heard[1..]);
      assert forall i | 1 <= i < |heard| :: heard[i] == heard[1..][i - 1];
      r
  }

  datatype ConnectResult =
    | Connected(st: ClientState, sent: seq<Segment>)
    | Waiting(sent: seq<Segment>)          // no SYN-ACK heard yet
    | ConnectFailed(sent: seq<Segment>)    // struct.pack rejected the final ACK

  /** connect: send SYN with the random initial number, wait for a
      SYN-ACK, answer ACK with initial + 1 and the server's number + 1,
      and store the connection with those two numbers. */
  function Connect(k: FlagBits, st: ClientState, initialSeq: int, heard: seq<Option<Segment>>, now: int)
    : (r: ConnectResult)
    requires ValidBits(k) && 1000 <= initialSeq <= 50000
    ensures |r.sent| >= 1 && r.sent[0] == Syn(k, st.username, initialSeq).value
    ensures r.Waiting? <==> FirstSynAck(heard).None?
    ensures r.Connected? <==> FirstSynAck(heard).Some? && FirstSynAck(heard).value.seqNumber + 1 < 0x1_0000_0000
    ensures r.Connected? ==> |r.sent| == 2 && st.server in r.st.connections && r.st.username == st.username
  {
    var syn := Syn(k, st.username, initialSeq).value;
    match FirstSynAck(heard)
    case None => Waiting([syn])
    case Some(sa) =>
      match Ack(k, st.username, initialSeq + 1, sa.seqNumber + 1)
      case Err(_) => ConnectFailed([syn])
      case Ok(a) =>
        Connected(st.(connections := st.connections[st.server := New(st.self, st.server, now, initialSeq + 1, sa.seqNumber + 1)]),
                  [syn, a])
  }

  /** The handshake completes exactly when some SYN-ACK was heard whose
      number leaves room for + 1; the client then has sent SYN and ACK and
      holds a connection to the server numbered from both sides' initial
      numbers, and nothing else changed. */
  lemma ConnectSpec(k: FlagBits, st: ClientState, initialSeq: int, heard: seq<Option<Segment>>, now: int)
    requires ValidBits(k) && 1000 <= initialSeq <= 50000
    ensures var r := Connect(k, st, initialSeq, heard, now);
            && r.sent[0].flag == SYN && r.sent[0].seqNumber == initialSeq && r.sent[0].username == st.username
            && (r.Connected? <==> FirstSynAck(heard).Some? && FirstSynAck(heard).value.seqNumber + 1 < 0x1_0000_0000)
            && (r.Waiting? <==> FirstSynAck(heard).None?)
            && (r.Connected? ==>
                  var s := FirstSynAck(heard).value.seqNumber;
                  && |r.sent| == 2 && r.sent[1].flag == ACK
                  && r.sent[1].seqNumber == initialSeq + 1 && r.sent[1].ackNumber == s + 1
                  && r.st == st.(connections := r.st.connections)
                  && r.st.connections == st.connections[st.server := r.st.connections[st.server]]
                  && r.st.connections[st.server].sendSeq == initialSeq + 1
                  && r.st.connections[st.server].recvSeq == s + 1)
  {
  }

  /** Both sides of a handshake: the server answers the client's SYN, the
      client completes with its ACK, and the server opens its connection.
      The server sends from the number the client expects, but it takes
      the client's next number as the ACK's sequence number + 1, one past
      what the client sends from. */
  lemma HandshakeNumbers(k: FlagBits, st: ClientState, sv: Server.ServerState, p: Addr, initialSeq: int,
                         serverSeq: int, now: int)
    requires ValidBits(k) && 1000 <= initialSeq <= 50000 && 1000 <= serverSeq <= 50000
    requires p !in sv.connections
    ensures var syn := Syn(k, st.username, initialSeq).value;
            var s1 := Server.OnSyn(k, sv, p, syn, serverSeq);
            && s1.Next? && |s1.out| == 1 && s1.out[0].SendSeg?
            && var c := Connect(k, st, initialSeq, [Some(s1.out[0].seg)], now);
               && c.Connected?
               && var s2 := Server.OnHandshakeAck(s1.st, p, c.sent[1], now);
                  && s2.Next?
                  && s2.st.connections[p].sendSeq == c.st.connections[st.server].recvSeq
                  && s2.st.connections[p].recvSeq == c.st.connections[st.server].sendSeq + 1
  {
    var syn := Syn(k, st.username, initialSeq).value;
    var s1 := Server.OnSyn(k, sv, p, syn, serverSeq);
    FactoryFlags();
    ConnectSpec(k, st, initialSeq, [Some(s1.out[0].seg)], now);
  }

  // ---------------------------------------------------------------------
  // The listener

  datatype ListenOutcome =
    | Continue(st: ClientState, out: seq<Segment>)   // segments sent to the server
    | Exit(out: seq<Segment>)                        // os._exit after sending

  /** One turn of listen_for_messages over a received datagram (truncated
      to 128 bytes): one the decoder rejects is skipped. */
  function ListenStep(k: FlagBits, st: ClientState, datagram: seq<byte>, now: int, limit: nat): (r: ListenOutcome)
    requires ValidBits(k) && Inv(st, limit)
    ensures |datagram| < HEADER_LEN ==> r == Continue(st, [])
  {
    match FromBytes(k, Frame(datagram))
    case Err(_) => Continue(st, [])
    case Ok(d) => OnSegment(k, st, d.0, now, limit)
  }

  /** The listener's action on a decoded segment: anything with ACK is
      skipped; FIN without payload is answered with FIN-ACK and the
      process exits; a payload is buffered under its sequence number
      (replacing an earlier one) and acknowledged with seq + len; with FIN
      the buffer is joined in sequence order and the message appended to
      the history. A final ACK too large to pack raises after buffering,
      and the exception is swallowed. */
  function OnSegment(k: FlagBits, st: ClientState, seg: Segment, now: int, limit: nat): (r: ListenOutcome)
    requires ValidBits(k) && Inv(st, limit)
    ensures r.Continue? ==> Inv(r.st, limit) && r.st.username == st.username && r.st.server == st.server
    ensures seg.flag.ack ==> r == Continue(st, [])
    ensures r.Exit? <==> !seg.flag.ack && seg.flag.fin && seg.data == []
    ensures r.Exit? ==> r.out == [FinAck(k).value]
    ensures !seg.flag.ack && seg.data != [] ==>
              && r.Continue?
              && r.out == (if End(seg) < 0x1_0000_0000 then [Ack(k, st.username, 0, End(seg)).value] else [])
              && (!seg.flag.fin ==> r.st == st.(receiveBuffer := st.receiveBuffer[seg.seqNumber := seg]))
  {
    if seg.flag.ack then Continue(st, [])
    else if seg.flag.fin && seg.data == [] then Exit([FinAck(k).value])
    else if seg.data == [] then Continue(st, [])
    else
      var buf := st.receiveBuffer[seg.seqNumber := seg];
      var st1 := st.(receiveBuffer := buf);
      match Ack(k, st.username, 0, End(seg))
      case Err(_) => Continue(st1, [])
      case Ok(a) =>
        if !seg.flag.fin then Continue(st1, [a])
        else Continue(Complete(st1, seg.username, Reassemble(buf), now, limit), [a])
  }

  /** A finished message: appended to the bounded history, the buffer
      cleared, and the connection to the server dropped when the server
      announces its shutdown. */
  function Complete(st: ClientState, sender: Text, text: Text, now: int, limit: nat): (r: ClientState)
    requires Inv(st, limit)
    ensures Inv(r, limit) && r.receiveBuffer == map[]
    ensures r.messages == BoundedAppend(st.messages, MessageInfo(sender, now, text), limit)
    ensures r.username == st.username && r.self == st.self && r.server == st.server
    ensures st.server !in r.connections <==>
              st.server !in st.connections || (sender == SERVER_NAME && StartsWith(text, SHUTDOWN_PREFIX))
    ensures forall a | a != st.server :: (a in r.connections <==> a in st.connections)
  {
    var st' := st.(messages := BoundedAppend(st.messages, MessageInfo(sender, now, text), limit), receiveBuffer := map[]);
    if sender == SERVER_NAME && StartsWith(text, SHUTDOWN_PREFIX) then
      st'.(connections := st'.connections - {st.server})
    else
      st'
  }

  /** Segments handled one after another by the listener, stopping at an
      exit. */
  function ListenRun(k: FlagBits, st: ClientState, segs: seq<Segment>, now: int, limit: nat): (r: ListenOutcome)
    requires ValidBits(k) && Inv(st, limit)
    ensures r.Continue? ==> Inv(r.st, limit) && r.st.username == st.username && r.st.server == st.server
    decreases |segs|
  {
    if segs == [] then Continue(st, [])
    else
      match OnSegment(k, st, segs[0], now, limit)
      case Exit(out) => Exit(out)
      case Continue(st1, out) =>
        match ListenRun(k, st1, segs[1..], now, limit)
        case Exit(out2) => Exit(out + out2)
        case Continue(st2, out2) => Continue(st2, out + out2)
  }

  /** Payload fragments without FIN or ACK are each buffered and
      acknowledged; nothing else changes. */
  lemma {:induction false} ListenRunBuffers(k: FlagBits, st: ClientState, segs: seq<Segment>, now: int, limit: nat)
    requires ValidBits(k) && Inv(st, limit)
    requires forall i | 0 <= i < |segs| :: !segs[i].flag.fin && !segs[i].flag.ack && segs[i].data != []
    requires forall i | 0 <= i < |segs| :: End(segs[i]) < 0x1_0000_0000
    ensures ListenRun(k, st, segs, now, limit).Continue?
    ensures ListenRun(k, st, segs, now, limit).st == st.(receiveBuffer := Arrive(st.receiveBuffer, segs))
    ensures |ListenRun(k, st, segs, now, limit).out| == |segs|
    ensures forall i | 0 <= i < |segs| :: ListenRun(k, st, segs, now, limit).out[i] == Ack(k, st.username, 0, End(segs[i])).value
    decreases |segs|
  {
    if segs != [] {
      var st1 := st.(receiveBuffer := st.receiveBuffer[segs[0].seqNumber := segs[0]]);
      assert OnSegment(k, st, segs[0], now, limit).st == st1;
      assert forall i | 0 <= i < |segs[1..]| :: segs[1..][i] == segs[i + 1];
      ListenRunBuffers(k, st1, segs[1..], now, limit);
      var out := ListenRun(k, st, segs, now, limit).out;
      var rest := ListenRun(k, st1, segs[1..], now, limit).out;
      assert out == [Ack(k, st.username, 0, End(segs[0])).value] + rest;
      forall i | 0 <= i < |segs|
        ensures out[i] == Ack(k, st.username, 0, End(segs[i])).value
      {
        if i > 0 {
          assert out[i] == rest[i - 1];
        }
      }
    }
  }

  /** What a run over payload fragments `segs` and a FIN fragment `last`
      comes to: the ACKs of `segs` then that of `last`, and the message
      completed from everything buffered. */
  predicate ThenLast(k: FlagBits, st: ClientState, segs: seq<Segment>, last: Segment, now: int, limit: nat)
    requires ValidBits(k) && Inv(st, limit) && End(last) < 0x1_0000_0000
  {
    var h := ListenRun(k, st, segs, now, limit);
    var r := ListenRun(k, st, segs + [last], now, limit);
    var buf := Arrive(st.receiveBuffer, segs + [last]);
    && h.Continue? && r.Continue?
    && r.out == h.out + [Ack(k, st.username, 0, End(last)).value]
    && r.st == Complete(st.(receiveBuffer := buf), last.username, Reassemble(buf), now, limit)
  }

  /** Payload fragments followed by a FIN fragment: the run buffers and
      acknowledges the former, then the last one completes the message
      buffered so far. */
  lemma {:induction false} ListenRunThenLast(k: FlagBits, st: ClientState, segs: seq<Segment>, last: Segment, now: int, limit: nat)
    requires ValidBits(k) && Inv(st, limit)
    requires forall i | 0 <= i < |segs| :: !segs[i].flag.fin && !segs[i].flag.ack && segs[i].data != []
    requires forall i | 0 <= i < |segs| :: End(segs[i]) < 0x1_0000_0000
    requires last.flag.fin && !last.flag.ack && last.data != [] && End(last) < 0x1_0000_0000
    ensures ThenLast(k, st, segs, last, now, limit)
    decreases |segs|
  {
    if segs == [] {
      LastAlone(k, st, last, now, limit);
    } else {
      var st1 := st.(receiveBuffer := st.receiveBuffer[segs[0].seqNumber := segs[0]]);
      assert forall i | 0 <= i < |segs[1..]| :: segs[1..][i] == segs[i + 1];
      ListenRunThenLast(k, st1, segs[1..], last, now, limit);
      ThenLastStep(k, st, segs, last, now, limit);
    }
  }

  lemma LastAlone(k: FlagBits, st: ClientState, last: Segment, now: int, limit: nat)
    requires ValidBits(k) && Inv(st, limit)
    requires last.flag.fin && !last.flag.ack && last.data != [] && End(last) < 0x1_0000_0000
    ensures ThenLast(k, st, [], last, now, limit)
  {
    assert [] + [last] == [last] && [last][1..] == [];
    LastCompletes(k, st, last, now, limit);
    assert Arrive(st.receiveBuffer, [last]) == st.receiveBuffer[last.seqNumber := last];
  }

  /** One payload fragment in front of a run that ends in a FIN fragment. */
  lemma ThenLastStep(k: FlagBits, st: ClientState, segs: seq<Segment>, last: Segment, now: int, limit: nat)
    requires ValidBits(k) && Inv(st, limit) && segs != []
    requires !segs[0].flag.fin && !segs[0].flag.ack && segs[0].data != [] && End(segs[0]) < 0x1_0000_0000
    requires End(last) < 0x1_0000_0000
    requires ThenLast(k, st.(receiveBuffer := st.receiveBuffer[segs[0].seqNumber := segs[0]]), segs[1..], last, now, limit)
    ensures ThenLast(k, st, segs, last, now, limit)
  {
    var all := segs + [last];
    var st1 := st.(receiveBuffer := st.receiveBuffer[segs[0].seqNumber := segs[0]]);
    var a0 := Ack(k, st.username, 0, End(segs[0])).value;
    assert OnSegment(k, st, segs[0], now, limit) == Continue(st1, [a0]);
    assert all[0] == segs[0] && all[1..] == segs[1..] + [last];
    assert Arrive(st.receiveBuffer, all) == Arrive(st1.receiveBuffer, segs[1..] + [last]);
    var r1 := ListenRun(k, st1, segs[1..] + [last], now, limit);
    var h1 := ListenRun(k, st1, segs[1..], now, limit);
    assert ListenRun(k, st, all, now, limit) == Continue(r1.st, [a0] + r1.out);
    assert ListenRun(k, st, segs, now, limit) == Continue(h1.st, [a0] + h1.out);
    assert [a0] + (h1.out + [Ack(k, st.username, 0, End(last)).value])
        == ([a0] + h1.out) + [Ack(k, st.username, 0, End(last)).value];
  }

  /** The server's fragments of a chat message reach a listener with an
      empty buffer, in order: every fragment is acknowledged, the message
      joins the history whole under the name the fragments carry, and the
      buffer is empty again. */
  lemma ClientReceivesMessage(k: FlagBits, st: ClientState, u: Text, m: Text, seqNum: int, ackNum: int, P: nat,
                              now: int, limit: nat)
    requires ValidBits(k) && P >= 1 && m != [] && Inv(st, limit) && st.receiveBuffer == map[]
    requires Split(k, u, m, seqNum, ackNum, P).Ok? && seqNum + |m| < 0x1_0000_0000
    ensures var frags := Split(k, u, m, seqNum, ackNum, P).value;
            var r := ListenRun(k, st, frags, now, limit);
            && r.Continue? && |r.out| == |frags|
            && (forall i | 0 <= i < |frags| :: Ack(k, st.username, 0, End(frags[i])) == Ok(r.out[i]))
            && r.st.messages == BoundedAppend(st.messages, MessageInfo(u, now, m), limit)
            && r.st.receiveBuffer == map[]
            && (st.server !in r.st.connections <==>
                  st.server !in st.connections || (u == SERVER_NAME && StartsWith(m, SHUTDOWN_PREFIX)))
  {
    var frags := Split(k, u, m, seqNum, ackNum, P).value;
    FragmentsForListener(k, u, m, seqNum, ackNum, P);
    ListenFragments(k, st, frags, now, limit);
  }

  /** Fragments in ascending order, FIN on the last only, reach a listener
      with an empty buffer: the history gains their reassembly. */
  lemma ListenFragments(k: FlagBits, st: ClientState, frags: seq<Segment>, now: int, limit: nat)
    requires ValidBits(k) && Inv(st, limit) && st.receiveBuffer == map[]
    requires |frags| >= 1 && Increasing(frags)
    requires forall i | 0 <= i < |frags| :: End(frags[i]) < 0x1_0000_0000
    requires forall i | 0 <= i < |frags| :: frags[i].flag.fin <==> i == |frags| - 1
    requires forall i | 0 <= i < |frags| :: !frags[i].flag.ack && frags[i].data != []
    ensures var r := ListenRun(k, st, frags, now, limit);
            var text := Reassemble(Arrive(map[], frags));
            var u := frags[|frags| - 1].username;
            && r.Continue? && |r.out| == |frags|
            && (forall i | 0 <= i < |frags| :: Ack(k, st.username, 0, End(frags[i])) == Ok(r.out[i]))
            && r.st.messages == BoundedAppend(st.messages, MessageInfo(u, now, text), limit)
            && r.st.receiveBuffer == map[]
            && (st.server !in r.st.connections <==>
                  st.server !in st.connections || (u == SERVER_NAME && StartsWith(text, SHUTDOWN_PREFIX)))
  {
    var n := |frags| - 1;
    var init := frags[..n];
    var last := frags[n];
    InitAndLast(frags);
    assert forall i | 0 <= i < |init| :: !init[i].flag.ack && init[i].data != [] by {
      forall i | 0 <= i < |init| ensures !init[i].flag.ack && init[i].data != [] {
        assert init[i] == frags[i];
      }
    }
    ListenRunBuffers(k, st, init, now, limit);
    ListenRunThenLast(k, st, init, last, now, limit);
    AcksInOrder(k, st.username, init, last, ListenRun(k, st, init, now, limit).out, ListenRun(k, st, frags, now, limit).out);
  }

  /** The ACKs of some fragments followed by the ACK of one more are the
      ACKs of all of them, in order. */
  lemma AcksInOrder(k: FlagBits, u: Text, init: seq<Segment>, last: Segment, head: seq<Segment>, out: seq<Segment>)
    requires ValidBits(k)
    requires End(last) < 0x1_0000_0000 && forall i | 0 <= i < |init| :: End(init[i]) < 0x1_0000_0000
    requires |head| == |init| && forall i | 0 <= i < |init| :: head[i] == Ack(k, u, 0, End(init[i])).value
    requires out == head + [Ack(k, u, 0, End(last)).value]
    ensures |out| == |init + [last]|
    ensures forall i | 0 <= i < |init + [last]| :: Ack(k, u, 0, End((init + [last])[i])) == Ok(out[i])
  {
    forall i | 0 <= i < |init + [last]|
      ensures Ack(k, u, 0, End((init + [last])[i])) == Ok(out[i])
    {
      if i < |init| {
        assert out[i] == head[i] && (init + [last])[i] == init[i];
      }
    }
  }

  /** The FIN fragment completes the message buffered so far. */
  lemma LastCompletes(k: FlagBits, st: ClientState, s: Segment, now: int, limit: nat)
    requires ValidBits(k) && Inv(st, limit)
    requires s.flag.fin && !s.flag.ack && s.data != [] && End(s) < 0x1_0000_0000
    ensures var o := OnSegment(k, st, s, now, limit);
            var buf := st.receiveBuffer[s.seqNumber := s];
            && o.Continue? && o.out == [Ack(k, st.username, 0, End(s)).value]
            && o.st == Complete(st.(receiveBuffer := buf), s.username, Reassemble(buf), now, limit)
  {
  }

  /** The listener's ACK for the fragment at the sender's window_base,
      once the sender receives it, slides the sender's window past that
      fragment. */
  lemma ListenerAckAdvancesSender(k: FlagBits, st: ClientState, segs: seq<Segment>, W: nat, w: Window.Window,
                                  now: int, limit: nat)
    requires ValidBits(k) && Inv(st, limit) && Increasing(segs) && Window.Inv(segs, W, w) && w.base < w.next
    requires !segs[w.base].flag.ack && segs[w.base].data != [] && End(segs[w.base]) < 0x1_0000_0000
    ensures var o := OnSegment(k, st, segs[w.base], now, limit);
            && o.Continue? && |o.out| == 1
            && Window.OnEvent(segs, w, Window.Got(o.out[0])).base > w.base
  {
    var a := OnSegment(k, st, segs[w.base], now, limit).out[0];
    assert a.flag == ACK && a.ackNumber == End(segs[w.base]);
    FactoryFlags();
    Window.AckAdvances(segs, W, w.(acked := w.acked + {a.ackNumber}), a.ackNumber);
  }

  /** What the listener needs of a split: the facts the server needs, and
      no fragment carries ACK or an empty payload. */
  lemma FragmentsForListener(k: FlagBits, u: Text, m: Text, seqNum: int, ackNum: int, P: nat)
    requires ValidBits(k) && P >= 1 && m != []
    requires Split(k, u, m, seqNum, ackNum, P).Ok? && seqNum + |m| < 0x1_0000_0000
    ensures var frags := Split(k, u, m, seqNum, ackNum, P).value;
            && |frags| >= 1 && Increasing(frags)
            && (forall i | 0 <= i < |frags| :: End(frags[i]) < 0x1_0000_0000)
            && (forall i | 0 <= i < |frags| :: frags[i].flag.fin <==> i == |frags| - 1)
            && (forall i | 0 <= i < |frags| :: !frags[i].flag.ack && frags[i].data != [])
            && frags[|frags| - 1].username == u
            && Reassemble(Arrive(map[], frags)) == m
  {
    Server.FragmentsForReceiver(k, u, m, seqNum, ackNum, P);
    SplitShape(k, u, m, seqNum, ackNum, P);
    FactoryFlags();
  }

  /** The server's kill notice, "Server shutting down by <name>", sent
      under the name "Server", makes the listener drop the connection,
      after which the heartbeat stops. */
  lemma ShutdownNoticeStopsHeartbeat(k: FlagBits, st: ClientState, name: Text, seqNum: int, ackNum: int, P: nat,
                                     now: int, limit: nat)
    requires ValidBits(k) && P >= 1 && Inv(st, limit) && st.receiveBuffer == map[]
    requires var m := Server.SHUTTING_DOWN + name;
             Split(k, SERVER_NAME, m, seqNum, ackNum, P).Ok? && seqNum + |m| < 0x1_0000_0000
    ensures var m := Server.SHUTTING_DOWN + name;
            var r := ListenRun(k, st, Split(k, SERVER_NAME, m, seqNum, ackNum, P).value, now, limit);
            && r.Continue? && st.server !in r.st.connections
            && HeartbeatStep(k, r.st).None?
  {
    var m := Server.SHUTTING_DOWN + name;
    assert StartsWith(m, SHUTDOWN_PREFIX) by {
      assert m[..|SHUTDOWN_PREFIX|] == Server.SHUTTING_DOWN[..|SHUTDOWN_PREFIX|];
    }
    ClientReceivesMessage(k, st, SERVER_NAME, m, seqNum, ackNum, P, now, limit);
  }

  // ---------------------------------------------------------------------
  // receive and heartbeat

  /** receive: FIN without ACK is answered with FIN-ACK and the sender's
      connection dropped; FIN-ACK drops it silently; nothing else is
      acted on. Nothing calls this method: Node.listen is its only
      caller, and only the server runs listen. The client's FIN arrives
      through the listener instead (OnSegment). */
  function Receive(k: FlagBits, st: ClientState, peer: Addr, seg: Segment): (r: (ClientState, seq<Segment>))
    requires ValidBits(k)
    ensures r.0 == st.(connections := r.0.connections)
    ensures r.0.connections == if seg.flag.fin then st.connections - {peer} else st.connections
    ensures |r.1| == (if seg.flag.fin && !seg.flag.ack then 1 else 0)
    ensures |r.1| == 1 ==> r.1[0].flag == FIN_ACK
  {
    if seg.flag.fin && !seg.flag.ack then (st.(connections := st.connections - {peer}), [FinAck(k).value])
    else if IsFinAck(seg.flag) then (st.(connections := st.connections - {peer}), [])
    else (st, [])
  }

  /** The close handshake seen from the client: the FIN (without payload)
      that close_connection sends reaches the listener, which answers
      with a FIN-ACK and exits; that FIN-ACK, back at the closer, lands in
      the server's FIN-ACK branch and ends close_connection's wait by
      removing its connection. */
  lemma CloseHandshake(k: FlagBits, st: ClientState, conns: map<Addr, Connection>, peer: Addr, now: int, limit: nat)
    requires ValidBits(k) && Inv(st, limit) && peer in conns
    ensures var fin := CloseStart(k, conns, peer).value;
            var r := OnSegment(k, st, fin, now, limit);
            && r.Exit? && r.out == [FinAck(k).value]
            && Server.Classify(r.out[0]) == Server.FinAckReply
            && peer !in CloseStep(k, conns, peer, CloseReceived(r.out[0], true)).conns
  {
    FactoryFlags();
  }

  /** A FIN-ACK is answered with nothing, and receiving it again changes
      nothing more. */
  lemma FinAckIdempotent(k: FlagBits, st: ClientState, peer: Addr, seg: Segment)
    requires ValidBits(k) && IsFinAck(seg.flag)
    ensures var r := Receive(k, st, peer, seg);
            && r.1 == [] && peer !in r.0.connections
            && Receive(k, r.0, peer, seg) == (r.0, [])
  {
    var r := Receive(k, st, peer, seg);
    assert r.0.(connections := r.0.connections - {peer}) == r.0;
  }

  /** One beat of the heartbeat thread: none once the connection to the
      server is gone (the thread stops), or when its numbers do not pack;
      otherwise an empty PSH carrying the connection's numbers. */
  function HeartbeatStep(k: FlagBits, st: ClientState): (r: Option<Segment>)
    requires ValidBits(k)
    ensures r.Some? <==> st.server in st.connections && IsU32(st.connections[st.server].sendSeq)
                                                     && IsU32(st.connections[st.server].recvSeq)
    ensures r.Some? ==> && r.value.flag == PSH && r.value.data == [] && r.value.username == st.username
                        && r.value.seqNumber == st.connections[st.server].sendSeq
                        && r.value.ackNumber == st.connections[st.server].recvSeq
  {
    if st.server !in st.connections then None
    else
      var c := st.connections[st.server];
      match Psh(k, st.username, c.sendSeq, c.recvSeq)
      case Err(_) => None
      case Ok(s) => Some(s)
  }

  /** A heartbeat is taken for one by the server. */
  lemma HeartbeatReachesServer(k: FlagBits, st: ClientState)
    requires ValidBits(k) && HeartbeatStep(k, st).Some?
    ensures Server.Classify(HeartbeatStep(k, st).value) == Server.Heartbeat
  {
    FactoryFlags();
  }
}

=== FILE: codec.dfy ===
/** The wire segment (Segment): a 15-byte header packed as '!HHIIBH'
    (source port, destination port, sequence number, acknowledgement
    number, flag byte, checksum), a 10-byte NUL-padded username field and
    the payload. The checksum is modelled exactly as written, which is not
    the Internet checksum of RFC 1071: the carry fold is guarded by
    `sum >> 0xffff`, so it only runs for sums of at least 2^65535 and
    end-around carries are dropped. */
module Codec {
  import opened Bytes
  import opened Flags
  import opened Results

  const HEADER_LEN := 15
  const USERNAME_LEN := 10
  const FRAME_OVERHEAD := 25
  const MAX_PAYLOAD := 64

  /** A segment object. Header fields hold values of their wire widths:
      a value outside them makes struct.pack raise inside update_checksum,
      which every constructor and setter calls. The constructor then
      yields no object; a setter has already written the field, and the
      object it leaves behind is not modelled: its raise is the `Err`
      result. */
  datatype Segment = Segment(
    srcPort: u16,
    dstPort: u16,
    seqNumber: u32,
    ackNumber: u32,
    flag: Flag,
    checksum: u16,
    username: Text,
    data: Text)

  /** The header dictionary set_header installs, before range checks. */
  datatype Header = Header(
    srcPort: int,
    dstPort: int,
    seqNumber: int,
    ackNumber: int,
    flag: Flag,
    checksum: int,
    username: Text)

  datatype SegmentError =
    | PackError          // struct.error: a header field outside its wire range
    | PayloadTooLarge    // ValueError raised by set_data
    | MalformedFrame     // struct.error: fewer than 15 header bytes to unpack

  // ---------------------------------------------------------------------
  // Username field

  /** The username, truncated to 10 bytes and NUL-padded to exactly 10. */
  function UsernameField(u: Text): (f: seq<byte>)
    ensures |f| == USERNAME_LEN
    ensures |u| <= USERNAME_LEN ==> f[..|u|] == u && forall i | |u| <= i < USERNAME_LEN :: f[i] == 0
    ensures |u| > USERNAME_LEN ==> f == u[..USERNAME_LEN]
  {
    var t := if |u| <= USERNAME_LEN then u else u[..USERNAME_LEN];
    t + seq(USERNAME_LEN - |t|, _ => 0)
  }

  /** bytes.rstrip(b'\x00'): drops trailing NUL bytes only. */
  function StripNul(b: seq<byte>): (r: seq<byte>)
    ensures |r| <= |b| && r == b[..|r|]
    ensures r == [] || r[|r| - 1] != 0
    ensures forall i | |r| <= i < |b| :: b[i] == 0
  {
    if b != [] && b[|b| - 1] == 0 then StripNul(b[..|b| - 1]) else b
  }

  /** A username of at most 10 bytes without NUL survives the field. */
  lemma UsernameRoundTrip(u: Text)
    requires |u| <= USERNAME_LEN
    requires forall i | 0 <= i < |u| :: u[i] != 0
    ensures StripNul(UsernameField(u)) == u
  {
    var f := UsernameField(u);
    var r := StripNul(f);
    assert |r| >= |u| by {
      if |u| > 0 {
        assert f[|u| - 1] != 0;
      }
    }
    assert |r| <= |u| by {
      if |r| > 0 {
        assert f[|r| - 1] == r[|r| - 1];
      }
    }
  }

  // ---------------------------------------------------------------------
  // Packing

  /** The flag byte as packed by 'B'. */
  function FlagByte(k: FlagBits, f: Flag): byte
    requires ValidBits(k)
  {
    Value(k, f)
  }

  /** get_bytes_no_checksum: the header without its checksum field
      ('!HHIIB', 13 bytes), the username field and the payload; that is,
      the wire frame with bytes 13-14 cut out (BytesNoChecksumIsFrame). */
  function BytesNoChecksum(k: FlagBits, s: Segment): (b: seq<byte>)
    requires ValidBits(k)
    ensures |b| == 23 + |s.data|
  {
    U16BE(s.srcPort) + U16BE(s.dstPort) + U32BE(s.seqNumber) + U32BE(s.ackNumber)
      + [FlagByte(k, s.flag)] + UsernameField(s.username) + s.data
  }

  /** get_bytes: the wire frame. */
  function GetBytes(k: FlagBits, s: Segment): (b: seq<byte>)
    requires ValidBits(k)
    ensures |b| == FRAME_OVERHEAD + |s.data|
    ensures ReadU16(b, 0) == s.srcPort && ReadU16(b, 2) == s.dstPort
    ensures ReadU32(b, 4) == s.seqNumber && ReadU32(b, 8) == s.ackNumber
    ensures b[12] == Value(k, s.flag) && ReadU16(b, 13) == s.checksum
    ensures b[HEADER_LEN..FRAME_OVERHEAD] == UsernameField(s.username)
    ensures b[FRAME_OVERHEAD..] == s.data
  {
    var head := U16BE(s.srcPort) + U16BE(s.dstPort) + U32BE(s.seqNumber) + U32BE(s.ackNumber) + [FlagByte(k, s.flag)];
    var b := head + U16BE(s.checksum) + UsernameField(s.username) + s.data;
    assert |head| == 13 && b[13..15] == U16BE(s.checksum);
    U16RoundTrip(b, 0, s.srcPort);
    U16RoundTrip(b, 2, s.dstPort);
    U32RoundTrip(b, 4, s.seqNumber);
    U32RoundTrip(b, 8, s.ackNumber);
    U16RoundTrip(b, 13, s.checksum);
    b
  }

  /** The checksum input is the wire frame with its checksum field, bytes
      13 and 14, cut out: the same fields in the same order and width. */
  lemma BytesNoChecksumIsFrame(k: FlagBits, s: Segment)
    requires ValidBits(k)
    ensures BytesNoChecksum(k, s) == GetBytes(k, s)[..13] + GetBytes(k, s)[15..]
  {
    var head := U16BE(s.srcPort) + U16BE(s.dstPort) + U32BE(s.seqNumber) + U32BE(s.ackNumber) + [FlagByte(k, s.flag)];
    var tail := UsernameField(s.username) + s.data;
    assert BytesNoChecksum(k, s) == head + tail;
    assert GetBytes(k, s) == head + U16BE(s.checksum) + tail;
  }

  // ---------------------------------------------------------------------
  // Checksum

  /** Zero-pads to even length. */
  function Pad(b: seq<byte>): (p: seq<byte>)
    ensures |p| % 2 == 0
  {
    if |b| % 2 != 0 then b + [0] else b
  }

  /** The sum of the big-endian 16-bit words, first to last. */
  function SumWords(b: seq<byte>): nat
    requires |b| % 2 == 0
  {
    if b == [] then 0 else (b[0] as int) * 0x100 + b[1] as int + SumWords(b[2..])
  }

  /** v >> n */
  function Shr(v: nat, n: nat): (r: nat)
    ensures r <= v
  {
    if n == 0 then v else Shr(v / 2, n - 1)
  }

  lemma {:induction false} ShrZero(v: nat, n: nat)
    ensures Shr(v, n) == 0 <==> v < Pow2(n)
  {
    if n > 0 {
      ShrZero(v / 2, n - 1);
    }
  }

  lemma FoldShrinks(sum: nat)
    requires Shr(sum, 0xffff) != 0
    ensures sum % 0x1_0000 + sum / 0x1_0000 < sum
  {
    ShrZero(sum, 0xffff);
    Pow2Add(8, 8);
    assert Pow2(8) == 0x100;
    Pow2Monotone(16, 0xffff);
  }

  /** while sum >> 0xffff: sum = (sum & 0xffff) + (sum >> 16) */
  function Fold(sum: nat): nat
    decreases sum
  {
    if Shr(sum, 0xffff) != 0 then
      FoldShrinks(sum);
      Fold(sum % 0x1_0000 + sum / 0x1_0000)
    else
      sum
  }

  /** __calculate_checksum over given bytes: ~sum & 0xffff of the folded
      word sum of the zero-padded bytes. For a non-negative sum,
      ~sum & 0xffff is 0xffff minus the low 16 bits of sum. */
  function Checksum(b: seq<byte>): u16 {
    0xFFFF - Fold(SumWords(Pad(b))) % 0x1_0000
  }

  /** __calculate_checksum of a segment. For any segment of at most
      65536 - 23 payload bytes the carry fold never runs, so the result is
      the complement of the low 16 bits of the plain word sum. */
  function CalculateChecksum(k: FlagBits, s: Segment): (c: u16)
    requires ValidBits(k)
    ensures |s.data| <= 0x1_0000 - 23 ==> c == 0xFFFF - SumWords(Pad(BytesNoChecksum(k, s))) % 0x1_0000
  {
    var b := BytesNoChecksum(k, s);
    if |b| <= 0x1_0000 then FoldNeverFires(b); Checksum(b) else Checksum(b)
  }

  /** valid_checksum */
  predicate ValidChecksum(k: FlagBits, s: Segment)
    requires ValidBits(k)
  {
    CalculateChecksum(k, s) == s.checksum
  }

  /** update_checksum: stores the recomputed checksum, nothing else. */
  function UpdateChecksum(k: FlagBits, s: Segment): (r: Segment)
    requires ValidBits(k)
    ensures ValidChecksum(k, r)
    ensures r == s.(checksum := r.checksum)
  {
    var r := s.(checksum := CalculateChecksum(k, s));
    assert BytesNoChecksum(k, r) == BytesNoChecksum(k, s);
    r
  }

  // ---------------------------------------------------------------------
  // Construction and setters

  /** The constructor Segment(username, flag, seq_num, ack_num, data):
      ports 0, checksum recomputed; struct.pack raises when the sequence
      or acknowledgement number does not fit 32 bits. */
  function Make(k: FlagBits, u: Text, flag: Flag, seqNum: int, ackNum: int, data: Text)
    : (r: Result<Segment, SegmentError>)
    requires ValidBits(k)
    ensures r.Ok? <==> IsU32(seqNum) && IsU32(ackNum)
    ensures r.Err? ==> r.error == PackError
    ensures r.Ok? ==> && r.value.srcPort == 0 && r.value.dstPort == 0
                      && r.value.seqNumber == seqNum && r.value.ackNumber == ackNum
                      && r.value.flag == flag && r.value.username == u && r.value.data == data
                      && ValidChecksum(k, r.value)
  {
    if !IsU32(seqNum) || !IsU32(ackNum) then
      Err(PackError)
    else
      Ok(UpdateChecksum(k, Segment(0, 0, seqNum, ackNum, flag, 0, u, data)))
  }

  /** set_header: every header field replaced, checksum recomputed. */
  function SetHeader(k: FlagBits, s: Segment, h: Header): (r: Result<Segment, SegmentError>)
    requires ValidBits(k)
    ensures r.Ok? <==> 0 <= h.srcPort < 0x1_0000 && 0 <= h.dstPort < 0x1_0000
                       && IsU32(h.seqNumber) && IsU32(h.ackNumber)
    ensures r.Err? ==> r.error == PackError
    ensures r.Ok? ==> && r.value.srcPort == h.srcPort && r.value.dstPort == h.dstPort
                      && r.value.seqNumber == h.seqNumber && r.value.ackNumber == h.ackNumber
                      && r.value.flag == h.flag && r.value.username == h.username
                      && r.value.data == s.data && ValidChecksum(k, r.value)
  {
    if !(0 <= h.srcPort < 0x1_0000 && 0 <= h.dstPort < 0x1_0000 && IsU32(h.seqNumber) && IsU32(h.ackNumber)) then
      Err(PackError)
    else
      Ok(UpdateChecksum(k, Segment(h.srcPort, h.dstPort, h.seqNumber, h.ackNumber, h.flag, 0, h.username, s.data)))
  }

  /** set_data: more than 64 bytes raises ValueError and leaves the segment
      as it was (the error carries no new segment). */
  function SetData(k: FlagBits, s: Segment, d: Text): (r: Result<Segment, SegmentError>)
    requires ValidBits(k)
    ensures r.Err? <==> |d| > MAX_PAYLOAD
    ensures r.Err? ==> r.error == PayloadTooLarge
    ensures r.Ok? ==> r.value.data == d && ValidChecksum(k, r.value)
                      && r.value == s.(data := d, checksum := r.value.checksum)
  {
    if |d| > MAX_PAYLOAD then Err(PayloadTooLarge) else Ok(UpdateChecksum(k, s.(data := d)))
  }

  function SetSeqNumber(k: FlagBits, s: Segment, n: int): (r: Result<Segment, SegmentError>)
    requires ValidBits(k)
    ensures r.Ok? <==> IsU32(n)
    ensures r.Ok? ==> r.value.seqNumber == n && ValidChecksum(k, r.value)
                      && r.value == s.(seqNumber := n, checksum := r.value.checksum)
  {
    if !IsU32(n) then Err(PackError) else Ok(UpdateChecksum(k, s.(seqNumber := n)))
  }

  function SetAckNumber(k: FlagBits, s: Segment, n: int): (r: Result<Segment, SegmentError>)
    requires ValidBits(k)
    ensures r.Ok? <==> IsU32(n)
    ensures r.Ok? ==> r.value.ackNumber == n && ValidChecksum(k, r.value)
                      && r.value == s.(ackNumber := n, checksum := r.value.checksum)
  {
    if !IsU32(n) then Err(PackError) else Ok(UpdateChecksum(k, s.(ackNumber := n)))
  }

  /** set_flag from a [fin, syn, psh, ack] list. */
  function SetFlag(k: FlagBits, s: Segment, l: seq<bool>): (r: Segment)
    requires ValidBits(k)
    requires |l| >= 4
    ensures r.flag == FromList(l) && ValidChecksum(k, r)
    ensures r == s.(flag := FromList(l), checksum := r.checksum)
  {
    UpdateChecksum(k, s.(flag := FromList(l)))
  }

  // The factories: empty payload, username '' and numbers 0 by default;
  // each fails exactly when a number does not pack.

  function Syn(k: FlagBits, u: Text := [], seqNum: int := 0, ackNum: int := 0): (r: Result<Segment, SegmentError>)
    requires ValidBits(k)
    ensures r.Ok? <==> IsU32(seqNum) && IsU32(ackNum)
    ensures r.Ok? ==> r.value.flag == SYN && r.value.data == [] && r.value.username == u
                      && r.value.seqNumber == seqNum && r.value.ackNumber == ackNum
  {
    Make(k, u, SYN, seqNum, ackNum, [])
  }

  function Ack(k: FlagBits, u: Text := [], seqNum: int := 0, ackNum: int := 0): (r: Result<Segment, SegmentError>)
    requires ValidBits(k)
    ensures r.Ok? <==> IsU32(seqNum) && IsU32(ackNum)
    ensures r.Ok? ==> r.value.flag == ACK && r.value.data == [] && r.value.username == u
                      && r.value.seqNumber == seqNum && r.value.ackNumber == ackNum
  {
    Make(k, u, ACK, seqNum, ackNum, [])
  }

  function SynAck(k: FlagBits, u: Text := [], seqNum: int := 0, ackNum: int := 0): (r: Result<Segment, SegmentError>)
    requires ValidBits(k)
    ensures r.Ok? <==> IsU32(seqNum) && IsU32(ackNum)
    ensures r.Ok? ==> r.value.flag == SYN_ACK && r.value.data == [] && r.value.username == u
                      && r.value.seqNumber == seqNum && r.value.ackNumber == ackNum
  {
    Make(k, u, SYN_ACK, seqNum, ackNum, [])
  }

  function Fin(k: FlagBits, u: Text := [], seqNum: int := 0, ackNum: int := 0): (r: Result<Segment, SegmentError>)
    requires ValidBits(k)
    ensures r.Ok? <==> IsU32(seqNum) && IsU32(ackNum)
    ensures r.Ok? ==> r.value.flag == FIN && r.value.data == [] && r.value.username == u
                      && r.value.seqNumber == seqNum && r.value.ackNumber == ackNum
  {
    Make(k, u, FIN, seqNum, ackNum, [])
  }

  function FinAck(k: FlagBits, u: Text := [], seqNum: int := 0, ackNum: int := 0): (r: Result<Segment, SegmentError>)
    requires ValidBits(k)
    ensures r.Ok? <==> IsU32(seqNum) && IsU32(ackNum)
    ensures r.Ok? ==> r.value.flag == FIN_ACK && r.value.data == [] && r.value.username == u
                      && r.value.seqNumber == seqNum && r.value.ackNumber == ackNum
  {
    Make(k, u, FIN_ACK, seqNum, ackNum, [])
  }

  function Psh(k: FlagBits, u: Text := [], seqNum: int := 0, ackNum: int := 0): (r: Result<Segment, SegmentError>)
    requires ValidBits(k)
    ensures r.Ok? <==> IsU32(seqNum) && IsU32(ackNum)
    ensures r.Ok? ==> r.value.flag == PSH && r.value.data == [] && r.value.username == u
                      && r.value.seqNumber == seqNum && r.value.ackNumber == ackNum
  {
    Make(k, u, PSH, seqNum, ackNum, [])
  }

  // ---------------------------------------------------------------------
  // Decoding

  /** The username field as received: bytes 15..25, or fewer when the
      frame is shorter. */
  function NameBytes(b: seq<byte>): seq<byte>
    requires HEADER_LEN <= |b|
  {
    b[HEADER_LEN..if |b| < FRAME_OVERHEAD then |b| else FRAME_OVERHEAD]
  }

  /** The payload as received: everything after byte 25. */
  function PayloadBytes(b: seq<byte>): seq<byte>
    requires HEADER_LEN <= |b|
  {
    if |b| < FRAME_OVERHEAD then [] else b[FRAME_OVERHEAD..]
  }

  /** The fields unpacked from a frame, with the received checksum. */
  function Unpack(k: FlagBits, b: seq<byte>): Segment
    requires HEADER_LEN <= |b|
  {
    Segment(ReadU16(b, 0), ReadU16(b, 2), ReadU32(b, 4), ReadU32(b, 8), FromInt(k, b[12]),
            ReadU16(b, 13), StripNul(NameBytes(b)), PayloadBytes(b))
  }

  /** from_bytes: unpacks the header, strips NULs from the username field,
      takes the rest as payload, and builds the segment with the
      constructor. The constructor recomputes the checksum (with ports 0)
      in place of the received one; the ports are stored afterwards, and
      the validity flag compares the stored checksum with one recomputed
      over the stored ports. */
  function FromBytes(k: FlagBits, b: seq<byte>): (r: Result<(Segment, bool), SegmentError>)
    requires ValidBits(k)
    ensures r.Err? <==> |b| < HEADER_LEN
    ensures r.Err? ==> r.error == MalformedFrame
    ensures r.Ok? ==> var s := r.value.0;
                      && s == Unpack(k, b).(checksum := s.checksum)
                      && s.checksum == CalculateChecksum(k, s.(srcPort := 0, dstPort := 0))
                      && (r.value.1 <==> ValidChecksum(k, s))
  {
    if |b| < HEADER_LEN then
      Err(MalformedFrame)
    else
      var u := Unpack(k, b);
      var built := Make(k, u.username, u.flag, u.seqNumber, u.ackNumber, u.data).value;
      var s := built.(srcPort := u.srcPort, dstPort := u.dstPort);
      assert s.(srcPort := 0, dstPort := 0) == built;
      Ok((s, ValidChecksum(k, s)))
  }

  // ---------------------------------------------------------------------
  // Checksum lemmas

  lemma {:induction false} SumWordsAppend(a: seq<byte>, c: seq<byte>)
    requires |a| % 2 == 0 && |c| % 2 == 0
    ensures SumWords(a + c) == SumWords(a) + SumWords(c)
    decreases |a|
  {
    if a != [] {
      assert (a + c)[2..] == a[2..] + c;
      SumWordsAppend(a[2..], c);
    } else {
      assert a + c == c;
    }
  }

  lemma {:induction false} SumWordsBound(b: seq<byte>)
    requires |b| % 2 == 0
    ensures SumWords(b) <= 0xFFFF * (|b| / 2)
    decreases |b|
  {
    if b != [] {
      SumWordsBound(b[2..]);
    }
  }

  /** The carry fold never runs for any frame a UDP datagram can hold: the
      word sum stays far below 2^65535. */
  lemma FoldNeverFires(b: seq<byte>)
    requires |b| <= 0x1_0000
    ensures Fold(SumWords(Pad(b))) == SumWords(Pad(b))
    ensures SumWords(Pad(b)) < 0x1_0000_0000
  {
    SumWordsBound(Pad(b));
    var s := SumWords(Pad(b));
    assert s <= 0xFFFF * 0x8000;
    Pow2Of32();
    Pow2Monotone(32, 0xffff);
    ShrZero(s, 0xffff);
  }

  /** The Internet checksum of RFC 1071 (section 1), for comparison: the
      one's-complement sum folds every carry back into the low 16 bits. */
  function OnesComplementFold(sum: nat): (r: nat)
    ensures r < 0x1_0000
    decreases sum
  {
    if sum / 0x1_0000 != 0 then OnesComplementFold(sum % 0x1_0000 + sum / 0x1_0000) else sum
  }

  function InternetChecksum(b: seq<byte>): u16 {
    0xFFFF - OnesComplementFold(SumWords(Pad(b)))
  }

  /** Without a carry out of 16 bits the two checksums coincide. */
  lemma AgreesWithoutCarry(b: seq<byte>)
    requires |b| <= 0x1_0000
    requires SumWords(Pad(b)) < 0x1_0000
    ensures Checksum(b) == InternetChecksum(b)
  {
    FoldNeverFires(b);
  }

  /** With a carry they differ: the words 0xFFFF and 0x0001 sum to 0x10000,
      whose dropped carry gives 0xFFFF where RFC 1071 gives 0xFFFE. */
  lemma CarryDropped()
    ensures Checksum([0xFF, 0xFF, 0x00, 0x01]) == 0xFFFF
    ensures InternetChecksum([0xFF, 0xFF, 0x00, 0x01]) == 0xFFFE
  {
    var b: seq<byte> := [0xFF, 0xFF, 0x00, 0x01];
    assert Pad(b) == b;
    assert SumWords(b[2..][2..]) == 0;
    assert SumWords(b) == 0x1_0000;
    FoldNeverFires(b);
  }

  // ---------------------------------------------------------------------
  // Decoder lemmas

  /** The ports are the first two words of the checksummed bytes, so a
      segment's checksum input sums to that of the same segment with zero
      ports, plus the two port values. */
  lemma {:induction false} PortsInSum(k: FlagBits, s: Segment)
    requires ValidBits(k)
    ensures SumWords(Pad(BytesNoChecksum(k, s)))
            == SumWords(Pad(BytesNoChecksum(k, s.(srcPort := 0, dstPort := 0)))) + s.srcPort + s.dstPort
  {
    var rest := U32BE(s.seqNumber) + U32BE(s.ackNumber) + [FlagByte(k, s.flag)] + UsernameField(s.username) + s.data;
    var z := s.(srcPort := 0, dstPort := 0);
    var ports := U16BE(s.srcPort) + U16BE(s.dstPort);
    var zeros := U16BE(0) + U16BE(0);
    assert BytesNoChecksum(k, s) == ports + rest;
    assert BytesNoChecksum(k, z) == zeros + rest;
    assert Pad(ports + rest) == ports + Pad(rest);
    assert Pad(zeros + rest) == zeros + Pad(rest);
    SumWordsAppend(ports, Pad(rest));
    SumWordsAppend(zeros, Pad(rest));
    assert ports[2..] == U16BE(s.dstPort);
    assert SumWords(ports) == s.srcPort + s.dstPort;
    assert zeros[2..] == U16BE(0);
    assert SumWords(zeros) == 0;
  }

  lemma ModShift(a: nat, t: nat)
    ensures (a + t) % 0x1_0000 == a % 0x1_0000 <==> t % 0x1_0000 == 0
  {
    var m := 0x1_0000;
    assert a + t == (a / m + t / m) * m + (a % m + t % m);
    if t % m != 0 {
      if a % m + t % m < m {
        assert (a + t) % m == a % m + t % m;
      } else {
        assert a + t == (a / m + t / m + 1) * m + (a % m + t % m - m);
        assert (a + t) % m == a % m + t % m - m;
      }
    }
  }

  /** What the decoder's validity flag really checks: the two received
      ports sum to a multiple of 2^16. Every other byte, the received
      checksum included, is irrelevant to it. */
  lemma ValidityIsPortSum(k: FlagBits, b: seq<byte>)
    requires ValidBits(k)
    requires HEADER_LEN <= |b| <= 0x1_0000
    ensures FromBytes(k, b).Ok?
    ensures FromBytes(k, b).value.1 <==> (ReadU16(b, 0) + ReadU16(b, 2)) % 0x1_0000 == 0
  {
    var s := FromBytes(k, b).value.0;
    PortsDecideValidity(k, s);
    assert s.srcPort == ReadU16(b, 0) && s.dstPort == ReadU16(b, 2);
  }

  /** A segment whose checksum was computed with both ports zero passes
      the check exactly when its ports sum to a multiple of 65536. */
  lemma PortsDecideValidity(k: FlagBits, s: Segment)
    requires ValidBits(k) && |BytesNoChecksum(k, s)| <= 0x1_0000
    requires s.checksum == CalculateChecksum(k, s.(srcPort := 0, dstPort := 0))
    ensures ValidChecksum(k, s) <==> (s.srcPort + s.dstPort) % 0x1_0000 == 0
  {
    var z := s.(srcPort := 0, dstPort := 0);
    PortsInSum(k, s);
    var a := SumWords(Pad(BytesNoChecksum(k, z)));
    var a' := SumWords(Pad(BytesNoChecksum(k, s)));
    FoldNeverFires(BytesNoChecksum(k, z));
    FoldNeverFires(BytesNoChecksum(k, s));
    assert s.checksum == 0xFFFF - a % 0x1_0000;
    assert CalculateChecksum(k, s) == 0xFFFF - a' % 0x1_0000;
    ModShift(a, s.srcPort + s.dstPort);
  }


  /** Changing the two received checksum bytes changes nothing at all. */
  lemma FromBytesIgnoresChecksum(k: FlagBits, b: seq<byte>, c0: byte, c1: byte)
    requires ValidBits(k)
    requires HEADER_LEN <= |b|
    ensures FromBytes(k, b[13 := c0][14 := c1]) == FromBytes(k, b)
  {
    var b' := b[13 := c0][14 := c1];
    assert NameBytes(b') == NameBytes(b);
    assert PayloadBytes(b') == PayloadBytes(b);
    assert ReadU32(b', 4) == ReadU32(b, 4) && ReadU32(b', 8) == ReadU32(b, 8);
    assert Unpack(k, b').(checksum := 0) == Unpack(k, b).(checksum := 0);
  }

  /** Corruption past the ports goes undetected: overwriting any byte from
      offset 4 on leaves the validity flag as it was. */
  lemma CorruptionUndetected(k: FlagBits, b: seq<byte>, i: nat, x: byte)
    requires ValidBits(k)
    requires HEADER_LEN <= |b| <= 0x1_0000 && 4 <= i < |b|
    ensures FromBytes(k, b[i := x]).value.1 == FromBytes(k, b).value.1
  {
    PortsUntouched(b, i, x);
    SamePortsSameValidity(k, b, b[i := x]);
  }

  /** Two frames with the same port fields pass or fail the check together. */
  lemma SamePortsSameValidity(k: FlagBits, b: seq<byte>, c: seq<byte>)
    requires ValidBits(k)
    requires HEADER_LEN <= |b| <= 0x1_0000 && HEADER_LEN <= |c| <= 0x1_0000
    requires ReadU16(c, 0) == ReadU16(b, 0) && ReadU16(c, 2) == ReadU16(b, 2)
    ensures FromBytes(k, c).value.1 == FromBytes(k, b).value.1
  {
    ValidityIsPortSum(k, b);
    ValidityIsPortSum(k, c);
  }

  /** Overwriting a byte from offset 4 on leaves both port fields alone. */
  lemma PortsUntouched(b: seq<byte>, i: nat, x: byte)
    requires 4 <= i < |b|
    ensures ReadU16(b[i := x], 0) == ReadU16(b, 0) && ReadU16(b[i := x], 2) == ReadU16(b, 2)
  {
    assert b[i := x][..4] == b[..4];
  }

  /** The fields unpacked from an encoded segment. */
  lemma UnpackGetBytes(k: FlagBits, s: Segment)
    requires ValidBits(k)
    ensures var u := Unpack(k, GetBytes(k, s));
            && u.srcPort == s.srcPort && u.dstPort == s.dstPort
            && u.seqNumber == s.seqNumber && u.ackNumber == s.ackNumber
            && u.flag == s.flag && u.data == s.data
            && u.username == StripNul(UsernameField(s.username))
  {
    var b := GetBytes(k, s);
    assert NameBytes(b) == UsernameField(s.username);
    assert PayloadBytes(b) == s.data;
  }

  /** Decoding an encoded segment reproduces ports, numbers, flags and
      payload, and the username when it is at most 10 bytes without NUL. */
  lemma RoundTrip(k: FlagBits, s: Segment)
    requires ValidBits(k)
    ensures FromBytes(k, GetBytes(k, s)).Ok?
    ensures var d := FromBytes(k, GetBytes(k, s)).value.0;
            && d.srcPort == s.srcPort && d.dstPort == s.dstPort
            && d.seqNumber == s.seqNumber && d.ackNumber == s.ackNumber
            && d.flag == s.flag && d.data == s.data
            && ((|s.username| <= USERNAME_LEN && forall i | 0 <= i < |s.username| :: s.username[i] != 0)
                  ==> d.username == s.username)
  {
    var b := GetBytes(k, s);
    UnpackGetBytes(k, s);
    var d := FromBytes(k, b).value.0;
    assert d == Unpack(k, b).(checksum := d.checksum);
    if |s.username| <= USERNAME_LEN && (forall i | 0 <= i < |s.username| :: s.username[i] != 0) {
      UsernameRoundTrip(s.username);
    }
  }

  /** The validity flag of a decoded encoding holds exactly when the ports
      sum to a multiple of 2^16. */
  lemma RoundTripValidity(k: FlagBits, s: Segment)
    requires ValidBits(k)
    requires FRAME_OVERHEAD + |s.data| <= 0x1_0000
    ensures FromBytes(k, GetBytes(k, s)).Ok?
    ensures FromBytes(k, GetBytes(k, s)).value.1 <==> (s.srcPort + s.dstPort) % 0x1_0000 == 0
  {
    ValidityIsPortSum(k, GetBytes(k, s));
  }

  /** Every frame this program emits decodes as valid: segments are built
      with ports 0 and no setter changes them. */
  lemma EmittedFramesValid(k: FlagBits, u: Text, f: Flag, seqNum: int, ackNum: int, data: Text)
    requires ValidBits(k)
    requires FRAME_OVERHEAD + |data| <= 0x1_0000
    requires IsU32(seqNum) && IsU32(ackNum)
    ensures FromBytes(k, GetBytes(k, Make(k, u, f, seqNum, ackNum, data).value)).value.1
  {
    RoundTripValidity(k, Make(k, u, f, seqNum, ackNum, data).value);
  }

  /** Each factory yields an empty payload with its flag list
      [fin, syn, psh, ack], and fails only on an out-of-range number. */
  lemma FactoriesShape(k: FlagBits, u: Text, seqNum: int, ackNum: int)
    requires ValidBits(k)
    ensures Syn(k, u, seqNum, ackNum).Ok? <==> IsU32(seqNum) && IsU32(ackNum)
    ensures Syn(k, u, seqNum, ackNum).Ok? ==>
              Syn(k, u, seqNum, ackNum).value.data == [] && ToList(Syn(k, u, seqNum, ackNum).value.flag) == [false, true, false, false]
    ensures Ack(k, u, seqNum, ackNum).Ok? ==>
              Ack(k, u, seqNum, ackNum).value.data == [] && ToList(Ack(k, u, seqNum, ackNum).value.flag) == [false, false, false, true]
    ensures SynAck(k, u, seqNum, ackNum).Ok? ==>
              SynAck(k, u, seqNum, ackNum).value.data == [] && ToList(SynAck(k, u, seqNum, ackNum).value.flag) == [false, true, false, true]
    ensures Fin(k, u, seqNum, ackNum).Ok? ==>
              Fin(k, u, seqNum, ackNum).value.data == [] && ToList(Fin(k, u, seqNum, ackNum).value.flag) == [true, false, false, false]
    ensures FinAck(k, u, seqNum, ackNum).Ok? ==>
              FinAck(k, u, seqNum, ackNum).value.data == [] && ToList(FinAck(k, u, seqNum, ackNum).value.flag) == [true, false, false, true]
    ensures Psh(k, u, seqNum, ackNum).Ok? ==>
              Psh(k, u, seqNum, ackNum).value.data == [] && ToList(Psh(k, u, seqNum, ackNum).value.flag) == [false, false, true, false]
    ensures Fin(k).Ok? && FinAck(k).Ok? && Fin(k).value.seqNumber == 0 && FinAck(k).value.ackNumber == 0
  {
  }
}

=== FILE: connection.dfy ===
/** The per-peer connection record (Connection). */
module Connections {
  import opened Bytes
  import opened Codec

  /** An (ip, port) address; the key of every per-peer table. */
  datatype Addr = Addr(ip: Text, port: int)

  /** A connection. `currentIndex` is the server's delivery cursor into its
      message log; every value any caller stores there is non-negative.
      Times are in microseconds. */
  datatype Connection = Connection(
    local: Addr,
    remote: Addr,
    lastHeartbeat: int,
    currentIndex: nat,
    sendSeq: int,
    recvSeq: int,
    isConnected: bool,
    sendWindow: map<int, Segment>,
    acknowledged: set<int>,
    lastActivity: int)

  /** The constructor: heartbeat and activity stamped with the current
      time, numbers and cursor as given (0 by default), not yet marked
      connected, empty window and acknowledgement set. */
  function New(local: Addr, remote: Addr, now: int, sendSeq: int := 0, recvSeq: int := 0,
               currentIndex: nat := 0): (c: Connection)
    ensures c.local == local && c.remote == remote
    ensures c.sendSeq == sendSeq && c.recvSeq == recvSeq && c.currentIndex == currentIndex
    ensures c.lastHeartbeat == now && c.lastActivity == now
    ensures !c.isConnected && c.sendWindow == map[] && c.acknowledged == {}
  {
    Connection(local, remote, now, currentIndex, sendSeq, recvSeq, false, map[], {}, now)
  }

  /** get_current_index */
  function GetCurrentIndex(c: Connection): nat {
    c.currentIndex
  }

  /** increase_index: the cursor moves by one and nothing else changes. */
  function IncreaseIndex(c: Connection): (r: Connection)
    ensures GetCurrentIndex(r) == GetCurrentIndex(c) + 1
    ensures r == c.(currentIndex := r.currentIndex)
  {
    c.(currentIndex := c.currentIndex + 1)
  }

  /** `n` successive calls of increase_index. */
  function IncreaseTimes(c: Connection, n: nat): Connection
    decreases n
  {
    if n == 0 then c else IncreaseTimes(IncreaseIndex(c), n - 1)
  }

  /** `n` increments advance the cursor by exactly `n` and change nothing
      else. */
  lemma {:induction false} IncreaseTimesAdds(c: Connection, n: nat)
    ensures GetCurrentIndex(IncreaseTimes(c, n)) == GetCurrentIndex(c) + n
    ensures IncreaseTimes(c, n) == c.(currentIndex := c.currentIndex + n)
    decreases n
  {
    if n > 0 {
      IncreaseTimesAdds(IncreaseIndex(c), n - 1);
    }
  }
}

=== FILE: flags.dfy ===
/** The segment flag set (SegmentFlag): four independent booleans with a
    list encoding, an integer bitfield encoding, and composite predicates.

    The constants FIN_FLAG, SYN_FLAG, PSH_FLAG and ACK_FLAG come from a
    constants file that is not part of this model. The protocol needs
    them to be distinct single bits of the one-byte flag field, with
    DEFAULT_FLAG = 0, so the parameter FlagBits records the bit POSITION
    of each flag: FIN_FLAG = 2^fin, and so on. */
module Flags {
  import opened Bytes

  datatype Flag = Flag(fin: bool, syn: bool, psh: bool, ack: bool)

  /** Bit positions of FIN_FLAG, SYN_FLAG, PSH_FLAG and ACK_FLAG. */
  datatype FlagBits = FlagBits(fin: nat, syn: nat, psh: nat, ack: nat)

  /** Four distinct bits of one byte. */
  predicate ValidBits(k: FlagBits) {
    && k.fin < 8 && k.syn < 8 && k.psh < 8 && k.ack < 8
    && k.fin != k.syn && k.fin != k.psh && k.fin != k.ack
    && k.syn != k.psh && k.syn != k.ack && k.psh != k.ack
  }

  // ---------------------------------------------------------------------
  // Bitwise operations on non-negative integers

  /** v & 2^i != 0 */
  function TestBit(v: nat, i: nat): bool {
    if i == 0 then v % 2 == 1 else TestBit(v / 2, i - 1)
  }

  /** v | 2^i */
  function OrBit(v: nat, i: nat): nat {
    if TestBit(v, i) then v else v + Pow2(i)
  }

  /** v |= (BIT if set else DEFAULT_FLAG), where DEFAULT_FLAG is 0 and or-ing
      with 0 changes nothing. */
  function OrIf(v: nat, on: bool, i: nat): nat {
    if on then OrBit(v, i) else v
  }

  // ---------------------------------------------------------------------
  // The two constructors and get_flag_value

  /** The list constructor: positions 0..3 are fin, syn, psh, ack. Extra
      entries are ignored, as in the source. */
  function FromList(l: seq<bool>): (f: Flag)
    requires |l| >= 4
    ensures ToList(f) == l[..4]
  {
    Flag(l[0], l[1], l[2], l[3])
  }

  /** The list form the factories pass to the constructor. */
  function ToList(f: Flag): (l: seq<bool>)
    ensures |l| == 4
  {
    [f.fin, f.syn, f.psh, f.ack]
  }

  /** The integer constructor: a flag is set exactly when its bit is set
      in the argument. */
  function FromInt(k: FlagBits, v: nat): (f: Flag) {
    Flag(TestBit(v, k.fin), TestBit(v, k.syn), TestBit(v, k.psh), TestBit(v, k.ack))
  }

  /** get_flag_value: DEFAULT_FLAG or-ed with the bit of every set flag,
      in the order fin, syn, psh, ack. */
  function Value(k: FlagBits, f: Flag): (v: nat)
    ensures ValidBits(k) ==> v < 0x100 && FromInt(k, v) == f
  {
    if ValidBits(k) then OrChainDecodes(k, f); OrChain(k, f) else OrChain(k, f)
  }

  /** The four or-assignments of get_flag_value, in source order. */
  function OrChain(k: FlagBits, f: Flag): nat {
    OrIf(OrIf(OrIf(OrIf(0, f.fin, k.fin), f.syn, k.syn), f.psh, k.psh), f.ack, k.ack)
  }

  /** is_default_flag: none of syn, ack, fin (psh is not consulted). */
  predicate IsDefault(f: Flag) {
    !(f.syn || f.ack || f.fin)
  }

  predicate IsSynAck(f: Flag) {
    f.syn && f.ack
  }

  predicate IsFinAck(f: Flag) {
    f.fin && f.ack
  }

  predicate IsSynFin(f: Flag) {
    f.syn && f.fin
  }

  // The flag lists the Segment factories pass, [fin, syn, psh, ack].
  const SYN: Flag := FromList([false, true, false, false])
  const ACK: Flag := FromList([false, false, false, true])
  const SYN_ACK: Flag := FromList([false, true, false, true])
  const FIN: Flag := FromList([true, false, false, false])
  const FIN_ACK: Flag := FromList([true, false, false, true])
  const PSH: Flag := FromList([false, false, true, false])
  // The flag lists fragmentation uses: PSH on every fragment, FIN on the last.
  const FIN_PSH: Flag := FromList([true, false, true, false])

  // ---------------------------------------------------------------------
  // Bit lemmas

  lemma {:induction false} TestBitZero(i: nat)
    ensures !TestBit(0, i)
  {
    if i > 0 {
      TestBitZero(i - 1);
    }
  }

  /** Or-ing in bit i sets bit i and leaves every other bit as it was. */
  lemma {:induction false} TestOrBit(v: nat, i: nat, j: nat)
    ensures TestBit(OrBit(v, i), j) <==> j == i || TestBit(v, j)
    decreases i
  {
    if !TestBit(v, i) {
      assert OrBit(v, i) == v + Pow2(i);
      if i == 0 {
        assert v % 2 == 0;
        if j > 0 {
          assert (v + 1) / 2 == v / 2;
        }
      } else {
        var p := Pow2(i - 1);
        assert Pow2(i) == 2 * p;
        assert (v + 2 * p) % 2 == v % 2;
        if j > 0 {
          assert (v + 2 * p) / 2 == v / 2 + p;
          assert OrBit(v / 2, i - 1) == v / 2 + p;
          TestOrBit(v / 2, i - 1, j - 1);
        }
      }
    }
  }

  /** Or-ing a clear bit into a value below 2^n, with i < n, stays below 2^n. */
  lemma {:induction false} OrBitBound(v: nat, i: nat, n: nat)
    requires v < Pow2(n) && i < n
    ensures OrBit(v, i) < Pow2(n)
    decreases n
  {
    if !TestBit(v, i) {
      var h := Pow2(n - 1);
      var q := v / 2;
      assert Pow2(n) == 2 * h;
      assert v == 2 * q + v % 2;
      assert q < h;
      if i == 0 {
        assert v == 2 * q;
      } else {
        assert Pow2(i) == 2 * Pow2(i - 1);
        OrBitBound(q, i - 1, n - 1);
        assert q + Pow2(i - 1) < h;
      }
    }
  }

  lemma TestOrIf(v: nat, on: bool, i: nat, j: nat)
    ensures TestBit(OrIf(v, on, i), j) <==> (on && j == i) || TestBit(v, j)
  {
    if on {
      TestOrBit(v, i, j);
    }
  }

  // ---------------------------------------------------------------------
  // Properties

  /** The list encoding round-trips in both directions. */
  lemma ListRoundTrip(f: Flag, l: seq<bool>)
    requires |l| >= 4
    ensures FromList(ToList(f)) == f
    ensures ToList(FromList(l)) == l[..4]
  {
  }

  /** The bits of the or-chain are exactly the bits of the set flags. */
  lemma {:induction false} OrChainBits(k: FlagBits, f: Flag, j: nat)
    ensures TestBit(OrChain(k, f), j) <==>
              (f.fin && j == k.fin) || (f.syn && j == k.syn) || (f.psh && j == k.psh) || (f.ack && j == k.ack)
  {
    var v0 := OrIf(0, f.fin, k.fin);
    var v1 := OrIf(v0, f.syn, k.syn);
    var v2 := OrIf(v1, f.psh, k.psh);
    TestBitZero(j);
    TestOrIf(0, f.fin, k.fin, j);
    TestOrIf(v0, f.syn, k.syn, j);
    TestOrIf(v1, f.psh, k.psh, j);
    TestOrIf(v2, f.ack, k.ack, j);
  }

  /** With four distinct bits below 8, the or-chain fits one byte and the
      integer constructor reads back every flag. */
  lemma {:induction false} OrChainDecodes(k: FlagBits, f: Flag)
    requires ValidBits(k)
    ensures OrChain(k, f) < 0x100 && FromInt(k, OrChain(k, f)) == f
  {
    assert Pow2(8) == 0x100;
    var v0 := OrIf(0, f.fin, k.fin);
    var v1 := OrIf(v0, f.syn, k.syn);
    var v2 := OrIf(v1, f.psh, k.psh);
    if f.fin { OrBitBound(0, k.fin, 8); }
    if f.syn { OrBitBound(v0, k.syn, 8); }
    if f.psh { OrBitBound(v1, k.psh, 8); }
    if f.ack { OrBitBound(v2, k.ack, 8); }
    OrChainBits(k, f, k.fin);
    OrChainBits(k, f, k.syn);
    OrChainBits(k, f, k.psh);
    OrChainBits(k, f, k.ack);
  }

  /** The bits of get_flag_value are exactly the bits of the set flags. */
  lemma ValueBits(k: FlagBits, f: Flag, j: nat)
    ensures TestBit(Value(k, f), j) <==>
              (f.fin && j == k.fin) || (f.syn && j == k.syn) || (f.psh && j == k.psh) || (f.ack && j == k.ack)
  {
    OrChainBits(k, f, j);
  }

  /** Re-encoding a decoded byte keeps exactly its four flag bits: every
      other bit of the byte is lost. */
  lemma FromIntMasks(k: FlagBits, v: nat, j: nat)
    requires ValidBits(k)
    ensures TestBit(Value(k, FromInt(k, v)), j) <==>
              TestBit(v, j) && (j == k.fin || j == k.syn || j == k.psh || j == k.ack)
  {
    ValueBits(k, FromInt(k, v), j);
  }

  /** is_default_flag ignores psh: a PSH-only flag is "default", and any
      of syn, ack, fin makes it not default. */
  lemma DefaultIgnoresPsh(f: Flag)
    ensures IsDefault(f) <==> !f.syn && !f.ack && !f.fin
    ensures IsDefault(PSH) && IsDefault(Flag(false, false, false, false))
    ensures IsDefault(f) == IsDefault(f.(psh := !f.psh))
  {
  }

  /** The receiver's composite predicates, evaluated on the decoded
      bitfield, agree with the sender's flags. */
  lemma DecodedComposites(k: FlagBits, f: Flag)
    requires ValidBits(k)
    ensures IsSynAck(FromInt(k, Value(k, f))) <==> f.syn && f.ack
    ensures IsFinAck(FromInt(k, Value(k, f))) <==> f.fin && f.ack
    ensures IsSynFin(FromInt(k, Value(k, f))) <==> f.syn && f.fin
  {
  }

  /** The factory flag lists, by field. */
  lemma FactoryFlags()
    ensures SYN == Flag(false, true, false, false) && ACK == Flag(false, false, false, true)
    ensures SYN_ACK == Flag(false, true, false, true) && FIN == Flag(true, false, false, false)
    ensures FIN_ACK == Flag(true, false, false, true) && PSH == Flag(false, false, true, false)
    ensures FIN_PSH == Flag(true, false, true, false)
    ensures IsSynAck(SYN_ACK) && IsFinAck(FIN_ACK) && !IsSynAck(SYN) && !IsFinAck(FIN)
  {
  }
}

=== FILE: messages.dfy ===
/** A chat log entry (MessageInfo) and the bounded history a client keeps
    (a deque with a maximum length). */
module Messages {
  import opened Bytes

  /** Sender name, timestamp in microseconds, and message text. */
  datatype MessageInfo = MessageInfo(username: Text, time: int, msg: Text)

  /** deque.append on a deque with maxlen `limit`: the new entry goes to the
      right end and, once full, the leftmost entry is dropped. */
  function BoundedAppend<T>(q: seq<T>, x: T, limit: nat): (r: seq<T>)
    requires |q| <= limit
    ensures |r| == if |q| < limit then |q| + 1 else limit
    ensures limit > 0 ==> r[|r| - 1] == x
    ensures |q| < limit ==> r[..|q|] == q
    ensures |q| == limit > 0 ==> r[..|r| - 1] == q[1..]
  {
    var q' := q + [x];
    if |q'| <= limit then q' else q'[|q'| - limit..]
  }

  /** Appending a sequence of entries one by one keeps the most recent
      `limit` of the whole history, in arrival order. */
  function AppendAll<T>(q: seq<T>, xs: seq<T>, limit: nat): (r: seq<T>)
    requires |q| <= limit
    ensures |r| <= limit
    decreases |xs|
  {
    if xs == [] then q else AppendAll(BoundedAppend(q, xs[0], limit), xs[1..], limit)
  }

  /** The last `n` entries of a sequence (all of it when shorter). */
  function LastN<T>(s: seq<T>, n: nat): (r: seq<T>)
    ensures |r| == if |s| < n then |s| else n
  {
    if |s| <= n then s else s[|s| - n..]
  }

  /** The deque always holds the `limit` most recent entries ever appended. */
  lemma {:induction false} AppendAllKeepsRecent<T>(q: seq<T>, xs: seq<T>, limit: nat)
    requires |q| <= limit
    ensures AppendAll(q, xs, limit) == LastN(q + xs, limit)
    decreases |xs|
  {
    if xs != [] {
      var q1 := BoundedAppend(q, xs[0], limit);
      AppendAllKeepsRecent(q1, xs[1..], limit);
      assert q + xs == (q + [xs[0]]) + xs[1..];
      LastNAppend(q + [xs[0]], xs[1..], limit);
    } else {
      assert q + xs == q;
    }
  }

  lemma LastNAppend<T>(s: seq<T>, t: seq<T>, n: nat)
    ensures LastN(LastN(s, n) + t, n) == LastN(s + t, n)
  {
    if |s| > n {
      var u := s[|s| - n..];
      if |t| == 0 {
        assert u + t == u && s + t == s;
      } else {
        var a, b := (u + t)[|t|..], (s + t)[|s| + |t| - n..];
        forall x | 0 <= x < n
          ensures a[x] == b[x]
        {
          if |t| + x < n {
            assert a[x] == u[|t| + x] == s[|s| - n + |t| + x];
          } else {
            assert a[x] == t[|t| + x - n];
          }
        }
      }
    }
  }
}

=== FILE: node.dfy ===
/** The transport node's message layer: splitting a message into PSH/FIN
    fragments, the receivers' reassembly of buffered fragments in
    ascending sequence order, framing a segment for sending, admitting a
    received datagram, and the connection teardown handshake.
    PAYLOAD_SIZE comes from a constants file that is not part of this
    model; it is the parameter `P`, at least 1. */
module Fragments {
  import opened Bytes
  import opened Flags
  import opened Results
  import opened Codec
  import opened Connections

  /** recvfrom(128): longer datagrams are truncated to their first 128
      bytes. */
  const RECV_SIZE := 128

  // ---------------------------------------------------------------------
  // Fragment plan

  /** The concatenation of a list of texts. */
  function Concat(ts: seq<Text>): Text {
    if ts == [] then [] else ts[0] + Concat(ts[1..])
  }

  /** One fragment before it is built into a segment. */
  datatype Frag = Frag(flag: Flag, seqNumber: int, chunk: Text)

  /** The loop of _split_message_to_segments over the remaining message
      `m`: chunk m[i:i + P], flagged FIN+PSH when i + P reaches the end and
      PSH otherwise, the sequence number advancing by the chunk's length. */
  function Plan(m: Text, seqNum: int, P: nat): (fs: seq<Frag>)
    requires P >= 1
    ensures forall i | 0 <= i < |fs| :: 1 <= |fs[i].chunk| <= P
    decreases |m|
  {
    if m == [] then []
    else
      var c := if |m| <= P then |m| else P;
      [Frag(if P >= |m| then FIN_PSH else PSH, seqNum, m[..c])] + Plan(m[c..], seqNum + c, P)
  }

  /** The chunks of a plan, in order. */
  function ChunksOf(fs: seq<Frag>): (ts: seq<Text>)
    ensures |ts| == |fs|
    ensures forall i | 0 <= i < |fs| :: ts[i] == fs[i].chunk
  {
    if fs == [] then [] else [fs[0].chunk] + ChunksOf(fs[1..])
  }

  /** The chunks put back together give the message. */
  lemma {:induction false} PlanConcat(m: Text, seqNum: int, P: nat)
    requires P >= 1
    ensures Concat(ChunksOf(Plan(m, seqNum, P))) == m
    decreases |m|
  {
    if m != [] {
      var c := if |m| <= P then |m| else P;
      var fs := Plan(m, seqNum, P);
      var rest := Plan(m[c..], seqNum + c, P);
      PlanConcat(m[c..], seqNum + c, P);
      assert fs[0].chunk == m[..c] && fs[1..] == rest;
      var ts := ChunksOf(fs);
      assert ts[0] == m[..c];
      assert ts[1..] == ChunksOf(rest);
      assert Concat(ts) == m[..c] + Concat(ChunksOf(rest));
      assert m == m[..c] + m[c..];
    }
  }

  /** Every chunk but the last is full. */
  lemma {:induction false} PlanFull(m: Text, seqNum: int, P: nat)
    requires P >= 1
    ensures forall i | 0 <= i < |Plan(m, seqNum, P)| - 1 :: |Plan(m, seqNum, P)[i].chunk| == P
    decreases |m|
  {
    if m != [] && |m| > P {
      PlanFull(m[P..], seqNum + P, P);
      var fs := Plan(m, seqNum, P);
      var rest := Plan(m[P..], seqNum + P, P);
      assert fs[1..] == rest;
      assert fs[0].chunk == m[..P];
      assert |fs| == |rest| + 1;
      forall i | 0 <= i < |fs| - 1
        ensures |fs[i].chunk| == P
      {
        if i > 0 {
          assert fs[i] == rest[i - 1];
          assert |rest[i - 1].chunk| == P;
        }
      }
    }
  }

  /** There are ceil(|m| / P) fragments. */
  lemma {:induction false} PlanCount(m: Text, seqNum: int, P: nat)
    requires P >= 1
    ensures |Plan(m, seqNum, P)| == (|m| + P - 1) / P
    decreases |m|
  {
    if m == [] {
      DivUnique(P - 1, P, 0, P - 1);
    } else if |m| <= P {
      DivUnique(|m| + P - 1, P, 1, |m| - 1);
    } else {
      PlanCount(m[P..], seqNum + P, P);
      DivStep(|m| - 1, P);
    }
  }

  /** i * P, built up one chunk length at a time. */
  function Offset(i: nat, P: nat): nat {
    if i == 0 then 0 else Offset(i - 1, P) + P
  }

  lemma {:induction false} OffsetIsProduct(i: nat, P: nat)
    ensures Offset(i, P) == i * P
  {
    if i > 0 {
      OffsetIsProduct(i - 1, P);
      MulShift(0, P, i);
    }
  }

  lemma {:induction false} PlanOffsets(m: Text, seqNum: int, P: nat)
    requires P >= 1
    ensures forall i | 0 <= i < |Plan(m, seqNum, P)| :: Plan(m, seqNum, P)[i].seqNumber == seqNum + Offset(i, P)
    decreases |m|
  {
    if m != [] && |m| > P {
      var fs := Plan(m, seqNum, P);
      var tail := Plan(m[P..], seqNum + P, P);
      PlanOffsets(m[P..], seqNum + P, P);
      assert fs[1..] == tail;
      forall i | 1 <= i < |fs|
        ensures fs[i].seqNumber == seqNum + Offset(i, P)
      {
        assert fs[i] == tail[i - 1];
      }
    }
  }

  /** Fragment i carries sequence number seq + i * P: each sequence number
      is the previous one plus the previous chunk's length. */
  lemma PlanSeqNumbers(m: Text, seqNum: int, P: nat)
    requires P >= 1
    ensures forall i | 0 <= i < |Plan(m, seqNum, P)| :: Plan(m, seqNum, P)[i].seqNumber == seqNum + i * P
  {
    var fs := Plan(m, seqNum, P);
    PlanOffsets(m, seqNum, P);
    forall i | 0 <= i < |fs|
      ensures fs[i].seqNumber == seqNum + i * P
    {
      OffsetIsProduct(i, P);
    }
  }

  /** Only the last fragment carries FIN (with PSH); every other one is
      PSH only. */
  lemma {:induction false} PlanFlags(m: Text, seqNum: int, P: nat)
    requires P >= 1
    ensures forall i | 0 <= i < |Plan(m, seqNum, P)| :: Plan(m, seqNum, P)[i].flag == if i == |Plan(m, seqNum, P)| - 1 then FIN_PSH else PSH
    decreases |m|
  {
    if m != [] && |m| > P {
      var fs := Plan(m, seqNum, P);
      PlanFlags(m[P..], seqNum + P, P);
      assert fs[1..] == Plan(m[P..], seqNum + P, P);
      assert |fs| >= 2 by { assert m[P..] != []; }
    }
  }

  // ---------------------------------------------------------------------
  // Building the segments

  /** Each planned fragment becomes Segment(u, flag, seq, ack, chunk), in
      order; the first whose numbers do not fit 32 bits raises and aborts
      the split. */
  function Build(k: FlagBits, u: Text, fs: seq<Frag>, ackNum: int): (r: Result<seq<Segment>, SegmentError>)
    requires ValidBits(k)
    ensures r.Err? ==> r.error == PackError
    ensures r.Ok? <==> fs == [] || (IsU32(ackNum) && forall i | 0 <= i < |fs| :: IsU32(fs[i].seqNumber))
    ensures r.Ok? ==> |r.value| == |fs|
    ensures r.Ok? ==> forall i | 0 <= i < |fs| ::
                        && r.value[i].flag == fs[i].flag && r.value[i].seqNumber == fs[i].seqNumber
                        && r.value[i].data == fs[i].chunk
                        && r.value[i].username == u && r.value[i].ackNumber == ackNum
                        && r.value[i].srcPort == 0 && r.value[i].dstPort == 0
                        && ValidChecksum(k, r.value[i])
  {
    if fs == [] then
      Ok([])
    else
      var head :- Make(k, u, fs[0].flag, fs[0].seqNumber, ackNum, fs[0].chunk);
      var tail :- Build(k, u, fs[1..], ackNum);
      assert forall i | 1 <= i < |fs| :: fs[i] == fs[1..][i - 1];
      Ok([head] + tail)
  }

  /** _split_message_to_segments(u, m, seq, ack). */
  function Split(k: FlagBits, u: Text, m: Text, seqNum: int, ackNum: int, P: nat)
    : (r: Result<seq<Segment>, SegmentError>)
    requires ValidBits(k) && P >= 1
    ensures r.Err? ==> r.error == PackError
    ensures m == [] ==> r == Ok([])
    ensures r.Ok? ==> forall i | 0 <= i < |r.value| ::
                        && r.value[i].username == u && r.value[i].ackNumber == ackNum
                        && r.value[i].srcPort == 0 && r.value[i].dstPort == 0
                        && 1 <= |r.value[i].data| <= P && ValidChecksum(k, r.value[i])
  {
    Build(k, u, Plan(m, seqNum, P), ackNum)
  }

  /** The shape of a successful split: ceil(|m| / P) segments; segment i
      carries chunk i, sequence number seq + i * P, the caller's username
      and acknowledgement number, and ports 0; every chunk is non-empty
      and at most P long, all but the last exactly P; only the last
      carries FIN (with PSH), the others PSH alone. */
  lemma SplitShape(k: FlagBits, u: Text, m: Text, seqNum: int, ackNum: int, P: nat)
    requires ValidBits(k) && P >= 1
    requires Split(k, u, m, seqNum, ackNum, P).Ok?
    ensures var r := Split(k, u, m, seqNum, ackNum, P).value;
            && |r| == (|m| + P - 1) / P
            && (forall i | 0 <= i < |r| ::
                  && r[i].seqNumber == seqNum + i * P
                  && 1 <= |r[i].data| <= P
                  && r[i].username == u && r[i].ackNumber == ackNum
                  && r[i].flag == if i == |r| - 1 then FIN_PSH else PSH)
            && (forall i | 0 <= i < |r| - 1 :: |r[i].data| == P)
  {
    PlanCount(m, seqNum, P);
    PlanSeqNumbers(m, seqNum, P);
    PlanFull(m, seqNum, P);
    PlanFlags(m, seqNum, P);
  }

  /** The last chunk of an `n`-byte message starts at ((n - 1) / P) * P. */
  lemma LastIndex(n: nat, P: nat)
    requires n >= 1 && P >= 1
    ensures (n + P - 1) / P - 1 == (n - 1) / P
  {
    DivStep(n - 1, P);
  }

  /** Splitting succeeds exactly when the message is empty, or the
      acknowledgement number and every fragment's sequence number fit 32
      bits, that is, the first is non-negative and the last,
      seq + ((|m| - 1) / P) * P, is below 2^32. */
  lemma SplitSucceeds(k: FlagBits, u: Text, m: Text, seqNum: int, ackNum: int, P: nat)
    requires ValidBits(k) && P >= 1
    ensures Split(k, u, m, seqNum, ackNum, P).Ok? <==>
              m == [] || (IsU32(ackNum) && 0 <= seqNum && seqNum + ((|m| - 1) / P) * P < 0x1_0000_0000)
  {
    var fs := Plan(m, seqNum, P);
    if m != [] {
      PlanCount(m, seqNum, P);
      PlanSeqNumbers(m, seqNum, P);
      LastIndex(|m|, P);
      var last := (|m| - 1) / P;
      assert fs[last].seqNumber == seqNum + last * P;
      if 0 <= seqNum && seqNum + last * P < 0x1_0000_0000 {
        forall i | 0 <= i < |fs|
          ensures IsU32(fs[i].seqNumber)
        {
          if i < last {
            MulMonotone(i, last, P);
          }
        }
      }
    }
  }

  // ---------------------------------------------------------------------
  // Reassembly

  lemma {:induction false} MinExists(s: set<int>)
    requires s != {}
    ensures exists m :: m in s && forall x | x in s :: m <= x
    decreases |s|
  {
    assert exists y :: y in s by {
      if forall y | y in s :: false {
        assert false;
      }
    }
    var y :| y in s;
    if s != {y} {
      MinExists(s - {y});
      var m :| m in s - {y} && forall x | x in s - {y} :: m <= x;
      var least := if y < m then y else m;
      forall x | x in s
        ensures least <= x
      {
        if x != y {
          assert x in s - {y};
        }
      }
      assert least in s;
    } else {
      assert forall x | x in s :: y <= x;
    }
  }

  /** The least element of a finite non-empty set of integers. */
  function MinOf(s: set<int>): (m: int)
    requires s != {}
    ensures m in s && forall x | x in s :: m <= x
  {
    MinExists(s);
    var m :| m in s && forall x | x in s :: m <= x;
    m
  }

  /** b''.join(buf[q].get_data() for q in sorted(buf)): the buffered
      payloads in ascending sequence-number order. */
  function Reassemble(buf: map<int, Segment>): Text
    decreases |buf|
  {
    if buf == map[] then []
    else
      var q := MinOf(buf.Keys);
      assert buf.Keys - {q} == (buf - {q}).Keys;
      buf[q].data + Reassemble(buf - {q})
  }

  /** The join is empty exactly when every buffered payload is. */
  lemma {:induction false} ReassembleEmpty(buf: map<int, Segment>)
    ensures Reassemble(buf) == [] <==> forall q | q in buf :: buf[q].data == []
    decreases |buf|
  {
    if buf != map[] {
      var q := MinOf(buf.Keys);
      var rest := buf - {q};
      assert buf.Keys - {q} == rest.Keys;
      ReassembleEmpty(rest);
      assert Reassemble(buf) == buf[q].data + Reassemble(rest);
      assert forall x | x in buf && x != q :: x in rest && rest[x] == buf[x];
    }
  }

  /** A fragment whose sequence number is above every buffered one adds its
      payload at the end. */
  lemma {:induction false} ReassembleAddLast(buf: map<int, Segment>, q: int, s: Segment)
    requires forall x | x in buf :: x < q
    ensures Reassemble(buf[q := s]) == Reassemble(buf) + s.data
    decreases |buf|
  {
    var b' := buf[q := s];
    if buf == map[] {
      assert b'.Keys == {q};
      assert b' - {q} == map[];
    } else {
      var m := MinOf(buf.Keys);
      var m' := MinOf(b'.Keys);
      assert m' == m by {
        assert m in b'.Keys;
        if m' != q {
          assert m' in buf.Keys;
        }
      }
      assert (b' - {m}).Keys == ((buf - {m})[q := s]).Keys;
      assert b' - {m} == (buf - {m})[q := s];
      ReassembleAddLast(buf - {m}, q, s);
    }
  }

  /** The end of a segment's byte range: seq + len(payload). */
  function End(s: Segment): int {
    s.seqNumber + |s.data|
  }

  /** No fragment's byte range reaches past the message's last number. */
  lemma {:induction false} PlanEnds(m: Text, seqNum: int, P: nat)
    requires P >= 1
    ensures forall i | 0 <= i < |Plan(m, seqNum, P)| ::
              Plan(m, seqNum, P)[i].seqNumber + |Plan(m, seqNum, P)[i].chunk| <= seqNum + |m|
    decreases |m|
  {
    if m != [] {
      var c := if |m| <= P then |m| else P;
      var fs := Plan(m, seqNum, P);
      PlanEnds(m[c..], seqNum + c, P);
      assert fs[1..] == Plan(m[c..], seqNum + c, P);
      forall i | 1 <= i < |fs|
        ensures fs[i].seqNumber + |fs[i].chunk| <= seqNum + |m|
      {
        assert fs[i] == fs[1..][i - 1];
      }
    }
  }

  lemma SplitEnds(k: FlagBits, u: Text, m: Text, seqNum: int, ackNum: int, P: nat)
    requires ValidBits(k) && P >= 1
    requires Split(k, u, m, seqNum, ackNum, P).Ok?
    ensures forall i | 0 <= i < |Split(k, u, m, seqNum, ackNum, P).value| ::
              End(Split(k, u, m, seqNum, ackNum, P).value[i]) <= seqNum + |m|
  {
    PlanEnds(m, seqNum, P);
  }

  /** Arrivals one at a time: the last one lands on top of the rest. */
  lemma {:induction false} ArriveSnoc(buf: map<int, Segment>, segs: seq<Segment>, s: Segment)
    ensures Arrive(buf, segs + [s]) == Arrive(buf, segs)[s.seqNumber := s]
    decreases |segs|
  {
    if segs != [] {
      assert (segs + [s])[1..] == segs[1..] + [s];
      ArriveSnoc(buf[segs[0].seqNumber := segs[0]], segs[1..], s);
    } else {
      assert segs + [s] == [s];
    }
  }

  /** Strictly increasing sequence numbers. */
  predicate Increasing(segs: seq<Segment>) {
    forall i, j | 0 <= i < j < |segs| :: segs[i].seqNumber < segs[j].seqNumber
  }

  /** The payloads of a list of segments, in order. */
  function Payloads(segs: seq<Segment>): (ts: seq<Text>)
    ensures |ts| == |segs|
    ensures forall i | 0 <= i < |segs| :: ts[i] == segs[i].data
  {
    if segs == [] then [] else [segs[0].data] + Payloads(segs[1..])
  }

  /** The receive buffer after segments arrive in the given order; a later
      arrival with the same sequence number replaces the earlier one. */
  function Arrive(buf: map<int, Segment>, segs: seq<Segment>): map<int, Segment>
    decreases |segs|
  {
    if segs == [] then buf else Arrive(buf[segs[0].seqNumber := segs[0]], segs[1..])
  }

  /** A sequence number is buffered after the arrivals exactly when it
      was buffered before or one of the arrivals carries it. */
  lemma {:induction false} ArriveKeys(buf: map<int, Segment>, segs: seq<Segment>, x: int)
    ensures x in Arrive(buf, segs) <==> x in buf || exists i | 0 <= i < |segs| :: segs[i].seqNumber == x
    decreases |segs|
  {
    if segs != [] {
      ArriveKeys(buf[segs[0].seqNumber := segs[0]], segs[1..], x);
      if exists i | 0 <= i < |segs[1..]| :: segs[1..][i].seqNumber == x {
        var i :| 0 <= i < |segs[1..]| && segs[1..][i].seqNumber == x;
        assert segs[i + 1].seqNumber == x;
      }
      if exists i | 0 <= i < |segs| :: segs[i].seqNumber == x {
        var i :| 0 <= i < |segs| && segs[i].seqNumber == x;
        if i > 0 {
          assert segs[1..][i - 1].seqNumber == x;
        }
      }
    }
  }

  lemma IncreasingTail(segs: seq<Segment>)
    requires segs != [] && Increasing(segs)
    ensures Increasing(segs[1..])
    ensures forall i | 0 <= i < |segs[1..]| :: segs[0].seqNumber < segs[1..][i].seqNumber
  {
    forall i, j | 0 <= i < j < |segs[1..]|
      ensures segs[1..][i].seqNumber < segs[1..][j].seqNumber
    {
      assert segs[1..][i] == segs[i + 1] && segs[1..][j] == segs[j + 1];
    }
    forall i | 0 <= i < |segs[1..]|
      ensures segs[0].seqNumber < segs[1..][i].seqNumber
    {
      assert segs[1..][i] == segs[i + 1];
    }
  }

  /** Segments arriving in ascending order after everything buffered
      extend the reassembly by their payloads. */
  lemma {:induction false} ReassembleInOrder(buf: map<int, Segment>, segs: seq<Segment>)
    requires Increasing(segs)
    requires forall x, i | x in buf && 0 <= i < |segs| :: x < segs[i].seqNumber
    ensures Reassemble(Arrive(buf, segs)) == Reassemble(buf) + Concat(Payloads(segs))
    decreases |segs|
  {
    if segs != [] {
      var b1 := buf[segs[0].seqNumber := segs[0]];
      ReassembleAddLast(buf, segs[0].seqNumber, segs[0]);
      IncreasingTail(segs);
      assert forall x, i | x in b1 && 0 <= i < |segs[1..]| :: x < segs[1..][i].seqNumber by {
        forall x, i | x in b1 && 0 <= i < |segs[1..]|
          ensures x < segs[1..][i].seqNumber
        {
          assert segs[1..][i] == segs[i + 1];
        }
      }
      ReassembleInOrder(b1, segs[1..]);
      assert Arrive(buf, segs) == Arrive(b1, segs[1..]);
      assert Payloads(segs) == [segs[0].data] + Payloads(segs[1..]);
      assert Concat(Payloads(segs)) == segs[0].data + Concat(Payloads(segs[1..]));
    }
  }

  /** Splitting the arrivals at the last one: the earlier ones ascend,
      carry no FIN and are acknowledgeable, and the last one's number is
      not among theirs. */
  lemma InitAndLast(frags: seq<Segment>)
    requires |frags| >= 1 && Increasing(frags)
    requires forall i | 0 <= i < |frags| :: End(frags[i]) < 0x1_0000_0000
    requires forall i | 0 <= i < |frags| :: frags[i].flag.fin <==> i == |frags| - 1
    ensures var init := frags[..|frags| - 1];
            var last := frags[|frags| - 1];
            && frags == init + [last]
            && Increasing(init)
            && (forall i | 0 <= i < |init| :: !init[i].flag.fin && End(init[i]) < 0x1_0000_0000)
            && last.seqNumber !in Arrive(map[], init)
            && Arrive(map[], init)[last.seqNumber := last] == Arrive(map[], frags)
  {
    var n := |frags| - 1;
    var init := frags[..n];
    var last := frags[n];
    assert frags == init + [last];
    forall i, j | 0 <= i < j < |init|
      ensures init[i].seqNumber < init[j].seqNumber
    {
      assert init[i] == frags[i] && init[j] == frags[j];
    }
    forall i | 0 <= i < |init|
      ensures !init[i].flag.fin && End(init[i]) < 0x1_0000_0000 && init[i].seqNumber != last.seqNumber
    {
      assert init[i] == frags[i];
    }
    ArriveKeys(map[], init, last.seqNumber);
    ArriveSnoc(map[], init, last);
  }

  lemma PlanIncreasing(m: Text, seqNum: int, P: nat)
    requires P >= 1
    ensures forall i, j | 0 <= i < j < |Plan(m, seqNum, P)| :: Plan(m, seqNum, P)[i].seqNumber < Plan(m, seqNum, P)[j].seqNumber
  {
    var fs := Plan(m, seqNum, P);
    PlanSeqNumbers(m, seqNum, P);
    forall i, j | 0 <= i < j < |fs|
      ensures fs[i].seqNumber < fs[j].seqNumber
    {
      MulMonotone(i, j, P);
    }
  }

  /** The fragments of a split have strictly increasing sequence
      numbers. */
  lemma SplitIncreasing(k: FlagBits, u: Text, m: Text, seqNum: int, ackNum: int, P: nat)
    requires ValidBits(k) && P >= 1
    requires Split(k, u, m, seqNum, ackNum, P).Ok?
    ensures Increasing(Split(k, u, m, seqNum, ackNum, P).value)
  {
    var fs := Split(k, u, m, seqNum, ackNum, P).value;
    var plan := Plan(m, seqNum, P);
    PlanIncreasing(m, seqNum, P);
    forall i, j | 0 <= i < j < |fs|
      ensures fs[i].seqNumber < fs[j].seqNumber
    {
      assert fs[i].seqNumber == plan[i].seqNumber && fs[j].seqNumber == plan[j].seqNumber;
    }
  }

  /** The payloads of a split, in order, give the message back. */
  lemma SplitPayloads(k: FlagBits, u: Text, m: Text, seqNum: int, ackNum: int, P: nat)
    requires ValidBits(k) && P >= 1
    requires Split(k, u, m, seqNum, ackNum, P).Ok?
    ensures Concat(Payloads(Split(k, u, m, seqNum, ackNum, P).value)) == m
  {
    var fs := Split(k, u, m, seqNum, ackNum, P).value;
    assert Payloads(fs) == ChunksOf(Plan(m, seqNum, P));
    PlanConcat(m, seqNum, P);
  }

  /** Fragmentation and reassembly are inverse: receiving the fragments of
      a message in order into an empty buffer and joining them in
      ascending sequence order gives the message back. */
  lemma SplitReassemble(k: FlagBits, u: Text, m: Text, seqNum: int, ackNum: int, P: nat)
    requires ValidBits(k) && P >= 1
    requires Split(k, u, m, seqNum, ackNum, P).Ok?
    ensures Reassemble(Arrive(map[], Split(k, u, m, seqNum, ackNum, P).value)) == m
  {
    var fs := Split(k, u, m, seqNum, ackNum, P).value;
    SplitIncreasing(k, u, m, seqNum, ackNum, P);
    ReassembleInOrder(map[], fs);
    assert Reassemble(map[]) == [];
    SplitPayloads(k, u, m, seqNum, ackNum, P);
  }

  /** Every buffered fragment sits under its own sequence number and is one
      of `frags`. */
  predicate Consistent(buf: map<int, Segment>, frags: seq<Segment>) {
    forall x | x in buf :: buf[x].seqNumber == x && buf[x] in frags
  }

  /** Arrivals drawn from `frags` keep the buffer consistent with them. */
  lemma {:induction false} ArriveConsistent(buf: map<int, Segment>, arr: seq<Segment>, frags: seq<Segment>)
    requires Consistent(buf, frags)
    requires forall j | 0 <= j < |arr| :: arr[j] in frags
    ensures Consistent(Arrive(buf, arr), frags)
    decreases |arr|
  {
    if arr != [] {
      ArriveConsistent(buf[arr[0].seqNumber := arr[0]], arr[1..], frags);
    }
  }

  /** The buffer does not depend on the arrival order or on duplicates:
      any arrival sequence that delivers each fragment at least once and
      nothing else leaves the same buffer as in-order delivery, so the
      reassembly is the same. */
  lemma ArrivalOrderIrrelevant(frags: seq<Segment>, arr: seq<Segment>)
    requires Increasing(frags)
    requires forall j | 0 <= j < |arr| :: arr[j] in frags
    requires forall i | 0 <= i < |frags| :: frags[i] in arr
    ensures Arrive(map[], arr) == Arrive(map[], frags)
  {
    var a := Arrive(map[], arr);
    var b := Arrive(map[], frags);
    ArriveConsistent(map[], arr, frags);
    ArriveConsistent(map[], frags, frags);
    forall x | x in a
      ensures x in b
    {
      var i :| 0 <= i < |frags| && frags[i] == a[x];
      ArriveKeys(map[], frags, x);
    }
    forall x | x in b
      ensures x in a
    {
      var i :| 0 <= i < |frags| && frags[i] == b[x];
      var j :| 0 <= j < |arr| && arr[j] == frags[i];
      ArriveKeys(map[], arr, x);
    }
    forall x | x in a
      ensures a[x] == b[x]
    {
      var i :| 0 <= i < |frags| && frags[i] == a[x];
      var j :| 0 <= j < |frags| && frags[j] == b[x];
      if i < j {
        assert frags[i].seqNumber < frags[j].seqNumber;
      } else if j < i {
        assert frags[j].seqNumber < frags[i].seqNumber;
      }
    }
  }

  // ---------------------------------------------------------------------
  // Sending and receiving single segments

  /** send_segment: recompute the checksum and send the frame. The frame
      decodes back to the segment's header fields and payload, with a
      valid checksum flag when the ports are 0. */
  function SendSegment(k: FlagBits, s: Segment): (frame: seq<byte>)
    requires ValidBits(k)
    ensures |frame| == FRAME_OVERHEAD + |s.data|
    ensures FromBytes(k, frame).Ok?
    ensures var d := FromBytes(k, frame).value.0;
            && d.seqNumber == s.seqNumber && d.ackNumber == s.ackNumber
            && d.flag == s.flag && d.data == s.data
            && d.srcPort == s.srcPort && d.dstPort == s.dstPort
  {
    var s' := UpdateChecksum(k, s);
    RoundTrip(k, s');
    GetBytes(k, s')
  }

  /** What recvfrom(128) keeps of a datagram: its first 128 bytes. */
  function Frame(datagram: seq<byte>): (f: seq<byte>)
    ensures |f| <= RECV_SIZE && f <= datagram
    ensures |datagram| <= RECV_SIZE ==> f == datagram
  {
    if |datagram| <= RECV_SIZE then datagram else datagram[..RECV_SIZE]
  }

  /** listen/__listen_recv: a received datagram (truncated to 128 bytes)
      is decoded; a segment is handed on only when its validity flag
      holds. A datagram shorter than the header makes unpack raise, which
      nothing on this path catches. */
  function Admit(k: FlagBits, datagram: seq<byte>): (r: Result<Option<Segment>, SegmentError>)
    requires ValidBits(k)
    ensures r.Err? <==> |datagram| < HEADER_LEN
    ensures r.Ok? && r.value.Some? ==> FromBytes(k, Frame(datagram)) == Ok((r.value.value, true))
    ensures r.Ok? && r.value.None? ==> FromBytes(k, Frame(datagram)).Ok? && !FromBytes(k, Frame(datagram)).value.1
  {
    var d :- FromBytes(k, Frame(datagram));
    if d.1 then Ok(Some(d.0)) else Ok(None)
  }

  /** Every segment this program builds, with at most 64 payload bytes,
      fits the receive size and is admitted intact. */
  lemma AdmitSent(k: FlagBits, s: Segment)
    requires ValidBits(k)
    requires |s.data| <= MAX_PAYLOAD && s.srcPort == 0 && s.dstPort == 0
    ensures Admit(k, SendSegment(k, s)).Ok?
    ensures Admit(k, SendSegment(k, s)).value.Some?
    ensures var d := Admit(k, SendSegment(k, s)).value.value;
            d.seqNumber == s.seqNumber && d.ackNumber == s.ackNumber && d.flag == s.flag && d.data == s.data
  {
    var s' := UpdateChecksum(k, s);
    RoundTripValidity(k, s');
  }

  // ---------------------------------------------------------------------
  // Teardown

  /** What the closing side sees while waiting for FIN-ACK. */
  datatype CloseEvent =
    | CloseTimeout                            // socket timeout
    | CloseMalformed                          // a datagram shorter than a header
    | CloseReceived(seg: Segment, valid: bool) // a decoded segment

  /** What one turn of the wait leaves: the connection table, the FIN to
      resend if any, and whether an exception escaped close_connection. */
  datatype CloseOutcome = CloseOutcome(conns: map<Addr, Connection>, resend: Option<Segment>, raised: bool)

  /** close_connection's opening: nothing at all when there is no
      connection to the peer, otherwise a FIN to send. */
  function CloseStart(k: FlagBits, conns: map<Addr, Connection>, peer: Addr): (r: Option<Segment>)
    requires ValidBits(k)
    ensures r.None? <==> peer !in conns
    ensures r.Some? ==> r.value.flag == FIN && r.value.data == []
  {
    if peer !in conns then None else Some(Fin(k).value)
  }

  /** One turn of close_connection's wait loop, while the connection
      exists: a timeout resends FIN; a valid FIN-ACK (from anyone) removes
      the connection; a datagram too short to decode raises struct.error,
      which only socket.timeout is caught for, so close_connection ends
      there with the connection kept; anything else is ignored. */
  function CloseStep(k: FlagBits, conns: map<Addr, Connection>, peer: Addr, ev: CloseEvent): (r: CloseOutcome)
    requires ValidBits(k)
    requires peer in conns
    ensures r.resend.Some? <==> ev.CloseTimeout?
    ensures r.resend.Some? ==> r.resend.value.flag == FIN && r.resend.value.data == []
    ensures r.raised <==> ev.CloseMalformed?
    ensures r.conns == conns || r.conns == conns - {peer}
    ensures peer !in r.conns <==> ev.CloseReceived? && ev.valid && IsFinAck(ev.seg.flag)
  {
    match ev
    case CloseTimeout => CloseOutcome(conns, Some(Fin(k).value), false)
    case CloseMalformed => CloseOutcome(conns, None, true)
    case CloseReceived(seg, valid) =>
      if valid && IsFinAck(seg.flag) then CloseOutcome(conns - {peer}, None, false) else CloseOutcome(conns, None, false)
  }

}

=== FILE: results.dfy ===
/** Failure-carrying return values. The source reports errors by raising
    exceptions (struct.error, ValueError, KeyError); the model returns them. */
module Results {

  /** Either a value or the error the source would have raised. */
  datatype Result<+T, +E> = Ok(value: T) | Err(error: E) {

    predicate IsFailure() {
      Err?
    }

    function PropagateFailure<U>(): Result<U, E>
      requires Err?
    {
      Err(error)
    }

    function Extract(): T
      requires Ok?
    {
      value
    }
  }

  datatype Option<+T> = None | Some(value: T)
}

=== FILE: server.dfy ===
/** The chat server: its per-client tables, the dispatcher that acts on
    every admitted segment, data reassembly with the chat commands, client
    removal and the heartbeat monitor. Each operation is a pure step from
    a server state to an outcome: the next state with the segments and
    chat messages it sends, a shutdown, or an uncaught exception (which
    ends run_server's loop, since it only catches socket errors). */
module Server {
  import opened Bytes
  import opened Flags
  import opened Results
  import opened Codec
  import opened Connections
  import opened Messages
  import opened Fragments
  import Window

  /** HEARTBEAT_TIMEOUT, 30 s in microseconds. */
  const HEARTBEAT_TIMEOUT: int := 30_000_000

  const SERVER_NAME: Text := Str("Server")
  const UNKNOWN: Text := Str("Unknown")
  const KILL_PASSWORD: Text := Str("jarkom")

  // The command prefixes and the fixed texts the server logs or sends.
  const DISCONNECT: Text := Str("!disconnect")
  const KILL: Text := Str("!kill ")
  const CHANGE: Text := Str("!change ")
  const JOINED: Text := Str(" joined!")
  const LEFT: Text := Str(" left the chat")
  const CHANGED_TO: Text := Str(" changed name to ")
  const SHUTTING_DOWN: Text := Str("Server shutting down by ")
  const KILL_REJECTED: Text := Str("Kill command rejected: incorrect password")

  /** The numbers remembered between SYN and the final handshake ACK. */
  datatype Handshake = Handshake(serverSeq: int, clientSeq: int)

  datatype ServerState = ServerState(
    self: Addr,
    connections: map<Addr, Connection>,
    buffers: map<Addr, map<int, Segment>>,   // client_buffers
    expectedSeq: map<Addr, int>,
    tempSeqs: map<Addr, Handshake>,
    usernames: map<Addr, Text>,              // client_usernames
    messages: seq<MessageInfo>,              // the chat log, unbounded
    killPassword: Text)

  /** A fresh server: every table empty. */
  function Init(self: Addr, killPassword: Text := KILL_PASSWORD): (st: ServerState)
    ensures st.self == self && st.killPassword == killPassword
    ensures st.connections == map[] && st.buffers == map[] && st.expectedSeq == map[]
    ensures st.tempSeqs == map[] && st.usernames == map[] && st.messages == []
  {
    ServerState(self, map[], map[], map[], map[], map[], [], killPassword)
  }

  /** What the server puts on the wire: a single segment (send_segment),
      or a whole chat message through the sliding window (_send_message). */
  datatype Action =
    | SendSeg(to: Addr, seg: Segment)
    | Deliver(to: Addr, info: MessageInfo)

  datatype Outcome =
    | Next(st: ServerState, out: seq<Action>)
    /** The kill command: the notice goes to every connected client, then
        the process exits. */
    | Halted(out: seq<Action>, notified: set<Addr>, notice: MessageInfo)
    /** An exception nothing catches. */
    | Crash

  /** The server's bookkeeping invariant: no client's delivery cursor is
      past the end of the log. */
  predicate Inv(st: ServerState) {
    forall p | p in st.connections :: st.connections[p].currentIndex <= |st.messages|
  }

  lemma InitInv(self: Addr, killPassword: Text)
    ensures Inv(Init(self, killPassword))
  {
  }

  // ---------------------------------------------------------------------
  // Dispatch

  /** The branches of receive, tried in source order. */
  datatype Branch =
    | Heartbeat      // PSH with no payload
    | FinRequest     // FIN without ACK or PSH
    | FinAckReply    // FIN and ACK, without PSH
    | SynRequest     // SYN
    | HandshakeAck   // ACK without PSH
    | Data           // anything else with a payload
    | Empty          // anything else without one

  function Classify(seg: Segment): (b: Branch)
    ensures b == Heartbeat <==> seg.flag.psh && seg.data == []
    ensures b == FinRequest <==> seg.flag.fin && !seg.flag.ack && !seg.flag.psh
    ensures b == FinAckReply <==> seg.flag.fin && seg.flag.ack && !seg.flag.psh
    ensures b == SynRequest <==> seg.flag.syn && !(seg.flag.psh && seg.data == []) && !(seg.flag.fin && !seg.flag.psh)
    ensures b == HandshakeAck <==> seg.flag.ack && !seg.flag.psh && !seg.flag.syn && !seg.flag.fin
    ensures b == Data <==> seg.data != [] && !seg.flag.syn && (seg.flag.psh || (!seg.flag.fin && !seg.flag.ack))
    ensures b == Empty ==> seg.data == [] && !seg.flag.ack && !seg.flag.syn
  {
    var f := seg.flag;
    if f.psh && seg.data == [] then Heartbeat
    else if f.fin && !f.ack && !f.psh then FinRequest
    else if IsFinAck(f) && !f.psh then FinAckReply
    else if f.syn then SynRequest
    else if f.ack && !f.psh then HandshakeAck
    else if seg.data != [] then Data
    else Empty
  }

  /** The segments the peers build land in the branch meant for them: the
      client's SYN, handshake ACK, heartbeat, FIN and FIN-ACK, and every
      fragment of a chat message. A client's ACK of a chat fragment also
      lands in the handshake branch. */
  lemma ClassifyProtocol(k: FlagBits, u: Text, seqNum: u32, ackNum: u32, s: Segment)
    requires ValidBits(k)
    ensures Classify(Syn(k, u, seqNum, ackNum).value) == SynRequest
    ensures Classify(Ack(k, u, seqNum, ackNum).value) == HandshakeAck
    ensures Classify(Psh(k, u, seqNum, ackNum).value) == Heartbeat
    ensures Classify(Fin(k, u, seqNum, ackNum).value) == FinRequest
    ensures Classify(FinAck(k, u, seqNum, ackNum).value) == FinAckReply
    ensures (s.flag == PSH || s.flag == FIN_PSH) && s.data != [] ==> Classify(s) == Data
  {
    FactoryFlags();
  }

  /** The heartbeat branch: a connected client is sent every log entry from
      its cursor on, the cursor moving past each, and its heartbeat time
      is refreshed. With a non-empty log, a heartbeat from an address with
      no connection raises KeyError. */
  function OnHeartbeat(st: ServerState, p: Addr, now: int): (r: Outcome)
    ensures r.Crash? <==> |st.messages| > 0 && p !in st.connections
    ensures r.Next? ==> r.st.messages == st.messages
  {
    if p !in st.connections then
      if |st.messages| > 0 then Crash else Next(st, [])
    else
      var c := st.connections[p];
      var n := if c.currentIndex < |st.messages| then |st.messages| - c.currentIndex else 0;
      var c' := IncreaseTimes(c, n).(lastHeartbeat := now);
      Next(st.(connections := st.connections[p := c']), Deliveries(p, st.messages, c.currentIndex))
  }

  /** One _send_message call per log entry from position `i` on. */
  function Deliveries(p: Addr, log: seq<MessageInfo>, i: nat): (r: seq<Action>)
    ensures |r| == if i < |log| then |log| - i else 0
    ensures forall j | 0 <= j < |r| :: r[j] == Deliver(p, log[i + j])
    decreases |log| - i
  {
    if i >= |log| then [] else [Deliver(p, log[i])] + Deliveries(p, log, i + 1)
  }

  /** A heartbeat from a connected client delivers exactly the log entries
      it has not yet been sent, in log order, and leaves its cursor at the
      end of the log; nothing but that client's cursor and heartbeat time
      changes. */
  lemma HeartbeatDelivers(st: ServerState, p: Addr, now: int)
    requires Inv(st) && p in st.connections
    ensures var r := OnHeartbeat(st, p, now);
            var c := st.connections[p];
            && r.Next?
            && |r.out| == |st.messages| - c.currentIndex
            && (forall j | 0 <= j < |r.out| :: r.out[j] == Deliver(p, st.messages[c.currentIndex + j]))
            && r.st == st.(connections := st.connections[p := c.(currentIndex := |st.messages|, lastHeartbeat := now)])
            && Inv(r.st)
  {
    var c := st.connections[p];
    IncreaseTimesAdds(c, |st.messages| - c.currentIndex);
  }

  /** Two heartbeats from the same client with no other step between
      them: the second delivers only what the first could not, which is
      nothing. */
  lemma HeartbeatIdempotent(st: ServerState, p: Addr, now: int, later: int)
    requires Inv(st) && p in st.connections
    ensures var r := OnHeartbeat(st, p, now);
            r.Next? && OnHeartbeat(r.st, p, later).Next? && OnHeartbeat(r.st, p, later).out == []
  {
    HeartbeatDelivers(st, p, now);
    var r := OnHeartbeat(st, p, now);
    HeartbeatDelivers(r.st, p, later);
  }

  /** remove_client: for a connected client, drop it from every per-client
      table and announce its departure, unless its name was never
      recorded ("Unknown" stands in then, and a client actually named
      "Unknown" leaves silently too). Unconnected addresses are ignored. */
  function RemoveClient(st: ServerState, p: Addr, now: int): (r: ServerState)
    ensures r.connections == st.connections - {p}
    ensures p !in st.connections ==> r == st
    ensures st.messages <= r.messages && |r.messages| <= |st.messages| + 1
  {
    if p !in st.connections then st
    else
      var name := if p in st.usernames then st.usernames[p] else UNKNOWN;
      var st' := st.(connections := st.connections - {p}, buffers := st.buffers - {p},
                     expectedSeq := st.expectedSeq - {p}, usernames := st.usernames - {p});
      if name != UNKNOWN then st'.(messages := st'.messages + [MessageInfo(SERVER_NAME, now, name + LEFT)])
      else st'
  }

  /** Removal takes the client out of every per-client table, touches no
      other client, and appends at most the departure notice. */
  lemma RemoveClientSpec(st: ServerState, p: Addr, now: int)
    ensures var r := RemoveClient(st, p, now);
            && p !in r.connections
            && (p in st.connections ==> p !in r.buffers && p !in r.expectedSeq && p !in r.usernames)
            && r.connections == st.connections - {p}
            && (p in st.connections ==> r.buffers == st.buffers - {p} && r.usernames == st.usernames - {p})
            && (p !in st.connections ==> r == st)
            && r.tempSeqs == st.tempSeqs && r.self == st.self && r.killPassword == st.killPassword
            && (if p in st.connections && p in st.usernames && st.usernames[p] != UNKNOWN
                then r.messages == st.messages + [MessageInfo(SERVER_NAME, now, st.usernames[p] + LEFT)]
                else r.messages == st.messages)
  {
  }

  /** A FIN is always answered with FIN-ACK, then the client is removed. */
  function OnFin(k: FlagBits, st: ServerState, p: Addr, now: int): (r: Outcome)
    requires ValidBits(k)
    ensures r.Next? && |r.out| == 1 && r.out[0].SendSeg? && r.out[0].to == p
    ensures r.out[0].seg.flag == FIN_ACK && r.out[0].seg.data == []
    ensures r.st == RemoveClient(st, p, now) && p !in r.st.connections
  {
    Next(RemoveClient(st, p, now), [SendSeg(p, FinAck(k).value)])
  }

  /** A SYN: remember both initial numbers and answer SYN-ACK, numbered
      with the server's random initial number and acknowledging the
      client's plus one (which struct.pack rejects past 32 bits). */
  function OnSyn(k: FlagBits, st: ServerState, p: Addr, seg: Segment, serverSeq: int): (r: Outcome)
    requires ValidBits(k) && 1000 <= serverSeq <= 50000
    ensures r.Crash? <==> seg.seqNumber + 1 >= 0x1_0000_0000
    ensures r.Next? ==> && r.st == st.(tempSeqs := st.tempSeqs[p := Handshake(serverSeq, seg.seqNumber)])
                        && r.out == [SendSeg(p, SynAck(k, SERVER_NAME, serverSeq, seg.seqNumber + 1).value)]
                        && r.out[0].seg.flag == SYN_ACK
                        && r.out[0].seg.seqNumber == serverSeq && r.out[0].seg.ackNumber == seg.seqNumber + 1
  {
    var st' := st.(tempSeqs := st.tempSeqs[p := Handshake(serverSeq, seg.seqNumber)]);
    match SynAck(k, SERVER_NAME, serverSeq, seg.seqNumber + 1)
    case Err(_) => Crash
    case Ok(sa) => Next(st', [SendSeg(p, sa)])
  }

  /** The final handshake ACK (and any other ACK without PSH): record the
      sender's name and log "<name> joined!". If the address has no
      connection yet, open one numbered from the remembered handshake,
      with its delivery cursor on the join notice, and give it an empty
      buffer; with no remembered handshake this raises KeyError. */
  function OnHandshakeAck(st: ServerState, p: Addr, seg: Segment, now: int): (r: Outcome)
    ensures r.Crash? <==> p !in st.connections && p !in st.tempSeqs
    ensures r.Next? ==> r.out == [] && r.st.messages == st.messages + [MessageInfo(SERVER_NAME, now, seg.username + JOINED)]
    ensures r.Next? ==> p in r.st.connections && r.st.usernames == st.usernames[p := seg.username]
    ensures r.Next? && p in st.connections ==> r.st.connections == st.connections
    ensures r.Next? && p !in st.connections ==>
              && r.st.connections == st.connections[p := r.st.connections[p]]
              && r.st.connections[p].sendSeq == st.tempSeqs[p].serverSeq + 1
              && r.st.connections[p].recvSeq == seg.seqNumber + 1
              && r.st.connections[p].currentIndex == |st.messages|
              && r.st.buffers == st.buffers[p := map[]]
              && r.st.tempSeqs == st.tempSeqs - {p}
  {
    var st1 := st.(usernames := st.usernames[p := seg.username],
                   messages := st.messages + [MessageInfo(SERVER_NAME, now, seg.username + JOINED)]);
    if p in st.connections then Next(st1, [])
    else if p !in st.tempSeqs then Crash
    else
      var h := st.tempSeqs[p];
      var c := New(st.self, p, now, h.serverSeq + 1, seg.seqNumber + 1, |st1.messages| - 1);
      Next(st1.(connections := st1.connections[p := c], buffers := st1.buffers[p := map[]],
                tempSeqs := st1.tempSeqs - {p}), [])
  }

  // ---------------------------------------------------------------------
  // Chat commands

  datatype CommandResult = NotCommand | Handled(o: Outcome)

  /** handle_command: "!disconnect" (as a prefix) removes the client;
      "!kill <password>" with the right password shuts the server down
      after notifying every client, and with a wrong one tells the sender
      so; "!change <name>" renames the client and logs it when the new
      name is non-empty and differs from the name the message came with.
      Any other text is not a command. */
  function HandleCommand(st: ServerState, p: Addr, username: Text, text: Text, now: int): (r: CommandResult)
    ensures r.NotCommand? <==>
              !StartsWith(text, DISCONNECT) && !StartsWith(text, KILL) && !StartsWith(text, CHANGE)
    ensures r.Handled? ==> !r.o.Crash?
    ensures r.Handled? && r.o.Next? ==> st.messages <= r.o.st.messages && |r.o.st.messages| <= |st.messages| + 1
    ensures r.Handled? && r.o.Next? && Inv(st) ==> Inv(r.o.st)
    ensures r.Handled? && r.o.Next? && !StartsWith(text, DISCONNECT) ==>
              r.o.st.buffers == st.buffers && r.o.st.connections == st.connections
  {
    if StartsWith(text, DISCONNECT) then
      Handled(Next(RemoveClient(st, p, now), []))
    else if StartsWith(text, KILL) then
      var password := Strip(text[6..]);
      if password == st.killPassword then
        Handled(Halted([], st.connections.Keys, MessageInfo(SERVER_NAME, now, SHUTTING_DOWN + username)))
      else
        Handled(Next(st, [Deliver(p, MessageInfo(SERVER_NAME, now, KILL_REJECTED))]))
    else if StartsWith(text, CHANGE) then
      var newName := Strip(text[8..]);
      if newName != [] && newName != username then
        Handled(Next(st.(usernames := st.usernames[p := newName],
                         messages := st.messages + [MessageInfo(SERVER_NAME, now, username + CHANGED_TO + newName)]), []))
      else
        Handled(Next(st, []))
    else
      NotCommand
  }

  /** "!change": the rename happens exactly when the stripped new name is
      non-empty and differs from the current one, and then nothing but
      the name table and the log changes. */
  lemma ChangeNameSpec(st: ServerState, p: Addr, username: Text, rest: Text, now: int)
    ensures var text := CHANGE + rest;
            var newName := Strip(rest);
            var r := HandleCommand(st, p, username, text, now);
            && r.Handled? && r.o.Next? && r.o.out == []
            && (newName != [] && newName != username <==> r.o.st != st)
            && (newName != [] && newName != username ==>
                  r.o.st == st.(usernames := st.usernames[p := newName],
                                messages := st.messages + [MessageInfo(SERVER_NAME, now, username + CHANGED_TO + newName)]))
  {
    var text := CHANGE + rest;
    assert !StartsWith(text, DISCONNECT) by {
      assert text[1] != DISCONNECT[1];
    }
    assert !StartsWith(text, KILL) by {
      assert text[1] != KILL[1];
    }
    assert StartsWith(text, CHANGE);
    assert text[8..] == rest;
    var newName := Strip(rest);
    if newName != [] && newName != username {
      var st' := HandleCommand(st, p, username, text, now).o.st;
      assert |st'.messages| == |st.messages| + 1;
    }
  }

  /** "!kill": the right password (after stripping whitespace) halts the
      server with the shutdown notice for every connected client; a wrong
      one leaves the state alone and only answers the sender. */
  lemma KillSpec(st: ServerState, p: Addr, username: Text, rest: Text, now: int)
    ensures var text := KILL + rest;
            var r := HandleCommand(st, p, username, text, now);
            && r.Handled?
            && (r.o.Halted? <==> Strip(rest) == st.killPassword)
            && (r.o.Halted? ==> (r.o.notified == st.connections.Keys
                                 && r.o.notice.msg == SHUTTING_DOWN + username))
            && (r.o.Next? ==> r.o.st == st && |r.o.out| == 1 && r.o.out[0].Deliver? && r.o.out[0].to == p)
  {
    var text := KILL + rest;
    assert !StartsWith(text, DISCONNECT) by {
      assert text[1] != DISCONNECT[1];
    }
    assert StartsWith(text, KILL);
    assert text[6..] == rest;
  }

  // ---------------------------------------------------------------------
  // Data segments

  /** The ACK a duplicate data segment gets, as written: seq + 1, which
      acknowledges a single byte. */
  function DuplicateAckAsWritten(k: FlagBits, seg: Segment): (r: Result<Segment, SegmentError>)
    requires ValidBits(k)
    ensures r.Ok? <==> seg.seqNumber + 1 < 0x1_0000_0000
    ensures r.Ok? ==> r.value.flag == ACK && r.value.ackNumber == seg.seqNumber + 1
  {
    Ack(k, SERVER_NAME, 0, seg.seqNumber + 1)
  }

  /** The ACK a duplicate gets with the evident intent (re-acknowledging
      the segment): the same number as its first ACK, seq + len(payload),
      which fails to pack only when that end is past 32 bits. */
  function DuplicateAck(k: FlagBits, seg: Segment): (r: Result<Segment, SegmentError>)
    requires ValidBits(k)
    ensures r.Ok? <==> End(seg) < 0x1_0000_0000
    ensures r.Ok? ==> r.value.flag == ACK && r.value.ackNumber == End(seg) && r.value.data == []
  {
    Ack(k, SERVER_NAME, 0, End(seg))
  }

  /** A duplicate of a segment with two or more payload bytes arrives when
      the sender retransmits because the first ACK was lost. Its ACK as
      written falls short of the segment's end, so the sender's slide
      cannot pass it, and every further retransmission gets the same
      short ACK. */
  lemma DuplicateAckFallsShort(k: FlagBits, seg: Segment)
    requires ValidBits(k) && |seg.data| >= 2
    ensures DuplicateAckAsWritten(k, seg).Ok? ==> DuplicateAckAsWritten(k, seg).value.ackNumber < End(seg)
  {
  }

  /** The sender's side of the stall: the ACK as written for a duplicate
      of the segment at window_base, of two or more payload bytes, leaves
      the sender's window where it was. */
  lemma DuplicateAckStalls(k: FlagBits, segs: seq<Segment>, W: nat, w: Window.Window)
    requires ValidBits(k) && Increasing(segs) && Window.Inv(segs, W, w) && w.base < w.next
    requires |segs[w.base].data| >= 2 && segs[w.base].seqNumber + 1 < 0x1_0000_0000
    ensures DuplicateAckAsWritten(k, segs[w.base]).Ok?
    ensures Window.OnEvent(segs, w, Window.Got(DuplicateAckAsWritten(k, segs[w.base]).value)).base == w.base
  {
    var a := DuplicateAckAsWritten(k, segs[w.base]).value;
    Window.AckAdvances(segs, W, w.(acked := w.acked + {a.ackNumber}), a.ackNumber);
  }

  /** The corrected ACK for a duplicate of the segment at window_base,
      once the sender receives it, slides the sender's window past that
      segment, as the lost first ACK would have. */
  lemma DuplicateAckCovers(k: FlagBits, segs: seq<Segment>, W: nat, w: Window.Window)
    requires ValidBits(k) && Increasing(segs) && Window.Inv(segs, W, w) && w.base < w.next
    requires End(segs[w.base]) < 0x1_0000_0000
    ensures DuplicateAck(k, segs[w.base]).Ok?
    ensures Window.OnEvent(segs, w, Window.Got(DuplicateAck(k, segs[w.base]).value)).base > w.base
  {
    var a := DuplicateAck(k, segs[w.base]).value;
    Window.AckAdvances(segs, W, w.(acked := w.acked + {a.ackNumber}), a.ackNumber);
  }

  /** Prefixes an action to an outcome's output. */
  function Prepend(a: Action, o: Outcome): (r: Outcome)
    ensures r.Crash? <==> o.Crash?
    ensures r.Next? <==> o.Next?
    ensures r.Next? ==> r.st == o.st && r.out == [a] + o.out
  {
    match o
    case Next(st, out) => Next(st, [a] + out)
    case Halted(out, n, m) => Halted([a] + out, n, m)
    case Crash => Crash
  }

  /** _handle_data_segment. Data from an unconnected address is ignored.
      A segment whose sequence number is already buffered is a duplicate
      and is only re-acknowledged, with seq + 1 as written. Otherwise it is buffered and
      acknowledged with seq + len(payload); if it carries FIN, the
      buffered payloads are joined in sequence order, emoticons replaced
      (`emote`), and the text either run as a command (the buffer is then
      kept) or appended to the log (the buffer is then dropped). */
  function OnData(k: FlagBits, st: ServerState, p: Addr, seg: Segment, now: int, emote: Text -> Text): (r: Outcome)
    requires ValidBits(k)
    ensures p !in st.connections ==> r == Next(st, [])
    ensures r.Next? ==> st.messages <= r.st.messages && |r.st.messages| <= |st.messages| + 1
    ensures r.Next? && Inv(st) ==> Inv(r.st)
  {
    if p !in st.connections then Next(st, [])
    else
      var st1 := WithBuffer(st, p);
      if seg.seqNumber in st1.buffers[p] then
        match DuplicateAckAsWritten(k, seg)
        case Err(_) => Crash
        case Ok(a) => Next(st1, [SendSeg(p, a)])
      else
        Buffered(k, st1, p, seg, now, emote)
  }

  /** The client's buffer, created empty (with expected_seq 0) on first
      use. */
  function WithBuffer(st: ServerState, p: Addr): (r: ServerState)
    ensures p in r.buffers && (p in st.buffers ==> r == st)
    ensures p !in st.buffers ==> r == st.(buffers := st.buffers[p := map[]], expectedSeq := st.expectedSeq[p := 0])
  {
    if p in st.buffers then st else st.(buffers := st.buffers[p := map[]], expectedSeq := st.expectedSeq[p := 0])
  }

  /** A new segment: buffer it, acknowledge it, and complete the message
      when it carries FIN. */
  function Buffered(k: FlagBits, st: ServerState, p: Addr, seg: Segment, now: int, emote: Text -> Text): (r: Outcome)
    requires ValidBits(k) && p in st.buffers
    ensures r.Next? ==> st.messages <= r.st.messages && |r.st.messages| <= |st.messages| + 1
    ensures r.Next? && Inv(st) ==> Inv(r.st)
  {
    var buf' := st.buffers[p][seg.seqNumber := seg];
    var st2 := st.(buffers := st.buffers[p := buf']);
    match Ack(k, SERVER_NAME, 0, End(seg))
    case Err(_) => Crash
    case Ok(a) =>
      if !seg.flag.fin then Next(st2, [SendSeg(p, a)])
      else Prepend(SendSeg(p, a), Complete(st2, p, seg.username, emote(Reassemble(buf')), now))
  }

  /** The reassembled text of a finished message: a command, or a chat
      line logged under the sender's name, which also drops the buffer. */
  function Complete(st: ServerState, p: Addr, username: Text, text: Text, now: int): (r: Outcome)
    ensures r.Next? ==> st.messages <= r.st.messages && |r.st.messages| <= |st.messages| + 1
    ensures r.Next? && Inv(st) ==> Inv(r.st)
    ensures HandleCommand(st, p, username, text, now).NotCommand? ==>
              r == Next(st.(messages := st.messages + [MessageInfo(username, now, text)], buffers := st.buffers - {p}), [])
  {
    match HandleCommand(st, p, username, text, now)
    case Handled(o) => o
    case NotCommand => Next(st.(messages := st.messages + [MessageInfo(username, now, text)], buffers := st.buffers - {p}), [])
  }

  /** A new data segment from a connected client is answered first with
      an ACK covering it, seq + len(payload); a duplicate is answered
      with seq + 1 and changes nothing else, and only its ACK can fail to
      pack. */
  lemma DataAcknowledged(k: FlagBits, st: ServerState, p: Addr, seg: Segment, now: int, emote: Text -> Text)
    requires ValidBits(k) && p in st.connections && End(seg) < 0x1_0000_0000
    ensures var r := OnData(k, st, p, seg, now, emote);
            var dup := p in st.buffers && seg.seqNumber in st.buffers[p];
            && (r.Crash? <==> dup && seg.seqNumber + 1 >= 0x1_0000_0000)
            && (!dup && r.Next? ==> |r.out| >= 1 && r.out[0] == SendSeg(p, Ack(k, SERVER_NAME, 0, End(seg)).value))
            && (dup && !r.Crash? ==> r == Next(st, [SendSeg(p, DuplicateAckAsWritten(k, seg).value)]))
  {
    var st1 := WithBuffer(st, p);
    if seg.seqNumber !in st1.buffers[p] {
      assert OnData(k, st, p, seg, now, emote) == Buffered(k, st1, p, seg, now, emote);
      assert Ack(k, SERVER_NAME, 0, End(seg)).Ok?;
    }
  }

  /** A chat message completes: its final fragment arrives and the
      reassembled text is no command, so the text is logged under the
      sender's name and the client's buffer is dropped. */
  lemma DataCompletesMessage(k: FlagBits, st: ServerState, p: Addr, seg: Segment, now: int, emote: Text -> Text)
    requires ValidBits(k) && p in st.connections && End(seg) < 0x1_0000_0000
    requires seg.flag.fin && (p !in st.buffers || seg.seqNumber !in st.buffers[p])
    requires var buf := if p in st.buffers then st.buffers[p] else map[];
             var text := emote(Reassemble(buf[seg.seqNumber := seg]));
             HandleCommand(st, p, seg.username, text, now).NotCommand?
    ensures var buf := if p in st.buffers then st.buffers[p] else map[];
            var r := OnData(k, st, p, seg, now, emote);
            && r.Next? && p !in r.st.buffers
            && r.st.messages == st.messages + [MessageInfo(seg.username, now, emote(Reassemble(buf[seg.seqNumber := seg])))]
            && r.st.connections == st.connections
  {
    var st1 := if p in st.buffers then st else st.(buffers := st.buffers[p := map[]], expectedSeq := st.expectedSeq[p := 0]);
    var text := emote(Reassemble(st1.buffers[p][seg.seqNumber := seg]));
    var st2 := st1.(buffers := st1.buffers[p := st1.buffers[p][seg.seqNumber := seg]]);
    assert HandleCommand(st2, p, seg.username, text, now).NotCommand?;
  }

  /** After a command the sender's buffer survives, so the first fragment
      of its next message, which starts from the same connection numbers,
      is taken for a duplicate: it is re-acknowledged and never logged. */
  lemma CommandKeepsBuffer(k: FlagBits, st: ServerState, p: Addr, seg: Segment, now: int, emote: Text -> Text,
                           next: Segment)
    requires ValidBits(k) && p in st.connections && End(seg) < 0x1_0000_0000
    requires seg.flag.fin && (p !in st.buffers || seg.seqNumber !in st.buffers[p])
    requires var buf := if p in st.buffers then st.buffers[p] else map[];
             var text := emote(Reassemble(buf[seg.seqNumber := seg]));
             StartsWith(text, CHANGE)
    requires next.seqNumber == seg.seqNumber && next.seqNumber + 1 < 0x1_0000_0000
    ensures var r := OnData(k, st, p, seg, now, emote);
            && r.Next? && p in r.st.buffers && seg.seqNumber in r.st.buffers[p]
            && OnData(k, r.st, p, next, now, emote) == Next(r.st, [SendSeg(p, DuplicateAckAsWritten(k, next).value)])
  {
    var st1 := WithBuffer(st, p);
    var buf' := st1.buffers[p][seg.seqNumber := seg];
    var st2 := st1.(buffers := st1.buffers[p := buf']);
    var text := emote(Reassemble(buf'));
    assert !StartsWith(text, DISCONNECT) by {
      assert text[1] == CHANGE[1];
    }
    assert !StartsWith(text, KILL) by {
      assert text[1] == CHANGE[1];
    }
    var c := HandleCommand(st2, p, seg.username, text, now);
    assert c.Handled? && c.o.Next?;
    var a := Ack(k, SERVER_NAME, 0, End(seg)).value;
    assert OnData(k, st, p, seg, now, emote) == Prepend(SendSeg(p, a), c.o);
    var r := c.o.st;
    assert WithBuffer(r, p) == r;
  }

  /** Data segments from one client handled one after another; the run
      stops at the first outcome that is not a next state. */
  function DataRun(k: FlagBits, st: ServerState, p: Addr, segs: seq<Segment>, now: int, emote: Text -> Text)
    : (r: Outcome)
    requires ValidBits(k)
    decreases |segs|
  {
    if segs == [] then Next(st, [])
    else
      var o := OnData(k, st, p, segs[0], now, emote);
      if !o.Next? then o
      else
        var rest := DataRun(k, o.st, p, segs[1..], now, emote);
        if rest.Next? then Next(rest.st, o.out + rest.out) else rest
  }

  /** Fragments without FIN, above everything buffered and in ascending
      order, are each buffered and nothing else changes. */
  lemma {:induction false} DataRunBuffers(k: FlagBits, st: ServerState, p: Addr, segs: seq<Segment>, now: int,
                                          emote: Text -> Text)
    requires ValidBits(k) && p in st.connections && p in st.buffers && Increasing(segs)
    requires forall x, i | x in st.buffers[p] && 0 <= i < |segs| :: x < segs[i].seqNumber
    requires forall i | 0 <= i < |segs| :: !segs[i].flag.fin && End(segs[i]) < 0x1_0000_0000
    ensures DataRun(k, st, p, segs, now, emote).Next?
    ensures DataRun(k, st, p, segs, now, emote).st == st.(buffers := st.buffers[p := Arrive(st.buffers[p], segs)])
    decreases |segs|
  {
    if segs != [] {
      var s0 := segs[0];
      var st2 := st.(buffers := st.buffers[p := st.buffers[p][s0.seqNumber := s0]]);
      assert s0.seqNumber !in st.buffers[p];
      assert OnData(k, st, p, s0, now, emote).st == st2;
      IncreasingTail(segs);
      forall x, i | x in st2.buffers[p] && 0 <= i < |segs[1..]|
        ensures x < segs[1..][i].seqNumber
      {
        assert segs[1..][i] == segs[i + 1];
      }
      DataRunBuffers(k, st2, p, segs[1..], now, emote);
    }
  }

  /** Handling the first segment on its own changes nothing: OnData
      creates a missing buffer itself. */
  lemma OnDataWithBuffer(k: FlagBits, st: ServerState, p: Addr, seg: Segment, now: int, emote: Text -> Text)
    requires ValidBits(k) && p in st.connections
    ensures OnData(k, WithBuffer(st, p), p, seg, now, emote) == OnData(k, st, p, seg, now, emote)
  {
  }

  /** A run that ends with one more segment is the run followed by that
      segment's step. */
  lemma {:induction false} DataRunSnoc(k: FlagBits, st: ServerState, p: Addr, segs: seq<Segment>, s: Segment,
                                       now: int, emote: Text -> Text)
    requires ValidBits(k) && DataRun(k, st, p, segs, now, emote).Next?
    ensures var r := DataRun(k, st, p, segs, now, emote);
            var o := OnData(k, r.st, p, s, now, emote);
            DataRun(k, st, p, segs + [s], now, emote).Next? <==> o.Next?
    ensures var r := DataRun(k, st, p, segs, now, emote);
            var o := OnData(k, r.st, p, s, now, emote);
            o.Next? ==> DataRun(k, st, p, segs + [s], now, emote).st == o.st
    decreases |segs|
  {
    if segs == [] {
      assert segs + [s] == [s];
    } else {
      var o0 := OnData(k, st, p, segs[0], now, emote);
      assert (segs + [s])[1..] == segs[1..] + [s];
      DataRunSnoc(k, o0.st, p, segs[1..], s, now, emote);
    }
  }

  /** Text that handle_command does not take for a command. */
  predicate IsChat(text: Text) {
    !StartsWith(text, DISCONNECT) && !StartsWith(text, KILL) && !StartsWith(text, CHANGE)
  }

  /** A connected client with no partial message sends a chat message,
      split into fragments as the sender does, and they arrive in order:
      unless the text (after emoticon replacement) is a command, the
      server logs it whole under the sender's name and drops the buffer. */
  lemma ServerLogsMessage(k: FlagBits, st: ServerState, p: Addr, u: Text, m: Text, seqNum: int, ackNum: int,
                          P: nat, now: int, emote: Text -> Text)
    requires ValidBits(k) && P >= 1 && m != []
    requires Split(k, u, m, seqNum, ackNum, P).Ok? && seqNum + |m| < 0x1_0000_0000
    requires p in st.connections && (p !in st.buffers || st.buffers[p] == map[]) && IsChat(emote(m))
    ensures var r := DataRun(k, st, p, Split(k, u, m, seqNum, ackNum, P).value, now, emote);
            && r.Next?
            && r.st.messages == st.messages + [MessageInfo(u, now, emote(m))]
            && p !in r.st.buffers && r.st.connections == st.connections
  {
    var frags := Split(k, u, m, seqNum, ackNum, P).value;
    FragmentsForReceiver(k, u, m, seqNum, ackNum, P);
    ReceiveFragments(k, st, p, frags, now, emote);
  }

  /** What the receiver needs of a split: at least one fragment, in
      ascending order, each acknowledgeable; FIN on the last only, which
      carries the sender's name; and together they reassemble to the
      message. */
  lemma FragmentsForReceiver(k: FlagBits, u: Text, m: Text, seqNum: int, ackNum: int, P: nat)
    requires ValidBits(k) && P >= 1 && m != []
    requires Split(k, u, m, seqNum, ackNum, P).Ok? && seqNum + |m| < 0x1_0000_0000
    ensures var frags := Split(k, u, m, seqNum, ackNum, P).value;
            && |frags| >= 1 && Increasing(frags)
            && (forall i | 0 <= i < |frags| :: End(frags[i]) < 0x1_0000_0000)
            && (forall i | 0 <= i < |frags| :: frags[i].flag.fin <==> i == |frags| - 1)
            && frags[|frags| - 1].username == u
            && Reassemble(Arrive(map[], frags)) == m
  {
    SplitEnds(k, u, m, seqNum, ackNum, P);
    SplitIncreasing(k, u, m, seqNum, ackNum, P);
    SplitReassemble(k, u, m, seqNum, ackNum, P);
    FragmentFlags(k, u, m, seqNum, ackNum, P);
  }

  lemma FragmentFlags(k: FlagBits, u: Text, m: Text, seqNum: int, ackNum: int, P: nat)
    requires ValidBits(k) && P >= 1 && m != []
    requires Split(k, u, m, seqNum, ackNum, P).Ok?
    ensures var frags := Split(k, u, m, seqNum, ackNum, P).value;
            && |frags| >= 1
            && (forall i | 0 <= i < |frags| :: frags[i].flag.fin <==> i == |frags| - 1)
            && frags[|frags| - 1].username == u
  {
    SplitShape(k, u, m, seqNum, ackNum, P);
    FactoryFlags();
    DivStep(|m| - 1, P);
  }

  /** Fragments arriving in ascending order with FIN on the last only, at
      a connected client with no partial message: the server logs their
      reassembly under the last fragment's name, unless it is a command. */
  lemma ReceiveFragments(k: FlagBits, st: ServerState, p: Addr, frags: seq<Segment>, now: int, emote: Text -> Text)
    requires ValidBits(k) && p in st.connections && (p !in st.buffers || st.buffers[p] == map[])
    requires |frags| >= 1 && Increasing(frags)
    requires forall i | 0 <= i < |frags| :: End(frags[i]) < 0x1_0000_0000
    requires forall i | 0 <= i < |frags| :: frags[i].flag.fin <==> i == |frags| - 1
    requires IsChat(emote(Reassemble(Arrive(map[], frags))))
    ensures var r := DataRun(k, st, p, frags, now, emote);
            && r.Next?
            && r.st.messages == st.messages + [MessageInfo(frags[|frags| - 1].username, now, emote(Reassemble(Arrive(map[], frags))))]
            && p !in r.st.buffers && r.st.connections == st.connections
  {
    var n := |frags| - 1;
    var init := frags[..n];
    var last := frags[n];
    InitAndLast(frags);
    var st0 := WithBuffer(st, p);
    DataRunBuffers(k, st0, p, init, now, emote);
    var mid := DataRun(k, st0, p, init, now, emote).st;
    OnDataWithBuffer(k, st, p, frags[0], now, emote);
    assert DataRun(k, st0, p, frags, now, emote) == DataRun(k, st, p, frags, now, emote);
    DataRunSnoc(k, st0, p, init, last, now, emote);
    DataCompletesMessage(k, mid, p, last, now, emote);
  }

  // ---------------------------------------------------------------------
  // The dispatcher

  /** receive: the action for one admitted segment from address `p`.
      `serverSeq` is the random initial number drawn for a SYN, `emote`
      the emoticon replacement. Whatever the branch, the log only grows,
      keeping every entry in place and adding at most one, and the cursor
      invariant is kept. */
  function Receive(k: FlagBits, st: ServerState, p: Addr, seg: Segment, now: int, serverSeq: int,
                   emote: Text -> Text): (r: Outcome)
    requires ValidBits(k) && 1000 <= serverSeq <= 50000
    ensures r.Next? ==> st.messages <= r.st.messages && |r.st.messages| <= |st.messages| + 1
    ensures r.Next? && Inv(st) ==> Inv(r.st)
    ensures Classify(seg) == Heartbeat ==> r == OnHeartbeat(st, p, now)
    ensures Classify(seg) == FinRequest ==>
              r == Next(RemoveClient(st, p, now), [SendSeg(p, FinAck(k).value)]) && p !in r.st.connections
    ensures Classify(seg) == FinAckReply ==> r == Next(RemoveClient(st, p, now), []) && p !in r.st.connections
    ensures Classify(seg) == SynRequest ==> r == OnSyn(k, st, p, seg, serverSeq)
    ensures Classify(seg) == HandshakeAck ==> r == OnHandshakeAck(st, p, seg, now)
    ensures Classify(seg) == Data ==> r == OnData(k, st, p, seg, now, emote)
    ensures Classify(seg) == Empty ==> r == Next(st, [])
  {
    match Classify(seg)
    case Heartbeat =>
      if p in st.connections && Inv(st) then HeartbeatDelivers(st, p, now); OnHeartbeat(st, p, now)
      else OnHeartbeat(st, p, now)
    case FinRequest => RemoveClientSpec(st, p, now); OnFin(k, st, p, now)
    case FinAckReply => RemoveClientSpec(st, p, now); Next(RemoveClient(st, p, now), [])
    case SynRequest => OnSyn(k, st, p, seg, serverSeq)
    case HandshakeAck => OnHandshakeAck(st, p, seg, now)
    case Data => OnData(k, st, p, seg, now, emote)
    case Empty => Next(st, [])
  }

  /** listen: a datagram too short for a header raises in the decoder, one
      failing the checksum test is dropped, and any other is dispatched. */
  function Listen(k: FlagBits, st: ServerState, p: Addr, datagram: seq<byte>, now: int, serverSeq: int,
                  emote: Text -> Text): (r: Outcome)
    requires ValidBits(k) && 1000 <= serverSeq <= 50000
    ensures |datagram| < HEADER_LEN ==> r.Crash?
    ensures Admit(k, datagram) == Ok(None) ==> r == Next(st, [])
    ensures Admit(k, datagram).Ok? && Admit(k, datagram).value.Some? ==>
              r == Receive(k, st, p, Admit(k, datagram).value.value, now, serverSeq, emote)
  {
    match Admit(k, datagram)
    case Err(_) => Crash
    case Ok(None) => Next(st, [])
    case Ok(Some(seg)) => Receive(k, st, p, seg, now, serverSeq, emote)
  }


  /** A client's ACK for a chat fragment it received is dispatched to the
      handshake branch: the server logs "<name> joined!" again and
      re-records the name. */
  lemma StrayAckAnnouncesJoin(k: FlagBits, st: ServerState, p: Addr, u: Text, ackNum: u32, now: int, serverSeq: int,
                              emote: Text -> Text)
    requires ValidBits(k) && 1000 <= serverSeq <= 50000 && p in st.connections
    ensures var r := Receive(k, st, p, Ack(k, u, 0, ackNum).value, now, serverSeq, emote);
            && r.Next?
            && r.st.messages == st.messages + [MessageInfo(SERVER_NAME, now, u + JOINED)]
            && r.st.connections == st.connections
  {
    ClassifyProtocol(k, u, 0, ackNum, Ack(k, u, 0, ackNum).value);
  }

  // ---------------------------------------------------------------------
  // Heartbeat monitor

  /** One pass of monitor_heartbeats: drop every connection whose last
      heartbeat is more than HEARTBEAT_TIMEOUT old. Only the connection
      table is touched: no departure is logged and the client's buffer and
      name stay. */
  function Monitor(st: ServerState, now: int): (r: ServerState)
    ensures r == st.(connections := r.connections)
    ensures forall p | p in r.connections :: p in st.connections && r.connections[p] == st.connections[p]
  {
    st.(connections := map p | p in st.connections && now - st.connections[p].lastHeartbeat <= HEARTBEAT_TIMEOUT
                             :: st.connections[p])
  }

  /** A connection survives a monitor pass exactly when its last
      heartbeat is at most HEARTBEAT_TIMEOUT old. */
  lemma MonitorRemovesStale(st: ServerState, now: int, p: Addr)
    ensures p in Monitor(st, now).connections <==>
              p in st.connections && now - st.connections[p].lastHeartbeat <= HEARTBEAT_TIMEOUT
    ensures Inv(st) ==> Inv(Monitor(st, now))
  {
  }

  /** A client the monitor dropped that heartbeats again while the log is
      non-empty makes the server raise KeyError. */
  lemma HeartbeatAfterTimeoutCrashes(k: FlagBits, st: ServerState, p: Addr, now: int, later: int, seg: Segment,
                                     serverSeq: int, emote: Text -> Text)
    requires ValidBits(k) && 1000 <= serverSeq <= 50000
    requires p in st.connections && now - st.connections[p].lastHeartbeat > HEARTBEAT_TIMEOUT
    requires |st.messages| > 0 && Classify(seg) == Heartbeat
    ensures Receive(k, Monitor(st, now), p, seg, later, serverSeq, emote).Crash?
  {
    MonitorRemovesStale(st, now, p);
  }
}

=== FILE: window.dfy ===
/** The sliding-window sender of _send_message: a state machine over
    (window_base, next_seq_num, window_buffer, send_times, ack_received).
    Each turn of its loop sends a burst, waits once for an ACK, and sweeps
    for timed-out segments. Clock readings are parameters, in
    microseconds; WINDOW_SIZE comes from a constants file that is not part
    of this model and is the parameter `W`, at least 1. */
module Window {
  import opened Bytes
  import opened Results
  import opened Codec
  import opened Fragments
  import opened Connections
  import opened Messages

  /** The fixed retransmission threshold, 2.5 s. */
  const RETRANSMIT_AFTER: int := 2_500_000

  datatype Window = Window(
    base: nat,                  // window_base: index of the oldest unacknowledged segment
    next: nat,                  // next_seq_num: index of the next segment to send
    buffer: map<int, Segment>,  // window_buffer: sequence number -> segment
    sendTimes: map<int, int>,   // send_times: sequence number -> last send time
    acked: set<int>)            // ack_received: acknowledgement numbers seen

  /** The state before the loop. */
  const Start: Window := Window(0, 0, map[], map[], {})

  /** What one wait for an ACK yields. */
  datatype AckEvent =
    | Timeout           // socket timeout
    | Undecodable       // a datagram the decoder rejects; the exception is swallowed
    | Got(seg: Segment) // a decoded segment, whatever its checksum flag and sender

  /** `x` is the sequence number of a segment in positions [lo, hi). */
  predicate InRange(segs: seq<Segment>, lo: nat, hi: nat, x: int) {
    exists i | lo <= i < hi && i < |segs| :: segs[i].seqNumber == x
  }

  /** The window invariant: base <= next <= |segs|, at most W segments in
      flight, and the buffer (and the timer table) holds exactly the
      segments in [base, next), under their sequence numbers. */
  predicate Inv(segs: seq<Segment>, W: nat, w: Window) {
    && w.base <= w.next <= |segs|
    && w.next - w.base <= W
    && (forall i | w.base <= i < w.next :: segs[i].seqNumber in w.buffer && w.buffer[segs[i].seqNumber] == segs[i])
    && (forall x | x in w.buffer :: InRange(segs, w.base, w.next, x))
    && w.sendTimes.Keys == w.buffer.Keys
  }

  lemma StartInv(segs: seq<Segment>, W: nat)
    ensures Inv(segs, W, Start)
  {
  }

  // ---------------------------------------------------------------------
  // Sending a burst

  /** The inner while loop: send segments from next_seq_num while it is
      inside the window and the message, buffering each and stamping its
      timer. Returns the new state and the segments sent, in order. */
  function Burst(segs: seq<Segment>, W: nat, w: Window, now: int): (r: (Window, seq<Segment>))
    requires w.next <= |segs|
    ensures r.0.base == w.base && r.0.acked == w.acked
    ensures w.next <= r.0.next <= |segs|
    ensures r.0.next == if w.next < w.base + W && w.next < |segs|
                        then (if w.base + W < |segs| then w.base + W else |segs|) else w.next
    ensures r.1 == segs[w.next..r.0.next]
    ensures w.sendTimes.Keys <= r.0.sendTimes.Keys
    ensures forall q | q in r.0.sendTimes :: r.0.sendTimes[q] == now || (q in w.sendTimes && r.0.sendTimes[q] == w.sendTimes[q])
    ensures forall i | w.next <= i < r.0.next :: segs[i].seqNumber in r.0.sendTimes && r.0.sendTimes[segs[i].seqNumber] == now
    decreases |segs| - w.next
  {
    if w.next < w.base + W && w.next < |segs| then
      var s := segs[w.next];
      var w' := w.(buffer := w.buffer[s.seqNumber := s], sendTimes := w.sendTimes[s.seqNumber := now],
                   next := w.next + 1);
      var rest := Burst(segs, W, w', now);
      assert segs[w.next..rest.0.next] == [s] + segs[w.next + 1..rest.0.next];
      (rest.0, [s] + rest.1)
    else
      (w, [])
  }

  /** A burst keeps the window invariant, given distinct sequence numbers. */
  lemma {:induction false} BurstInv(segs: seq<Segment>, W: nat, w: Window, now: int)
    requires Increasing(segs) && Inv(segs, W, w)
    ensures Inv(segs, W, Burst(segs, W, w, now).0)
    decreases |segs| - w.next
  {
    if w.next < w.base + W && w.next < |segs| {
      var s := segs[w.next];
      var w' := w.(buffer := w.buffer[s.seqNumber := s], sendTimes := w.sendTimes[s.seqNumber := now],
                   next := w.next + 1);
      PushBack(segs, W, w, now);
      BurstInv(segs, W, w', now);
      assert Burst(segs, W, w, now).0 == Burst(segs, W, w', now).0;
    }
  }

  /** Buffering and stamping the segment at next_seq_num, inside the
      window, and advancing keeps the invariant. */
  lemma PushBack(segs: seq<Segment>, W: nat, w: Window, now: int)
    requires Increasing(segs) && Inv(segs, W, w) && w.next < w.base + W && w.next < |segs|
    ensures var s := segs[w.next];
            Inv(segs, W, w.(buffer := w.buffer[s.seqNumber := s], sendTimes := w.sendTimes[s.seqNumber := now],
                            next := w.next + 1))
  {
    var s := segs[w.next];
    var w' := w.(buffer := w.buffer[s.seqNumber := s], sendTimes := w.sendTimes[s.seqNumber := now],
                 next := w.next + 1);
    forall i | w'.base <= i < w'.next
      ensures segs[i].seqNumber in w'.buffer && w'.buffer[segs[i].seqNumber] == segs[i]
    {
      if i < w.next {
        assert segs[i].seqNumber < s.seqNumber;
      }
    }
    forall x | x in w'.buffer
      ensures InRange(segs, w'.base, w'.next, x)
    {
      if x != s.seqNumber {
        var i :| w.base <= i < w.next && i < |segs| && segs[i].seqNumber == x;
      }
    }
  }

  // ---------------------------------------------------------------------
  // Receiving an ACK

  /** The slide loop: while the segment at window_base ends at or before
      the ACK number, delete it from the buffer and the timer table and
      advance. A missing key makes `del` raise KeyError, which the
      surrounding `except Exception` swallows, ending the slide where it
      stands (after the first deletion, when only the second fails). */
  function Slide(segs: seq<Segment>, w: Window, n: int): (r: Window)
    ensures r.next == w.next && r.acked == w.acked && w.base <= r.base
    ensures forall q | q in r.sendTimes :: q in w.sendTimes && r.sendTimes[q] == w.sendTimes[q]
    decreases |segs| - w.base
  {
    if w.base < |segs| && End(segs[w.base]) <= n then
      var q := segs[w.base].seqNumber;
      if q !in w.buffer then w
      else if q !in w.sendTimes then w.(buffer := w.buffer - {q})
      else Slide(segs, w.(base := w.base + 1, buffer := w.buffer - {q}, sendTimes := w.sendTimes - {q}), n)
    else
      w
  }

  /** Under the invariant the slide advances over exactly the longest run
      of segments from window_base that end at or before the ACK number,
      stopping early only at next_seq_num (the KeyError on an unsent
      segment), and keeps the invariant. */
  lemma {:induction false} SlideSpec(segs: seq<Segment>, W: nat, w: Window, n: int)
    requires Increasing(segs) && Inv(segs, W, w)
    ensures var r := Slide(segs, w, n);
            && Inv(segs, W, r)
            && r.base <= w.next
            && (forall i | w.base <= i < r.base :: End(segs[i]) <= n)
            && (r.base == w.next || End(segs[r.base]) > n)
    decreases |segs| - w.base
  {
    if w.base < |segs| && End(segs[w.base]) <= n {
      if w.base < w.next {
        DropFront(segs, W, w);
        var q := segs[w.base].seqNumber;
        var w' := w.(base := w.base + 1, buffer := w.buffer - {q}, sendTimes := w.sendTimes - {q});
        assert q in w.buffer && q in w.sendTimes;
        assert Slide(segs, w, n) == Slide(segs, w', n);
        SlideSpec(segs, W, w', n);
      } else {
        assert !InRange(segs, w.base, w.next, segs[w.base].seqNumber);
      }
    }
  }

  /** Deleting the segment at window_base and advancing keeps the
      invariant. */
  lemma DropFront(segs: seq<Segment>, W: nat, w: Window)
    requires Increasing(segs) && Inv(segs, W, w) && w.base < w.next
    ensures var q := segs[w.base].seqNumber;
            Inv(segs, W, w.(base := w.base + 1, buffer := w.buffer - {q}, sendTimes := w.sendTimes - {q}))
  {
    var q := segs[w.base].seqNumber;
    var w' := w.(base := w.base + 1, buffer := w.buffer - {q}, sendTimes := w.sendTimes - {q});
    forall i | w'.base <= i < w'.next
      ensures segs[i].seqNumber in w'.buffer && w'.buffer[segs[i].seqNumber] == segs[i]
    {
      assert q < segs[i].seqNumber;
    }
    forall x | x in w'.buffer
      ensures InRange(segs, w'.base, w'.next, x)
    {
      var i :| w.base <= i < w.next && i < |segs| && segs[i].seqNumber == x;
      assert i != w.base;
    }
  }

  /** An ACK number slides the window past the segment at window_base
      exactly when it reaches that segment's end. */
  lemma AckAdvances(segs: seq<Segment>, W: nat, w: Window, n: int)
    requires Increasing(segs) && Inv(segs, W, w) && w.base < w.next
    ensures Slide(segs, w, n).base > w.base <==> End(segs[w.base]) <= n
  {
    SlideSpec(segs, W, w, n);
  }

  /** What one ACK wait does to the window: a segment with the ACK flag
      records its number and slides the window; anything else, or
      nothing, leaves it as it was. The checksum flag and the sender are
      not looked at. */
  function OnEvent(segs: seq<Segment>, w: Window, ev: AckEvent): (r: Window)
    ensures r.next == w.next && w.base <= r.base && w.acked <= r.acked
    ensures ev.Got? && ev.seg.flag.ack ==> ev.seg.ackNumber in r.acked
    ensures !(ev.Got? && ev.seg.flag.ack) ==> r == w
  {
    if ev.Got? && ev.seg.flag.ack then
      Slide(segs, w.(acked := w.acked + {ev.seg.ackNumber}), ev.seg.ackNumber)
    else
      w
  }

  // ---------------------------------------------------------------------
  // Retransmission

  /** A segment's timer has expired. */
  predicate Expired(w: Window, q: int, now: int) {
    q in w.sendTimes && now - w.sendTimes[q] > RETRANSMIT_AFTER
  }

  /** The sweep as written: a buffered segment is resent when its
      sequence number is not among the ACK numbers received and its timer
      has expired. */
  predicate DueAsWritten(w: Window, q: int, now: int) {
    q in w.buffer && q !in w.acked && Expired(w, q, now)
  }

  /** The sweep as intended: every buffered segment is unacknowledged (the
      slide removes acknowledged ones), so each whose timer has expired is
      resent. */
  predicate Due(w: Window, q: int, now: int) {
    q in w.buffer && Expired(w, q, now)
  }

  /** The sweep's test for one sequence number, as written or as
      intended. */
  predicate DueBy(w: Window, q: int, now: int, asWritten: bool) {
    if asWritten then DueAsWritten(w, q, now) else Due(w, q, now)
  }

  /** The window positions [i, next) whose segments are due, in order:
      window_buffer iterates in insertion order, which is window order.
      Every segment resent is a due one from that range. */
  function Resends(segs: seq<Segment>, w: Window, now: int, i: nat, asWritten: bool): (r: seq<Segment>)
    requires w.next <= |segs|
    ensures forall x | x in r :: exists p | i <= p < w.next :: segs[p] == x && DueBy(w, segs[p].seqNumber, now, asWritten)
    decreases w.next - i
  {
    if i >= w.next then []
    else
      var q := segs[i].seqNumber;
      (if DueBy(w, q, now, asWritten) then [segs[i]] else []) + Resends(segs, w, now, i + 1, asWritten)
  }

  /** The timer table after a sweep: every due segment is restamped with
      the sweep's time, every other timer is kept. */
  function Restamp(w: Window, now: int, asWritten: bool): (t: map<int, int>)
    ensures t.Keys == w.sendTimes.Keys
    ensures forall q | q in t :: t[q] == (if DueBy(w, q, now, asWritten) then now else w.sendTimes[q])
  {
    map q | q in w.sendTimes :: if DueBy(w, q, now, asWritten) then now else w.sendTimes[q]
  }

  /** The retransmission sweep of lines 141-147, as written: only the
      timer table changes, due segments are restamped, and only due
      segments of the window are resent. */
  function RetransmitAsWritten(segs: seq<Segment>, w: Window, now: int): (r: (Window, seq<Segment>))
    requires w.next <= |segs|
    ensures r.0 == w.(sendTimes := r.0.sendTimes)
    ensures r.0.sendTimes.Keys == w.sendTimes.Keys
    ensures forall q | q in w.sendTimes :: r.0.sendTimes[q] == (if DueAsWritten(w, q, now) then now else w.sendTimes[q])
    ensures forall x | x in r.1 :: exists p | w.base <= p < w.next :: segs[p] == x && DueAsWritten(w, segs[p].seqNumber, now)
  {
    (w.(sendTimes := Restamp(w, now, true)), Resends(segs, w, now, w.base, true))
  }

  /** The retransmission sweep with the acknowledgement-number test
      removed. */
  function Retransmit(segs: seq<Segment>, w: Window, now: int): (r: (Window, seq<Segment>))
    requires w.next <= |segs|
    ensures r.0 == w.(sendTimes := r.0.sendTimes)
    ensures r.0.sendTimes.Keys == w.sendTimes.Keys
    ensures forall q | q in w.sendTimes :: r.0.sendTimes[q] == (if Due(w, q, now) then now else w.sendTimes[q])
    ensures forall x | x in r.1 :: exists p | w.base <= p < w.next :: segs[p] == x && Due(w, segs[p].seqNumber, now)
  {
    (w.(sendTimes := Restamp(w, now, false)), Resends(segs, w, now, w.base, false))
  }

  /** The sweep of either kind, as a round runs it. */
  function Sweep(segs: seq<Segment>, w: Window, now: int, asWritten: bool): (r: (Window, seq<Segment>))
    requires w.next <= |segs|
    ensures r.0 == w.(sendTimes := r.0.sendTimes) && r.0.sendTimes.Keys == w.sendTimes.Keys
    ensures forall x | x in r.1 :: exists p | w.base <= p < w.next :: segs[p] == x && DueBy(w, segs[p].seqNumber, now, asWritten)
  {
    if asWritten then RetransmitAsWritten(segs, w, now) else Retransmit(segs, w, now)
  }

  lemma {:induction false} ResendsExactly(segs: seq<Segment>, w: Window, now: int, i: nat, asWritten: bool, j: nat)
    requires w.next <= |segs| && i <= j < w.next
    requires DueBy(w, segs[j].seqNumber, now, asWritten)
    ensures segs[j] in Resends(segs, w, now, i, asWritten)
    decreases w.next - i
  {
    if i < j {
      ResendsExactly(segs, w, now, i + 1, asWritten, j);
    }
  }

  /** The corrected sweep resends exactly the window's segments whose
      timers have expired, and afterwards no buffered segment has an
      expired timer. */
  lemma RetransmitComplete(segs: seq<Segment>, W: nat, w: Window, now: int)
    requires Inv(segs, W, w)
    ensures var r := Retransmit(segs, w, now);
            && Inv(segs, W, r.0)
            && (forall i | w.base <= i < w.next :: segs[i] in r.1 <==> Expired(w, segs[i].seqNumber, now))
            && (forall q | q in r.0.buffer :: !Expired(r.0, q, now))
  {
    forall i | w.base <= i < w.next && Expired(w, segs[i].seqNumber, now)
      ensures segs[i] in Retransmit(segs, w, now).1
    {
      ResendsExactly(segs, w, now, w.base, false, i);
    }
  }

  /** The sweep as written resends exactly the window's segments whose
      timers have expired and whose sequence numbers are not among the
      ACK numbers received; afterwards the only buffered segments with
      expired timers are those skipped for that reason. */
  lemma RetransmitAsWrittenSpec(segs: seq<Segment>, W: nat, w: Window, now: int)
    requires Inv(segs, W, w)
    ensures var r := RetransmitAsWritten(segs, w, now);
            && Inv(segs, W, r.0)
            && (forall i | w.base <= i < w.next ::
                  segs[i] in r.1 <==> Expired(w, segs[i].seqNumber, now) && segs[i].seqNumber !in w.acked)
            && (forall q | q in r.0.buffer && Expired(r.0, q, now) :: q in w.acked)
  {
    forall i | w.base <= i < w.next && Expired(w, segs[i].seqNumber, now) && segs[i].seqNumber !in w.acked
      ensures segs[i] in RetransmitAsWritten(segs, w, now).1
    {
      ResendsExactly(segs, w, now, w.base, true, i);
    }
  }

  /** The sweep as written can leave a timed-out segment unsent forever:
      the receiver acknowledges the segment at window_base with its end,
      which is the next segment's sequence number. Once that ACK is in
      ack_received and the next segment is lost, no sweep at any time
      resends it, though its timer has long expired, while the corrected
      sweep does. The message here has two fragments. */
  lemma StaleAckSuppressesResend(segs: seq<Segment>, W: nat, t0: int, ack: Segment, now: int)
    requires Increasing(segs) && |segs| == 2 && W >= 2
    requires End(segs[0]) == segs[1].seqNumber && |segs[1].data| > 0
    requires ack.flag.ack && ack.ackNumber == End(segs[0])
    requires now - t0 > RETRANSMIT_AFTER
    ensures var w := OnEvent(segs, Burst(segs, W, Start, t0).0, Got(ack));
            && w.base == 1 && w.next == 2
            && segs[1].seqNumber in w.buffer && Expired(w, segs[1].seqNumber, now)
            && RetransmitAsWritten(segs, w, now).1 == []
            && RetransmitAsWritten(segs, w, now).0 == w
            && Retransmit(segs, w, now).1 == [segs[1]]
  {
    var w := AckFirstOfTwo(segs, W, t0, ack);
    assert w.buffer.Keys == {segs[1].seqNumber} by {
      forall x | x in w.buffer ensures x == segs[1].seqNumber {
        var i :| 1 <= i < 2 && i < |segs| && segs[i].seqNumber == x;
      }
    }
    assert Resends(segs, w, now, 2, true) == [];
    assert Resends(segs, w, now, 2, false) == [];
    assert Restamp(w, now, true) == w.sendTimes;
  }

  /** The stall arises for every message of two fragments: the ACK the
      receiver returns for the first fragment, seq + P, is the second
      fragment's sequence number. */
  lemma SplitStalls(k: Flags.FlagBits, u: Text, m: Text, seqNum: int, ackNum: int, P: nat,
                    W: nat, t0: int, ack: Segment, now: int)
    requires Flags.ValidBits(k) && P >= 1 && P < |m| <= 2 * P && W >= 2
    requires Split(k, u, m, seqNum, ackNum, P).Ok?
    requires ack.flag.ack && ack.ackNumber == seqNum + P
    requires now - t0 > RETRANSMIT_AFTER
    ensures var segs := Split(k, u, m, seqNum, ackNum, P).value;
            var w := OnEvent(segs, Burst(segs, W, Start, t0).0, Got(ack));
            && |segs| == 2 && Expired(w, segs[1].seqNumber, now)
            && RetransmitAsWritten(segs, w, now).1 == []
            && Retransmit(segs, w, now).1 == [segs[1]]
  {
    var segs := Split(k, u, m, seqNum, ackNum, P).value;
    SplitShape(k, u, m, seqNum, ackNum, P);
    SplitIncreasing(k, u, m, seqNum, ackNum, P);
    DivUnique(|m| + P - 1, P, 2, |m| - P - 1);
    assert segs[1].seqNumber == seqNum + 1 * P;
    StaleAckSuppressesResend(segs, W, t0, ack, now);
  }

  /** The state the counterexample reaches: both fragments sent at t0,
      then the ACK for the first one received. */
  lemma AckFirstOfTwo(segs: seq<Segment>, W: nat, t0: int, ack: Segment) returns (w: Window)
    requires Increasing(segs) && |segs| == 2 && W >= 2
    requires End(segs[0]) == segs[1].seqNumber && |segs[1].data| > 0
    requires ack.flag.ack && ack.ackNumber == End(segs[0])
    ensures w == OnEvent(segs, Burst(segs, W, Start, t0).0, Got(ack))
    ensures Inv(segs, W, w) && w.base == 1 && w.next == 2
    ensures segs[1].seqNumber in w.acked
    ensures segs[1].seqNumber in w.sendTimes && w.sendTimes[segs[1].seqNumber] == t0
  {
    var b := Burst(segs, W, Start, t0).0;
    StartInv(segs, W);
    BurstInv(segs, W, Start, t0);
    var n := ack.ackNumber;
    var b1 := b.(acked := b.acked + {n});
    assert Inv(segs, W, b1);
    SlideSpec(segs, W, b1, n);
    w := Slide(segs, b1, n);
    assert End(segs[1]) > n;
    assert w.base == 1;
  }

  // ---------------------------------------------------------------------
  // The loop

  /** Segments drawn from `segs`, appended to others drawn from it, are
      still drawn from it. */
  lemma AppendWithin(sent: seq<Segment>, more: seq<Segment>, segs: seq<Segment>)
    requires forall i | 0 <= i < |sent| :: sent[i] in segs
    requires forall x | x in more :: x in segs
    ensures forall i | 0 <= i < |sent + more| :: (sent + more)[i] in segs
  {
    forall i | 0 <= i < |sent + more|
      ensures (sent + more)[i] in segs
    {
      if i >= |sent| {
        assert (sent + more)[i] == more[i - |sent|];
      }
    }
  }

  /** Segments covered by some ACK number stay covered when ACK numbers
      are only added. */
  lemma StillCovered(segs: seq<Segment>, w: Window, r: Window)
    requires w.base <= r.base <= |segs| && w.acked <= r.acked
    requires forall i | 0 <= i < w.base :: Covered(w.acked, End(segs[i]))
    requires forall i | w.base <= i < r.base :: Covered(r.acked, End(segs[i]))
    ensures forall i | 0 <= i < r.base :: Covered(r.acked, End(segs[i]))
  {
    forall i | 0 <= i < w.base
      ensures Covered(r.acked, End(segs[i]))
    {
      var a :| a in w.acked && End(segs[i]) <= a;
      assert a in r.acked;
    }
  }

  /** One pass of the outer loop: a burst at time `tSend`, one ACK wait,
      and a sweep at time `tCheck`, as written (`asWritten`) or
      corrected. */
  function Round(segs: seq<Segment>, W: nat, w: Window, ev: AckEvent, tSend: int, tCheck: int, asWritten: bool)
    : (r: (Window, seq<Segment>))
    requires w.next <= |segs|
    ensures w.base <= r.0.base && w.next <= r.0.next <= |segs| && w.acked <= r.0.acked
    ensures forall x | x in r.1 :: x in segs
    ensures w.next < w.base + W && w.next < |segs| ==> |r.1| > 0 && r.1[0] == segs[w.next]
  {
    var b := Burst(segs, W, w, tSend);
    var a := OnEvent(segs, b.0, ev);
    var t := Sweep(segs, a, tCheck, asWritten);
    (t.0, b.1 + t.1)
  }

  /** Some received ACK number covers the byte range ending at `e`. */
  predicate Covered(acked: set<int>, e: int) {
    exists a | a in acked :: e <= a
  }

  /** A round keeps the invariant, never moves window_base back, only
      passes segments some received ACK covers, and only adds ACK
      numbers. */
  lemma RoundSpec(segs: seq<Segment>, W: nat, w: Window, ev: AckEvent, tSend: int, tCheck: int, asWritten: bool)
    requires Increasing(segs) && Inv(segs, W, w)
    ensures var r := Round(segs, W, w, ev, tSend, tCheck, asWritten).0;
            && Inv(segs, W, r)
            && w.base <= r.base && w.acked <= r.acked
            && (forall i | w.base <= i < r.base :: Covered(r.acked, End(segs[i])))
  {
    var b := Burst(segs, W, w, tSend).0;
    BurstInv(segs, W, w, tSend);
    if ev.Got? && ev.seg.flag.ack {
      var n := ev.seg.ackNumber;
      var b1 := b.(acked := b.acked + {n});
      assert Inv(segs, W, b1);
      SlideSpec(segs, W, b1, n);
      var a := Slide(segs, b1, n);
      forall i | w.base <= i < a.base
        ensures Covered(a.acked, End(segs[i]))
      {
        assert n in a.acked;
      }
      SweepInv(segs, W, a, tCheck, asWritten);
    } else {
      SweepInv(segs, W, b, tCheck, asWritten);
    }
  }

  /** Either sweep keeps the invariant: only timers change. */
  lemma SweepInv(segs: seq<Segment>, W: nat, w: Window, now: int, asWritten: bool)
    requires Inv(segs, W, w)
    ensures Inv(segs, W, Sweep(segs, w, now, asWritten).0)
  {
  }

  /** One turn of the loop as the environment drives it. */
  datatype Step = Step(ev: AckEvent, tSend: int, tCheck: int)

  /** What a send reports: every segment put on the wire, in order, the
      final window, and whether every segment was acknowledged. */
  datatype SendReport = SendReport(segs: seq<Segment>, sent: seq<Segment>, window: Window, complete: bool)

  datatype SendError =
    | NoConnection          // KeyError: no connection to the destination
    | SplitFailed           // struct.error while building a fragment

  /** _send_message, driven by a finite script of loop turns (the source
      loops until every segment is acknowledged). The connection is looked
      up, the message split with the connection's numbers, and the window
      run; the connection's send_seq is written back unchanged. With
      `asWritten` the loop sweeps as lines 141-147 do; without it, with
      the acknowledgement-number test removed. */
  method SendMessage(k: Flags.FlagBits, conns: map<Addr, Connection>, peer: Addr, info: MessageInfo,
                     P: nat, W: nat, script: seq<Step>, asWritten: bool)
    returns (r: Result<SendReport, SendError>, conns': map<Addr, Connection>)
    requires Flags.ValidBits(k) && P >= 1 && W >= 1
    ensures conns' == conns
    ensures r.Err? <==> peer !in conns || Split(k, info.username, info.msg, conns[peer].sendSeq, conns[peer].recvSeq, P).Err?
    ensures r.Err? ==> (r.error == NoConnection <==> peer !in conns)
    ensures r.Ok? ==> var rep := r.value;
                      && rep.segs == Split(k, info.username, info.msg, conns[peer].sendSeq, conns[peer].recvSeq, P).value
                      && Inv(rep.segs, W, rep.window)
                      && (rep.complete <==> rep.window.base == |rep.segs|)
                      && (forall i | 0 <= i < rep.window.base :: Covered(rep.window.acked, End(rep.segs[i])))
                      && (|script| > 0 && |rep.segs| > 0 ==>
                            |rep.sent| > 0 && rep.sent[0] == rep.segs[0])
                      && (forall i | 0 <= i < |rep.sent| :: rep.sent[i] in rep.segs)
  {
    conns' := conns;
    if peer !in conns {
      return Err(NoConnection), conns';
    }
    var conn := conns[peer];
    var split := Split(k, info.username, info.msg, conn.sendSeq, conn.recvSeq, P);
    if split.Err? {
      return Err(SplitFailed), conns';
    }
    var segs := split.value;
    SplitIncreasing(k, info.username, info.msg, conn.sendSeq, conn.recvSeq, P);
    var w := Start;
    var sent: seq<Segment> := [];
    var j := 0;
    StartInv(segs, W);
    while j < |script| && w.base < |segs|
      invariant 0 <= j <= |script|
      invariant Inv(segs, W, w)
      invariant forall i | 0 <= i < w.base :: Covered(w.acked, End(segs[i]))
      invariant j == 0 ==> w == Start && sent == []
      invariant j > 0 && |segs| > 0 ==> |sent| > 0 && sent[0] == segs[0]
      invariant forall i | 0 <= i < |sent| :: sent[i] in segs
      decreases |script| - j
    {
      var step := script[j];
      var out := Round(segs, W, w, step.ev, step.tSend, step.tCheck, asWritten);
      RoundSpec(segs, W, w, step.ev, step.tSend, step.tCheck, asWritten);
      StillCovered(segs, w, out.0);
      if j == 0 {
        assert Burst(segs, W, w, step.tSend).1 == segs[0..Burst(segs, W, w, step.tSend).0.next];
      }
      AppendWithin(sent, out.1, segs);
      sent := sent + out.1;
      w := out.0;
      j := j + 1;
    }
    r := Ok(SendReport(segs, sent, w, w.base == |segs|));
  }
}
